=== FILE: README.md ===
# Harmonic annotation engine, modelled in Dafny

This project models the part of the score renderer that turns a MusicXML score into timed
chords. The modelled behaviour is as follows:

- Chord symbols and "no chord" annotations on each part become harmonic spans.
- Each span is resolved into chords, either as an explicit chord name or by collecting
  pitches over sub-spans that a small annotation language selects.

The project also models the pieces around that engine:

- the pitch-spelling tables;
- beat-to-seconds timing;
- the bounded selection history of the twelve-note circle widget and its playback bookkeeping;
- the state lists of the lyric, chord and key text widgets;
- the data side of the `BinaryNumber` demo widget.

Offsets and times are exact `real`s. A pitch is an opaque equality type, and a chord is a
`set` of pitches. Every failure the source raises (`ValueError`, `AssertionError`,
`KeyError`, `IndexError`, `TypeError`) is an error value of a `Result`.

Modules, one per file:

| module | file | models |
|---|---|---|
| `Wrappers` | wrappers.dfy | `Option` / `Result` |
| `Offsets` | offsets.dfy | sorted distinct offsets (sort, then group equal offsets) |
| `ScoreData` | score_data.dfy | score, parts, annotations, notes, measure starts |
| `AnnotationGrammar` | annotation_grammar.dfy | the chord-annotation recogniser `^(rhythm parts?\|parts)$` |
| `SpanBuilder` | span_builder.dfy | `extract_chord_symbols`: spans and the `x` exclusion map |
| `ClusterResolver` | cluster_resolver.dfy | `process_chord_annotation`, `extract_harmonic_clusters` |
| `MusicConstants` | music_constants.dfy | the `Note` table, enharmonics, `note_for_step`, `interval_exact`, `notes_in_sequence`, `display` |
| `Timing` | timing.dfy | `_beat_to_sec`, `_set_timing_sec`, `resolve_timing` |
| `SelectionHistory` | selection_history.dfy | both `Circle12Notes.select_step` variants |
| `CirclePlayback` | circle_playback.dfy | `PlayCircle12Notes` played-once bookkeeping |
| `MusicText` | music_text.dfy | `LyricText.play`, `ChordText.play`, `KeyText.play`, `PlayMusicText` |
| `BinaryNumber` | binary_number.dfy | `_validate_data`, `base10_val`, `set_value` |

Behaviour of the code worth knowing:

- An explicit chord symbol is an error when its span holds more than one annotation of any
  kind (`len(chord_symbols) > 1`). It is not an error only when there is more than one
  distinct chord.
- The recogniser runs on the lower-cased text, and Python's `$` also matches before one final
  newline. So `"M"` and `"m\n"` are accepted.
- Rhythm tokens are compared as text, as `set(...)` of the matched groups does. So `"2"` and
  `"2.0"` in one span are two different rhythms and are refused.

## Model

| member | source | states |
|---|---|---|
| AnnotationGrammar.Lower | renderer/musicxml.py:220 | the annotation text is lower-cased before matching; only ASCII capitals change and the length is kept |
| AnnotationGrammar.ScanNumeralIsNumeral | renderer/musicxml.py:155 | the numeral scanner accepts exactly the strings of `([0-9]*[.])?[0-9]+` |
| AnnotationGrammar.RecognizeRender | renderer/musicxml.py:154-164 | every well-formed directive (an optional rhythm `n`/`m`/numeral, then an optional `p`/`a`, at least one present) is accepted in its written form, also with one trailing newline, and parses back to itself |
| AnnotationGrammar.RecognizeSound | renderer/musicxml.py:154-164 | every accepted string is exactly the written form of a well-formed directive, possibly followed by one newline: the whole string must match |
| AnnotationGrammar.RecognizerExamples | renderer/musicxml.py:170-194 | "ma","m","a","np","n","p","6","1.5",".5" are accepted with the expected tokens; "xa","","mm","aa","am","b","ba" are rejected |
| AnnotationGrammar.NumeralValue | renderer/musicxml.py:299 | the beat step of a numeral is a non-negative exact value |
| AnnotationGrammar.NumeralValueExamples | renderer/musicxml.py:299 | `Fraction` of "1.5", ".5", "6", "0" is 3/2, 1/2, 6, 0 |
| SpanBuilder.FilterOffsets | renderer/musicxml.py:91-94 | the offsets kept for a part are exactly those of its non-`x` annotations |
| SpanBuilder.LastSpanAnnotationAt | renderer/musicxml.py:103-107 | at an offset a part contributes its last non-`x` annotation there, and nothing when it has none |
| SpanBuilder.GroupedSpans | renderer/musicxml.py:82-107 | span starts are strictly increasing, are exactly the offsets where some part has a non-`x` annotation, and each span holds exactly those parts' annotations |
| SpanBuilder.BuildSpans | renderer/musicxml.py:108-115 | the first span starts at 0 and starts stay strictly increasing |
| SpanBuilder.BuildSpansDefault | renderer/musicxml.py:108-115 | a default span for the first part is inserted at 0 exactly when no part has a non-`x` annotation at 0; otherwise the grouped spans are unchanged |
| SpanBuilder.BuildSpansContents | renderer/musicxml.py:91-115 | every span is either the inserted default or holds exactly the non-`x` annotations at its start; `x` never opens a span |
| SpanBuilder.XOffsets | renderer/musicxml.py:138-141 | the offsets recorded for a part are exactly those of its `x` annotations |
| SpanBuilder.ExclusionsByPartBlocks | renderer/musicxml.py:260-267 | with the intended map a note of part p at offset o is filtered out iff p has an `x` at o |
| SpanBuilder.ExclusionsAsWrittenNeverBlock | renderer/musicxml.py:139-141 | with the map as the code builds it (keyed by chord-symbol objects) no note is ever filtered out |
| ClusterResolver.ResolveExplicit | renderer/musicxml.py:207-214 | a span holding a chord symbol is an error iff it holds more than one annotation; otherwise it yields exactly one chord, named by the symbol, at the span start |
| ClusterResolver.ResolveExplicitAsWritten | renderer/musicxml.py:214 | as written, the explicit path never yields a chord: `next` on a dict view raises |
| ClusterResolver.ExplicitLookupFinding | renderer/musicxml.py:214 | a lone chord symbol fails as written and gives its chord in the corrected path |
| ClusterResolver.ParseEntries | renderer/musicxml.py:217-224 | parsing succeeds iff every annotation of the span matches the pattern; the error names the first that does not |
| ClusterResolver.SingleDirective | renderer/musicxml.py:218-234 | a single directive parses to its tokens, and its rhythm and parts values are single |
| ClusterResolver.IncludedParts | renderer/musicxml.py:245-254 | with a `p` anywhere the parts in scope are exactly the annotated ones, otherwise all parts |
| ClusterResolver.MeasuresIn | renderer/musicxml.py:289-296 | the measure starts queried are exactly those in the span, the end boundary included only when the query includes it |
| ClusterResolver.FRangeShape | renderer/musicxml.py:297-300 | a numeric step k gives the starts `start + i*k`, all below the end, and no further start fits |
| ClusterResolver.ClusterStartsFollowsSource | renderer/musicxml.py:281-300 | sub-span starts follow the source's three-way test: `n` or all unspecified gives the span start, else `m` gives the distinct measure starts, else the numeric step; a zero step is an error |
| ClusterResolver.SubRanges | renderer/musicxml.py:301-307 | sub-spans are contiguous, one per start, and the last ends at the span end |
| ClusterResolver.ResolveDirectives | renderer/musicxml.py:217-331 | errors come in source order: unparseable text, then more than one rhythm value, then more than one parts value ("unspecified" counts as a value); otherwise one chord per sub-span, holding the pitches of the in-scope, non-excluded notes in it |
| ClusterResolver.NeverGivesWholeSpan | renderer/musicxml.py:284-288 | `n` or no rhythm gives a single chord over the whole span |
| ClusterResolver.NumericSubSpans | renderer/musicxml.py:297-300 | a numeric rhythm k > 0 gives chords at `start + i*k < end`; k = 0 is an error |
| ClusterResolver.ChordOffsetsAreStarts | renderer/musicxml.py:301-331 | the chords of a resolved span sit exactly at its sub-span starts |
| ClusterResolver.ThisPartScope | renderer/musicxml.py:246-251 | with `p`, every chord's pitches come only from the annotated parts |
| ClusterResolver.MeasureExample | renderer/musicxml.py:289-296 | `m` over measures at 0,4,8,12 of a 16-beat span gives chords at 0,4,8,12 over four contiguous sub-spans |
| ClusterResolver.NumericExample | renderer/musicxml.py:297-300 | `2` over a 10-beat span gives chords at 0,2,4,6,8 |
| ClusterResolver.ScopeExample | renderer/musicxml.py:246-251 | `p` on one of two parts leaves the other part's pitch out |
| ClusterResolver.OuterRangesTile | renderer/musicxml.py:354-368 | the outer spans tile [0, highestTime): each ends where the next starts and the last ends at `highestTime` |
| ClusterResolver.Collect | renderer/musicxml.py:356-369 | the loop over the spans succeeds iff every span does; otherwise its error is that of the first failing span, and on success the result is every span's chords concatenated in span order (`Flatten`), as `chords.extend` builds it |
| ClusterResolver.FlattenMembers | renderer/musicxml.py:364-369 | a chord is in the concatenated list iff some span produced it: no span's chords are lost and none are invented |
| ClusterResolver.ExtractHarmonicClusters | renderer/musicxml.py:334-369 | with the lookup at :214 corrected (`ResolveExplicit`) and the intended exclusion map, the piece resolves iff each span does over its outer range; an error is that of the first failing span; on success the chords are those of each span, concatenated in span order |
| ClusterResolver.UnannotatedSpans | renderer/musicxml.py:108-115 | a piece without annotations has the single default span at 0 |
| ClusterResolver.UnannotatedAsWritten | renderer/musicxml.py:39 | with the default taken as written (an explicit chord symbol "ma") and the lookup at :214 corrected (`ResolveExplicit`), an unannotated piece is one chord named "ma" at 0; the code as written raises `TypeError` at :214 instead |
| ClusterResolver.UnannotatedAsDocumented | renderer/musicxml.py:338-339 | with the default read as the directive `ma`, an unannotated piece has one chord per distinct measure start from 0 up to `highestTime`, with `highestTime` itself included only when the measure query includes the end |
| ClusterResolver.ExclusionExample | renderer/musicxml.py:260-279 | with the intended map, an `x` on a note's part and offset removes its pitch from the chord |
| ClusterResolver.IntendedExclusionPitches | renderer/musicxml.py:260-279 | the pitch set of the example span with the intended map is exactly the non-excluded pitch |
| ClusterResolver.ExclusionFinding | renderer/musicxml.py:139-141 | with the map as written, the excluded pitch stays in the chord, unlike with the intended map |
| ClusterResolver.AsWrittenExclusionPitches | renderer/musicxml.py:139-141 | as written, the example span keeps both pitches |
| MusicConstants.RowRanges | renderer/music/music_constants.py:61-81 | every note's scale step is in 0..11 and its accidental in -1..1 |
| MusicConstants.AllNotesComplete | renderer/music/music_constants.py:54-56 | the note list has the 21 notes, each exactly once, in declaration order |
| MusicConstants.SpellingsAreSteps | renderer/music/music_constants.py:86-89 | a note is among the spellings of a step iff its scale step is that step |
| MusicConstants.SpellingsInDeclarationOrder | renderer/music/music_constants.py:86-89 | a step's spellings are listed in declaration order |
| MusicConstants.SpellingCounts | renderer/music/music_constants.py:86-98 | every step has one or two spellings with distinct accidentals; exactly steps 2, 7, 9 have one |
| MusicConstants.EnharmonicLinks | renderer/music/music_constants.py:90-98 | `enharmonic` is a different note with the same step, is symmetric, and is absent exactly for steps 2, 7, 9 |
| MusicConstants.NaturalOrFlat | renderer/music/music_constants.py:101-106 | a step without a natural spelling has a flat one |
| MusicConstants.NoteForStep | renderer/music/music_constants.py:101-106 | defined exactly for steps 0..11; the result has that step, is never a sharp, is the natural when one exists and otherwise the lowest accidental |
| MusicConstants.NoteForStepTable | renderer/music/music_constants.py:101-106 | `note_for_step` agrees with the table C, Db, D, Eb, E, F, Gb, G, Ab, A, Bb, B |
| MusicConstants.CanonicalSpellings | renderer/music/music_constants.py:101-106 | a note is what `note_for_step` gives for its own step iff it is one of those twelve |
| MusicConstants.IntervalExact | renderer/music/music_constants.py:132-134 | the result's step is `(step + k) mod 12`, spelt canonically |
| MusicConstants.IntervalExactIsNoteForStep | renderer/music/music_constants.py:132-134 | the result is what `note_for_step` gives for the step `(step + k) mod 12` |
| MusicConstants.IntervalRoundTrip | renderer/music/music_constants.py:132-134 | going up k and back down k returns the canonical spelling of the start note |
| MusicConstants.RStrip | renderer/music/music_constants.py:51 | trailing copies of the character are removed and nothing else |
| MusicConstants.DisplayOmitsNatural | renderer/music/music_constants.py:45-52 | without Unicode the portable name is shown; with Unicode and omit-natural a trailing ♮ is dropped from naturals only |
| MusicConstants.Dedup | renderer/music/music_constants.py:139 | `dict.fromkeys` keeps the same members, each once, starting with the first |
| MusicConstants.DedupOrder | renderer/music/music_constants.py:139 | kept members are in order of first occurrence |
| MusicConstants.DedupCount | renderer/music/music_constants.py:139 | the number kept is the number of distinct members |
| MusicConstants.NotesInSequence | renderer/music/music_constants.py:137-141 | each note is the canonical spelling of its step, and the steps are the de-duplicated walk of twelve steps `start + i*offset` taken mod 12 |
| MusicConstants.NotesInSequenceShape | renderer/music/music_constants.py:137-141 | the sequence starts at `start mod 12`, has no repeated step, covers exactly the walk's steps, in first-occurrence order |
| MusicConstants.NotesInSequenceCovers | renderer/music/music_constants.py:137-147 | for offsets 1 and 7 the sequence has all twelve steps |
| Timing.BeatToSec | renderer/timing.py:30-35 | at 180 bpm (3 beats per second) the time is the beat divided by 3 plus the 2-second lead-in |
| Timing.SecToBeat | renderer/timing.py:30-35 | the conversion has an inverse on times from the lead-in on |
| Timing.BeatToSecRoundTrip | renderer/timing.py:30-35 | converting a beat to seconds and back gives the beat |
| Timing.BeatToSecAtZero | renderer/timing.py:6 | beat 0 sounds exactly at the 2-second lead-in |
| Timing.BeatToSecMonotone | renderer/timing.py:30-35 | later beats sound strictly later, and distinct beats at distinct times |
| Timing.SetTiming | renderer/timing.py:38-39 | only the time is written, derived from the offset; offset and payload are kept |
| Timing.SetLyric | renderer/timing.py:20-23 | a lyric and every one of its syllables get their times |
| Timing.ResolveTiming | renderer/timing.py:9-27 | every note, per-part note, chord, lyric, syllable, key and chord root is timed, and nothing else changes |
| Timing.ResolvedIsUnique | renderer/timing.py:9-39 | any fully timed data that differs from the input only in times is the pass's result |
| Timing.ResolveTimingIdempotent | renderer/timing.py:38-39 | re-running the pass changes nothing, and already-timed data is left as it is |
| SelectionHistory.Refresh | renderer/music_circles.py:129-137 | the refresh loop fails iff a step has no circle or a connector before the last is missing; otherwise nothing changes |
| SelectionHistory.SelectStep | renderer/music_circles.py:99-137 | an ignored step changes nothing; a step without a circle is an error; otherwise the step goes to the head, dropping the oldest when over the bound. The variant in renderer/obj_music_circles.py (lines 101-146) differs only in its head-only ignore test, the `IgnoreHead` policy |
| SelectionHistory.SelectPreservesValid | renderer/music_circles.py:101-127 | with bound at least 1, selecting keeps the history bounded, with one connector fewer than steps and the new step at the head. It is duplicate-free under the first variant; under the second (renderer/obj_music_circles.py:105-134) no two adjacent steps are equal |
| SelectionHistory.RunIsValid | renderer/music_circles.py:76-127 | from the empty widget every run of selections succeeds and ends in a valid history |
| SelectionHistory.FirstSelectWithoutRoom | renderer/music_circles.py:119-127 | with a bound below 1 the first selection fails popping a connector that does not exist |
| SelectionHistory.SelectAllAppend | renderer/obj_music_circles.py:186-192 | a series of selections from a given history (`SelectAll`) composes: selecting `a` then `b` is selecting `a + b`, and a failure in `a` is the result |
| SelectionHistory.RunIsSelectAll | renderer/music_circles.py:76-137 | a run of selections from the empty widget is the same series of selections folded from the empty history |
| SelectionHistory.PoliciesDiffer | renderer/obj_music_circles.py:105-108 | re-selecting an older step is ignored by the first variant but added again by the second |
| CirclePlayback.Start | renderer/obj_music_circles.py:174-181 | a new animation has played nothing and last processed beat -1 |
| CirclePlayback.NewNotes | renderer/obj_music_circles.py:186-187 | the notes of a frame that get played are the reported ones not yet played, each once, in report order |
| CirclePlayback.PlayFound | renderer/obj_music_circles.py:186-192 | every reported note ends up played, and earlier sends are kept. `select_step` is called once per new note (`NewNotes`) with its pitch class, in report order: the outcome fails exactly as that series of selections fails, and otherwise holds the history it leads to |
| CirclePlayback.Interpolate | renderer/obj_music_circles.py:184-193 | one frame plays every reported note once and records the current beat as processed; the widget's history is that of selecting the pitch classes of the frame's new notes, in order, and an error is that series' error |
| CirclePlayback.Animate | renderer/obj_music_circles.py:184-193 | over successive frames the sent log only grows, and the widget's history is that of selecting, in order, the pitch classes of the notes sent |
| CirclePlayback.EachNoteSelectedOnce | renderer/obj_music_circles.py:186-192 | over a whole animation each note is sent to the widget at most once, and only notes some frame reported; the widget's final history is exactly that of selecting the sent notes' pitch classes in order from the starting history, so no note triggers `select_step` twice |
| MusicText.Separator | renderer/obj_music_text.py:152-162 | the separator is the given string, or "-" when none is given, wrapped in gray colour markup |
| MusicText.JoinAppend | renderer/obj_music_text.py:203-205 | joining a concatenation splits at the seam with one separator |
| MusicText.JoinLength | renderer/obj_music_text.py:203-205 | a join holds the parts and one separator between each two |
| MusicText.LyricStates | renderer/obj_music_text.py:198-209 | without highlighting, one state per lyric at its time, whose text is its syllables joined by the separator |
| MusicText.HighlightStates | renderer/obj_music_text.py:213-237 | a one-syllable lyric gives one state with the bare syllable at the lyric's time; otherwise one state per syllable, in order, at that syllable's time |
| MusicText.HighlightedLyricStates | renderer/obj_music_text.py:211-237 | with highlighting the states are the lyrics' highlight states one after another |
| MusicText.SingleSyllableModesAgree | renderer/obj_music_text.py:198-224 | when every lyric has one syllable, both modes give the same states |
| MusicText.Transitions | renderer/obj_music_text.py:281-291 | one transition per state, in input order, with its time and text |
| MusicText.TransitionsCarryForward | renderer/obj_music_text.py:278-284 | each transition uses the last colour and last non-zero font size set at or before it, seeded from the widget |
| MusicText.ItemStates | renderer/obj_music_text.py:73-128 | `ChordText.play` and `KeyText.play` give one state per chord or key, its time copied and its text displayed |
| MusicText.KeysKeepFontSize | renderer/obj_music_text.py:113-128 | key states carry no font size, so every key transition keeps the widget's |
| BinaryNumber.ValidateData | renderer/play/BinaryDisplay.py:129-144 | the result always has `num_digits` values; `None` gives zeros; a list is truncated or padded; other types, negative integers and non-digit text are refused (as in the copy at renderer/play.py:189-204) |
| BinaryNumber.Fit | renderer/play/BinaryDisplay.py:140-143 | long input keeps its first `num_digits` values; short input is left-padded with zeros (as in the copy at renderer/play.py:200-203) |
| BinaryNumber.Bits | renderer/play/BinaryDisplay.py:132-133 | `bin()` gives at least one digit, each 0 or 1 |
| BinaryNumber.DigitValues | renderer/play/BinaryDisplay.py:134-135 | each character must be a decimal digit and maps to its value |
| BinaryNumber.Base10Val | renderer/play/BinaryDisplay.py:147-153 | the loop sums bit times `2^(n-1-i+p)`, which is the bits' positional value times `2^p` (as in the copy at renderer/play.py:207-213) |
| BinaryNumber.SumIsScaledValue | renderer/play/BinaryDisplay.py:147-153 | the place-value sum equals Horner's value times `2^p` |
| BinaryNumber.AllZerosValue | renderer/play/BinaryDisplay.py:130-131 | all-zero bits are worth 0 |
| BinaryNumber.ZeroPaddingKeepsValue | renderer/play/BinaryDisplay.py:142-143 | left zero-padding keeps the value |
| BinaryNumber.BitsValue | renderer/play/BinaryDisplay.py:132-133 | the `bin()` digits read back give the number |
| BinaryNumber.IntRoundTrip | renderer/play/BinaryDisplay.py:132-153 | for p = 0 and 0 <= v < 2^num_digits the stored bits evaluate back to v |
| BinaryNumber.TextMatchesList | renderer/play/BinaryDisplay.py:134-137 | a string of bits normalises as the list of those bits does |
| BinaryNumber.PrefixMarkIgnored | renderer/play/BinaryDisplay.py:134-135 | a leading "0b" in text is ignored |
| BinaryNumber.NewBinary | renderer/play/BinaryDisplay.py:155-177 | construction fails as validation does (as in the copy at renderer/play.py:215-237); with valid data it fails with `IndexError` exactly when `num_digits` is 0, where centring reads the first digit of an empty row; otherwise it stores the `num_digits` validated values |
| BinaryNumber.ChangedIndices | renderer/play/BinaryDisplay.py:188-190 | exactly the positions whose bit changed, in increasing order |
| BinaryNumber.SetValue | renderer/play/BinaryDisplay.py:182-203 | invalid input is refused; input equal to the current bits is refused; otherwise the normalised bits are stored and exactly the changed digits are redrawn (as in the copy at renderer/play.py:242-263) |
| BinaryNumber.RedrawYieldsNewData | renderer/play/BinaryDisplay.py:188-203 | writing the new bits at the redrawn positions of the old bits gives the stored bits |

## Left out

- The music21 layer is not modelled: parsing, `getOffsetInHierarchy`, `recurse`, the offset
  queries and `Chord` construction. Offsets, notes and measure starts are plain inputs.
- The inclusive or exclusive end of the measure query is a parameter (`includeEnd`), because
  that query does not say `includeEndBoundary=False`.
- `frange`, `get_unique_offsets`, `group_or_default` and `extract_notes_with_offset` live in a
  helper module that is not part of this model. Their assumed behaviour:
  - `frange` is range-like stepping `start, start+k, … < end`;
  - `get_unique_offsets` gives the sorted distinct offsets;
  - `group_or_default` gives the named group, or "unspecified".
- ClusterResolver.ClusterStartsFollowsSource: a step of 0 (the grammar accepts "0") is the
  error `ZeroStep`, because what `frange` does with a zero step is not part of this model.
- ClusterResolver.ResolveDirectives: the consistency checks at renderer/musicxml.py:240 and
  :243 are Python `assert`s. Python removes them under `-O`; the model always performs them.
- ClusterResolver.ExtractHarmonicClusters: the model requires at least one part. For a score
  with no parts the source keys its default annotation by `None`.
- `analyze_harmonic_cluster` is not modelled. It is unused, and the copying of timing onto
  chords belongs to the helper module.
- AnnotationGrammar.Lower: only ASCII capitals are lower-cased. Python's full Unicode case
  mapping is not modelled.
- `IntervalQuality` is not modelled: it is declared with `def`, so it is not an enum. The
  line after the `return` in `note_for_step` is not modelled either, because it never runs.
- MusicConstants.NoteForStep: a step outside 0..11 gives `None` where the source raises
  `KeyError`.
- Floating-point rounding is not modelled. Beat and second values are exact reals.
- The `MusicDataTiming` class and the lyric, key and chord-root extraction are not part of
  this model. Timed items are opaque payloads with an offset and an optional time.
- Drawing is not modelled. This covers circles, lines, opacities (including the default
  opacity curve, which divides by `max_selected_steps`), Tex templates, the ×1.5 font-size
  bump and the animation grouping in `set_value`.
- SelectionHistory.SelectStep: an error result carries no state. In the source, a `KeyError`
  or `IndexError` is raised after the list has already been changed.
- CirclePlayback.Interpolate: the notes a frame's offset query returns are a parameter.
  Stream notes are identified by an id, standing in for Python object identity.
- MusicText.HighlightStates: the emphasis is positional, so only the current syllable is
  active. The source compares syllable strings with `is`, which can also activate another
  syllable whose text is the same object.
- MusicText.Transitions: a colour is kept only when it is `None`. Font size is also kept when
  it is 0, because 0 is falsy. A `ManimColor` is always truthy.
- An empty state list makes `PlayMusicText.__init__` return early, leaving the animation
  uninitialised. The model gives no transitions.
- `display_chord_short` and `display_key` are not part of this model. They are a function
  parameter of `MusicText.ItemStates`.
- BinaryNumber.Base10Val: only non-negative `starting_power` is modelled. A negative one
  produces floats.
- BinaryNumber.ValidateData: the model has the following limits:
  - `num_digits` is a natural number (in the source a negative one slices from the end);
  - `int()` of non-ASCII decimal digits is not modelled;
  - `bool` input is not modelled;
  - list elements are taken to be integers.

## Findings

| source | as written | input that shows it | evidently intended | confidence | as-written member | corrected member |
|---|---|---|---|---|---|---|
| renderer/musicxml.py:139-141 | the loop unpacks `(offset, chord_symbol, part)` tuples as `(_, part, chord_symbol)` and filters nothing. The "exclusion" map is therefore keyed by chord-symbol objects and holds, under every annotation's key, its part's offset in the score (0), so the per-part lookup at :261 never matches | one part with note a at beat 0 and note b at beat 3, the directive `n` at 0 and an `x` at 3, piece length 4: the chord at 0 keeps {a, b} | only `x` annotations, grouped by part (comment at :138, docstring at :344), so the chord is {a} | high (not executed) | ClusterResolver.ExclusionFinding | ClusterResolver.ExclusionExample |
| renderer/musicxml.py:214 | `next(chord_symbols.values())` calls `next` on a dict view, which is not an iterator, so it raises `TypeError` | any span holding a single explicit chord symbol | the sole annotation of the span becomes the chord | high (not executed) | ClusterResolver.ExplicitLookupFinding | ClusterResolver.ResolveExplicit |
| renderer/musicxml.py:39 | the default annotation is a `ChordSymbol` of kind "ma", so it takes the explicit path; as written that path raises `TypeError` at :214, and even with :214 corrected it only names a chord "ma" | a score with no annotations | the docstring at :338-339 says the default groups notes by measure across all parts, like the directive `ma` | medium (not executed) | ClusterResolver.UnannotatedAsWritten | ClusterResolver.UnannotatedAsDocumented |

=== FILE: annotation_grammar.dfy ===
/**
 * The chord-annotation grammar of `renderer/musicxml.py`: the text of a "no chord"
 * annotation is an optional harmonic-rhythm token followed by an optional parts token,
 * at least one of the two present, matching the whole (lower-cased) text.
 *
 *   rhythm  ::= "n" | "m" | numeral          numeral ::= ([0-9]* ".")? [0-9]+
 *   parts   ::= "p" | "a"
 *   span    ::= rhythm parts? | parts
 *
 * `Recognize` is the scanner (a stand-in for the compiled regular expression); `Render`
 * with `WellFormed` is the grammar read as a generator. The lemmas tie the two together.
 */
module AnnotationGrammar {
  import opened Wrappers

  /** How often a new chord starts: never (`n`), every measure (`m`), or every `numeral` beats. */
  datatype RhythmToken = Never | PerMeasure | EveryBeats(numeral: string)

  /** Which parts feed the analysis: the annotated parts only (`p`) or all parts (`a`). */
  datatype PartsToken = ThisPart | AllParts

  /** The two named capture groups; `None` is the source's "unspecified". */
  datatype Directive = Directive(rhythm: Option<RhythmToken>, parts: Option<PartsToken>)

  predicate IsDigit(c: char) {
    '0' <= c <= '9'
  }

  predicate AllDigits(s: string) {
    forall i | 0 <= i < |s| :: IsDigit(s[i])
  }

  /** `([0-9]*[.])?[0-9]+` as a set of strings: digits only, or digits, one dot, and at least one digit. */
  predicate IsNumeral(s: string) {
    || (|s| > 0 && AllDigits(s))
    || (exists i | 0 <= i < |s| :: DotSplit(s, i))
  }

  /** `s` is digits, a dot at `i`, and at least one more digit. */
  predicate DotSplit(s: string, i: int) {
    0 <= i < |s| - 1 && s[i] == '.' && AllDigits(s[..i]) && AllDigits(s[i + 1..])
  }

  /** Python's `str.lower`, for the ASCII letters that can occur in the grammar. */
  function Lower(s: string): (r: string)
    ensures |r| == |s|
    ensures forall i | 0 <= i < |s| :: r[i] == if 'A' <= s[i] <= 'Z' then (s[i] as int + 32) as char else s[i]
  {
    if |s| == 0 then ""
    else [if 'A' <= s[0] <= 'Z' then (s[0] as int + 32) as char else s[0]] + Lower(s[1..])
  }

  // ---------------------------------------------------------------- the grammar as a generator

  function RhythmText(t: RhythmToken): string {
    match t
    case Never => "n"
    case PerMeasure => "m"
    case EveryBeats(numeral) => numeral
  }

  function PartsChar(t: PartsToken): char {
    match t
    case ThisPart => 'p'
    case AllParts => 'a'
  }

  /** A directive the grammar can produce: at least one token, and a numeral that is a numeral. */
  predicate WellFormed(d: Directive) {
    && (d.rhythm.Some? || d.parts.Some?)
    && (d.rhythm.Some? && d.rhythm.value.EveryBeats? ==> IsNumeral(d.rhythm.value.numeral))
  }

  /** The text of a directive: the rhythm token, then the parts letter. */
  function Render(d: Directive): string {
    (if d.rhythm.Some? then RhythmText(d.rhythm.value) else "")
    + (if d.parts.Some? then [PartsChar(d.parts.value)] else "")
  }

  // ---------------------------------------------------------------- the scanner

  /** Scans `t` as the digits of a fraction. */
  function ScanFraction(t: string): bool {
    if |t| == 0 then true
    else IsDigit(t[0]) && ScanFraction(t[1..])
  }

  /** Scans `t` as leading digits, optionally followed by a dot and a non-empty fraction. */
  function ScanInteger(t: string): bool {
    if |t| == 0 then true
    else if IsDigit(t[0]) then ScanInteger(t[1..])
    else t[0] == '.' && |t| > 1 && ScanFraction(t[1..])
  }

  function ScanNumeral(s: string): bool {
    |s| > 0 && ScanInteger(s)
  }

  function RecognizeRhythm(body: string): Option<RhythmToken> {
    if body == "n" then Some(Never)
    else if body == "m" then Some(PerMeasure)
    else if ScanNumeral(body) then Some(EveryBeats(body))
    else None
  }

  /** The `harmonic_span` alternation matched against the whole of `body`. */
  function RecognizeSpan(body: string): Option<Directive> {
    if |body| == 0 then None
    else
      var last := body[|body| - 1];
      if last == 'p' || last == 'a' then
        var parts := if last == 'p' then ThisPart else AllParts;
        if |body| == 1 then Some(Directive(None, Some(parts)))
        else
          match RecognizeRhythm(body[..|body| - 1])
          case Some(r) => Some(Directive(Some(r), Some(parts)))
          case None => None
      else
        match RecognizeRhythm(body)
        case Some(r) => Some(Directive(Some(r), None))
        case None => None
  }

  /**
   * `CHORD_ANNOTATION_PATTERN.match(s)`: the pattern is anchored by `^` and `$`, and
   * Python's `$` also matches just before a newline that ends the string.
   */
  function Recognize(s: string): Option<Directive> {
    if |s| > 0 && s[|s| - 1] == '\n' then RecognizeSpan(s[..|s| - 1])
    else RecognizeSpan(s)
  }

  /** What the resolver applies to an annotation's text: lower-case it, then match. */
  function ParseAnnotation(text: string): Option<Directive> {
    Recognize(Lower(text))
  }

  // ---------------------------------------------------------------- numeral values

  function Pow10(k: nat): (r: nat)
    ensures r >= 1
  {
    if k == 0 then 1 else 10 * Pow10(k - 1)
  }

  function DigitsValue(s: string): nat
    requires AllDigits(s)
  {
    if |s| == 0 then 0
    else 10 * DigitsValue(s[..|s| - 1]) + (s[|s| - 1] as int - '0' as int)
  }

  /** Index of the first dot in `s`, or `|s|` when there is none. */
  function DotIndex(s: string): (r: nat)
    ensures r <= |s|
    ensures r < |s| ==> s[r] == '.'
    ensures forall k | 0 <= k < r :: s[k] != '.'
  {
    if |s| == 0 then 0
    else if s[0] == '.' then 0
    else 1 + DotIndex(s[1..])
  }

  lemma {:induction false} DotIndexIsFirstDot(s: string, i: nat)
    requires i <= |s|
    requires forall k | 0 <= k < i :: s[k] != '.'
    requires i < |s| ==> s[i] == '.'
    ensures DotIndex(s) == i
  {
    if i > 0 {
      DotIndexIsFirstDot(s[1..], i - 1);
    }
  }

  lemma NumeralParts(s: string)
    requires IsNumeral(s)
    ensures AllDigits(s[..DotIndex(s)])
    ensures DotIndex(s) < |s| ==> DotSplit(s, DotIndex(s))
  {
    if |s| > 0 && AllDigits(s) {
      DotIndexIsFirstDot(s, |s|);
      assert s[..|s|] == s;
    } else {
      var i :| 0 <= i < |s| && DotSplit(s, i);
      assert forall k | 0 <= k < i :: s[k] != '.' by {
        forall k | 0 <= k < i ensures s[k] != '.' {
          assert IsDigit(s[..i][k]);
        }
      }
      DotIndexIsFirstDot(s, i);
    }
  }

  /** `Fraction(numeral)`: the exact value of a decimal numeral. */
  function NumeralValue(s: string): (r: real)
    requires IsNumeral(s)
    ensures r >= 0.0
  {
    NumeralParts(s);
    var d := DotIndex(s);
    if d == |s| then DigitsValue(s) as real
    else DigitsValue(s[..d]) as real + DigitsValue(s[d + 1..]) as real / Pow10(|s| - d - 1) as real
  }

  // ---------------------------------------------------------------- scanner = grammar

  lemma {:induction false} ScanFractionIsDigits(t: string)
    ensures ScanFraction(t) <==> AllDigits(t)
  {
    if |t| > 0 {
      ScanFractionIsDigits(t[1..]);
      assert t == [t[0]] + t[1..];
    }
  }

  /** A dot split of `t` starts either at its first character (a dot) or after a leading digit. */
  lemma SplitHead(t: string, j: int)
    ensures DotSplit(t, j) ==> (j == 0 && t[0] == '.') || (j > 0 && IsDigit(t[0]))
  {
    if DotSplit(t, j) && j > 0 {
      assert IsDigit(t[..j][0]);
    }
  }

  lemma SplitShift(t: string, j: int)
    requires |t| > 0 && IsDigit(t[0])
    ensures DotSplit(t[1..], j) <==> DotSplit(t, j + 1)
  {
    if DotSplit(t[1..], j) {
      assert t[..j + 1] == [t[0]] + t[1..][..j];
      assert t[j + 2..] == t[1..][j + 1..];
    }
    if DotSplit(t, j + 1) {
      assert t[1..][..j] == t[..j + 1][1..];
      assert t[j + 2..] == t[1..][j + 1..];
    }
  }

  lemma {:induction false} ScanIntegerIsNumeralTail(t: string)
    ensures ScanInteger(t) <==> AllDigits(t) || exists j | 0 <= j < |t| :: DotSplit(t, j)
  {
    if |t| > 0 {
      var tail := t[1..];
      assert t == [t[0]] + tail;
      if IsDigit(t[0]) {
        ScanIntegerIsNumeralTail(tail);
        assert AllDigits(t) <==> AllDigits(tail);
        forall j | 0 <= j < |tail| && DotSplit(tail, j) ensures DotSplit(t, j + 1) {
          SplitShift(t, j);
        }
        forall j | 0 <= j < |t| && DotSplit(t, j) ensures DotSplit(tail, j - 1) {
          SplitHead(t, j);
          SplitShift(t, j - 1);
        }
      } else {
        assert !AllDigits(t) by { assert !IsDigit(t[0]); }
        forall j | 0 <= j < |t| ensures DotSplit(t, j) ==> j == 0 {
          SplitHead(t, j);
        }
        ScanFractionIsDigits(tail);
        if t[0] == '.' && |t| > 1 && AllDigits(tail) {
          assert t[..0] == "";
          assert DotSplit(t, 0);
        }
      }
    }
  }

  /** The scanner accepts exactly the numerals of the grammar. */
  lemma ScanNumeralIsNumeral(s: string)
    ensures ScanNumeral(s) <==> IsNumeral(s)
  {
    ScanIntegerIsNumeralTail(s);
  }

  lemma RecognizeRhythmText(t: RhythmToken)
    requires t.EveryBeats? ==> IsNumeral(t.numeral)
    ensures RecognizeRhythm(RhythmText(t)) == Some(t)
  {
    if t.EveryBeats? {
      ScanNumeralIsNumeral(t.numeral);
      NumeralLastDigit(t.numeral);
    }
  }

  lemma RecognizeRhythmSound(body: string)
    requires RecognizeRhythm(body).Some?
    ensures var t := RecognizeRhythm(body).value;
      && (t.EveryBeats? ==> IsNumeral(t.numeral))
      && RhythmText(t) == body
      && |body| > 0
      && IsDigitOrLetter(body[|body| - 1])
  {
    var t := RecognizeRhythm(body).value;
    if t.EveryBeats? {
      ScanNumeralIsNumeral(body);
      NumeralLastDigit(body);
    }
  }

  /** The characters that can end a rhythm token: none of them is a parts letter or a newline. */
  predicate IsDigitOrLetter(c: char) {
    IsDigit(c) || c == 'n' || c == 'm'
  }

  lemma RhythmTextEnd(t: RhythmToken)
    requires t.EveryBeats? ==> IsNumeral(t.numeral)
    ensures |RhythmText(t)| > 0 && IsDigitOrLetter(RhythmText(t)[|RhythmText(t)| - 1])
  {
    if t.EveryBeats? { NumeralLastDigit(t.numeral); }
  }

  lemma NumeralLastDigit(s: string)
    requires IsNumeral(s)
    ensures |s| > 0 && IsDigit(s[|s| - 1])
  {
    if !(|s| > 0 && AllDigits(s)) {
      var i :| 0 <= i < |s| && DotSplit(s, i);
      assert s[|s| - 1] == s[i + 1..][|s| - i - 2];
    }
  }

  /**
   * Every well-formed directive is recognised from its rendering, with or without the one
   * trailing newline that `$` tolerates, and the captured groups are the directive itself.
   */
  lemma RecognizeRender(d: Directive)
    requires WellFormed(d)
    ensures Recognize(Render(d)) == Some(d)
    ensures Recognize(Render(d) + "\n") == Some(d)
  {
    var s := Render(d);
    RecognizeSpanRender(d);
    RenderEnd(d);
    assert (s + "\n")[..|s + "\n"| - 1] == s;
  }

  /** The written form of a directive never ends in a newline. */
  lemma RenderEnd(d: Directive)
    requires WellFormed(d)
    ensures |Render(d)| > 0 && Render(d)[|Render(d)| - 1] != '\n'
  {
    if d.rhythm.Some? && d.parts.None? {
      RhythmTextEnd(d.rhythm.value);
    }
  }

  lemma RecognizeSpanRender(d: Directive)
    requires WellFormed(d)
    ensures RecognizeSpan(Render(d)) == Some(d)
  {
    match d.rhythm
    case None =>
      assert Render(d) == [PartsChar(d.parts.value)];
    case Some(r) =>
      match d.parts
      case None =>
        assert Render(d) == RhythmText(r);
        RecognizeRhythmOnly(r);
      case Some(p) =>
        assert Render(d) == RhythmText(r) + [PartsChar(p)];
        RecognizeRhythmThenParts(r, p);
  }

  lemma RecognizeRhythmOnly(r: RhythmToken)
    requires r.EveryBeats? ==> IsNumeral(r.numeral)
    ensures RecognizeSpan(RhythmText(r)) == Some(Directive(Some(r), None))
  {
    RecognizeRhythmText(r);
    RhythmTextEnd(r);
  }

  lemma RecognizeRhythmThenParts(r: RhythmToken, p: PartsToken)
    requires r.EveryBeats? ==> IsNumeral(r.numeral)
    ensures RecognizeSpan(RhythmText(r) + [PartsChar(p)]) == Some(Directive(Some(r), Some(p)))
  {
    RecognizeRhythmText(r);
    RhythmTextEnd(r);
    var rt := RhythmText(r);
    var s := rt + [PartsChar(p)];
    assert s[..|s| - 1] == rt;
    assert s[|s| - 1] == PartsChar(p);
  }



  /** Everything the scanner accepts is a rendering of what it returns, possibly plus one newline. */
  lemma RecognizeSound(s: string)
    requires Recognize(s).Some?
    ensures WellFormed(Recognize(s).value)
    ensures s == Render(Recognize(s).value) || s == Render(Recognize(s).value) + "\n"
  {
    var body := if |s| > 0 && s[|s| - 1] == '\n' then s[..|s| - 1] else s;
    assert RecognizeSpan(body) == Recognize(s);
    var d := Recognize(s).value;
    var last := body[|body| - 1];
    if last == 'p' || last == 'a' {
      if |body| > 1 {
        RecognizeRhythmSound(body[..|body| - 1]);
        assert body == body[..|body| - 1] + [last];
      } else {
        assert body == [last];
      }
    } else {
      RecognizeRhythmSound(body);
    }
    if |s| > 0 && s[|s| - 1] == '\n' {
      assert s == body + "\n";
    }
  }

  /** The acceptance and rejection examples written beside the pattern. */
  lemma RecognizerExamples()
    ensures Recognize("ma") == Some(Directive(Some(PerMeasure), Some(AllParts)))
    ensures Recognize("m") == Some(Directive(Some(PerMeasure), None))
    ensures Recognize("a") == Some(Directive(None, Some(AllParts)))
    ensures Recognize("np") == Some(Directive(Some(Never), Some(ThisPart)))
    ensures Recognize("n") == Some(Directive(Some(Never), None))
    ensures Recognize("p") == Some(Directive(None, Some(ThisPart)))
    ensures Recognize("6") == Some(Directive(Some(EveryBeats("6")), None))
    ensures Recognize("1.5") == Some(Directive(Some(EveryBeats("1.5")), None))
    ensures Recognize(".5") == Some(Directive(Some(EveryBeats(".5")), None))
    ensures Recognize("xa") == None
    ensures Recognize("") == None
    ensures Recognize("mm") == None
    ensures Recognize("aa") == None
    ensures Recognize("am") == None
    ensures Recognize("b") == None
    ensures Recognize("ba") == None
  {
    assert "ma"[..1] == "m";
    assert "np"[..1] == "n";
    assert "xa"[..1] == "x";
    assert "aa"[..1] == "a";
    assert "ba"[..1] == "b";
    assert ScanNumeral("6");
    assert ScanNumeral("1.5");
    assert ScanNumeral(".5");
  }

  lemma NumeralValueExamples()
    ensures IsNumeral("1.5") && NumeralValue("1.5") == 1.5
    ensures IsNumeral(".5") && NumeralValue(".5") == 0.5
    ensures IsNumeral("6") && NumeralValue("6") == 6.0
    ensures IsNumeral("0") && NumeralValue("0") == 0.0
  {
    assert "1.5"[..1] == "1" && "1.5"[2..] == "5";
    assert DotSplit("1.5", 1);
    assert DotIndex("1.5") == 1;
    assert ".5"[..0] == "" && ".5"[1..] == "5";
    assert DotSplit(".5", 0);
    assert DotIndex(".5") == 0;
    assert ".5"[..0] == "" && ".5"[1..] == "5";
    assert DotIndex("6") == 1;
    assert DotIndex("0") == 1;
  }
}

=== FILE: binary_number.dfy ===
/**
 * The data side of the `BinaryNumber` demo widget (renderer/play/BinaryDisplay.py, and the
 * identical copy in renderer/play.py): normalising user input into a fixed number of bit
 * values, evaluating the bits in base 10, and `set_value`'s update of the stored bits.
 *
 * Digits, animations and layout are not modelled. Only non-negative starting powers are
 * modelled, where every value is an integer.
 */
module BinaryNumber {
  import opened Wrappers

  /** What a caller may pass as the widget's data. */
  datatype BitInput =
    | NoData                    // None
    | IntData(v: int)           // a Python int, shown through bin()
    | TextData(s: string)       // a string of digits, optionally with "0b"
    | ListData(bits: seq<int>)  // a list of bit values, taken as is
    | OtherData                 // any other type

  /**
   * Why an input is refused: `ValueError` from the type check or from `int()` of a character,
   * the refusal of unchanged data, or the `IndexError` of centring an empty row of digits.
   */
  datatype BinaryError = InvalidData | IdenticalData | NoDigits

  function Zeros(n: nat): (r: seq<int>)
    ensures |r| == n && forall i | 0 <= i < n :: r[i] == 0
  {
    seq(n, i => 0)
  }

  /** The binary digits of a non-negative integer, most significant first, as `bin()` prints them. */
  function Bits(v: nat): (r: seq<int>)
    ensures |r| > 0 && forall i | 0 <= i < |r| :: 0 <= r[i] <= 1
    decreases v
  {
    if v < 2 then [v] else Bits(v / 2) + [v % 2]
  }

  /** Every occurrence of "0b" removed, scanning left to right as `str.replace` does. */
  function RemovePrefixMarks(s: string): (r: string)
    ensures |r| <= |s|
    decreases |s|
  {
    if |s| < 2 then s
    else if s[0] == '0' && s[1] == 'b' then RemovePrefixMarks(s[2..])
    else [s[0]] + RemovePrefixMarks(s[1..])
  }

  /** `int(ch)` for each character: every character must be a decimal digit. */
  function DigitValues(s: string): (r: Option<seq<int>>)
    ensures r.Some? <==> forall i | 0 <= i < |s| :: '0' <= s[i] <= '9'
    ensures r.Some? ==> |r.value| == |s| && forall i | 0 <= i < |s| :: r.value[i] == (s[i] as int) - ('0' as int)
    decreases |s|
  {
    if |s| == 0 then Some([])
    else if !('0' <= s[0] <= '9') then None
    else
      match DigitValues(s[1..])
      case None => None
      case Some(rest) => Some([(s[0] as int) - ('0' as int)] + rest)
  }

  /** The truncate-or-pad step: keep the first `n` values, or left-pad with zeros to `n`. */
  function Fit(n: nat, data: seq<int>): (r: seq<int>)
    ensures |r| == n
    ensures |data| >= n ==> r == data[..n]
    ensures |data| < n ==> r[..n - |data|] == Zeros(n - |data|) && r[n - |data|..] == data
  {
    if |data| > n then data[..n]
    else if |data| < n then Zeros(n - |data|) + data
    else data
  }

  /** `_validate_data`: normalise the input to exactly `numDigits` values, or refuse it. */
  function ValidateData(numDigits: nat, data: BitInput): (r: Result<seq<int>, BinaryError>)
    ensures r.Ok? ==> |r.value| == numDigits
    ensures data.NoData? ==> r == Ok(Zeros(numDigits))
    ensures data.ListData? ==> r == Ok(Fit(numDigits, data.bits))
    ensures data.OtherData? ==> r == Err(InvalidData)
    ensures data.IntData? ==> (r.Ok? <==> data.v >= 0)
    ensures data.TextData? ==>
      var text := RemovePrefixMarks(data.s);
      (r.Ok? <==> forall i | 0 <= i < |text| :: '0' <= text[i] <= '9')
  {
    match data
    case NoData => Ok(Fit(numDigits, Zeros(numDigits)))
    case IntData(v) => if v < 0 then Err(InvalidData) else Ok(Fit(numDigits, Bits(v)))
    case TextData(s) =>
      var text := RemovePrefixMarks(s);
      var digits := DigitValues(text);
      if digits.None? then
        assert text == RemovePrefixMarks(data.s);
        Err(InvalidData)
      else Ok(Fit(numDigits, digits.value))
    case ListData(bits) => Ok(Fit(numDigits, bits))
    case OtherData => Err(InvalidData)
  }

  function Pow2(k: nat): (r: nat)
    ensures r >= 1
  {
    if k == 0 then 1 else 2 * Pow2(k - 1)
  }

  /** The positional value of `bits` read most significant first (Horner's rule). */
  function Value(bits: seq<int>): int
    decreases |bits|
  {
    if |bits| == 0 then 0 else 2 * Value(bits[..|bits| - 1]) + bits[|bits| - 1]
  }

  /** The first `i` terms of `base10_val`'s sum: `bits[j] * 2^(|bits| - 1 - j + p)`. */
  function PartialSum(bits: seq<int>, p: nat, i: nat): int
    requires i <= |bits|
  {
    if i == 0 then 0 else PartialSum(bits, p, i - 1) + bits[i - 1] * Pow2(|bits| - i + p)
  }

  /**
   * `base10_val` for a non-negative starting power: the sum of each bit times its place
   * value, which is the bits' positional value scaled by `2^p`.
   */
  method Base10Val(bits: seq<int>, p: nat) returns (b10: int)
    ensures b10 == PartialSum(bits, p, |bits|)
    ensures b10 == Value(bits) * Pow2(p)
  {
    b10 := 0;
    var i := 0;
    while i < |bits|
      invariant 0 <= i <= |bits|
      invariant b10 == PartialSum(bits, p, i)
    {
      b10 := b10 + bits[i] * Pow2(|bits| - 1 - i + p);
      i := i + 1;
    }
    SumIsScaledValue(bits, p);
  }

  /** The place-value sum equals Horner's positional value times `2^p`. */
  lemma {:induction false} SumIsScaledValue(bits: seq<int>, p: nat)
    ensures PartialSum(bits, p, |bits|) == Value(bits) * Pow2(p)
    decreases |bits|
  {
    if |bits| > 0 {
      var init := bits[..|bits| - 1];
      SumIsScaledValue(init, p);
      PrefixSumShift(bits, p, |bits| - 1);
      assert PartialSum(bits, p, |bits| - 1) == PartialSum(init, p + 1, |init|);
      SumIsScaledValue(init, p + 1);
      assert Pow2(p + 1) == 2 * Pow2(p);
    }
  }

  /** Dropping the last bit moves every other bit one place down. */
  lemma {:induction false} PrefixSumShift(bits: seq<int>, p: nat, i: nat)
    requires 0 < |bits| && i <= |bits| - 1
    ensures PartialSum(bits, p, i) == PartialSum(bits[..|bits| - 1], p + 1, i)
  {
    if i > 0 {
      PrefixSumShift(bits, p, i - 1);
    }
  }

  /** Leading zeros do not change the value. */
  lemma {:induction false} ZeroPaddingKeepsValue(k: nat, bits: seq<int>)
    ensures Value(Zeros(k) + bits) == Value(bits)
    decreases |bits|
  {
    if |bits| == 0 {
      AllZerosValue(Zeros(k));
      assert Zeros(k) + bits == Zeros(k);
    } else {
      var init := bits[..|bits| - 1];
      ZeroPaddingKeepsValue(k, init);
      assert (Zeros(k) + bits)[..|Zeros(k) + bits| - 1] == Zeros(k) + init;
    }
  }

  /** All-zero bits are worth zero. */
  lemma {:induction false} AllZerosValue(bits: seq<int>)
    requires forall i | 0 <= i < |bits| :: bits[i] == 0
    ensures Value(bits) == 0
    decreases |bits|
  {
    if |bits| > 0 {
      AllZerosValue(bits[..|bits| - 1]);
    }
  }

  /** `bin()` digits read back give the number. */
  lemma {:induction false} BitsValue(v: nat)
    ensures Value(Bits(v)) == v
    decreases v
  {
    if v >= 2 {
      BitsValue(v / 2);
      assert Bits(v)[..|Bits(v)| - 1] == Bits(v / 2);
    }
  }

  /** A number below `2^n`, if positive, has at most `n` binary digits. */
  lemma {:induction false} BitsLength(v: nat, n: nat)
    requires 1 <= v < Pow2(n)
    ensures |Bits(v)| <= n
    decreases v
  {
    if v >= 2 {
      BitsLength(v / 2, n - 1);
    }
  }

  /**
   * With `p = 0`, an integer `0 <= v < 2^numDigits` survives normalisation: the stored bits
   * evaluate back to `v`.
   */
  lemma IntRoundTrip(numDigits: nat, v: nat)
    requires v < Pow2(numDigits)
    ensures ValidateData(numDigits, IntData(v)).Ok?
    ensures Value(ValidateData(numDigits, IntData(v)).value) == v
  {
    assert ValidateData(numDigits, IntData(v)) == Ok(Fit(numDigits, Bits(v)));
    FitBitsValue(numDigits, v);
  }

  /** Fitting the binary digits of a number that fits keeps its value. */
  lemma FitBitsValue(numDigits: nat, v: nat)
    requires v < Pow2(numDigits)
    ensures Value(Fit(numDigits, Bits(v))) == v
  {
    var bits := Bits(v);
    BitsValue(v);
    if v == 0 {
      AllZerosValue(Fit(numDigits, bits));
    } else {
      BitsLength(v, numDigits);
      ZeroPaddingKeepsValue(numDigits - |bits|, bits);
      assert Fit(numDigits, bits) == Zeros(numDigits - |bits|) + bits;
    }
  }


  /** The characters `'0'` and `'1'` for a sequence of bit values. */
  function BitString(bits: seq<int>): (r: string)
    requires forall i | 0 <= i < |bits| :: 0 <= bits[i] <= 1
    ensures |r| == |bits| && forall i | 0 <= i < |r| :: r[i] == (if bits[i] == 0 then '0' else '1')
  {
    seq(|bits|, i requires 0 <= i < |bits| => if bits[i] == 0 then '0' else '1')
  }

  lemma {:induction false} NoMarksUnchanged(s: string)
    requires forall i | 0 <= i < |s| :: s[i] != 'b'
    ensures RemovePrefixMarks(s) == s
    decreases |s|
  {
    if |s| >= 2 {
      NoMarksUnchanged(s[1..]);
      assert s == [s[0]] + s[1..];
    }
  }

  /** Written out as a bit string, bits normalise exactly as the bit list itself does. */
  lemma TextMatchesList(numDigits: nat, bits: seq<int>)
    requires forall i | 0 <= i < |bits| :: 0 <= bits[i] <= 1
    ensures ValidateData(numDigits, TextData(BitString(bits))) == ValidateData(numDigits, ListData(bits))
  {
    var s := BitString(bits);
    NoMarksUnchanged(s);
    assert DigitValues(s).value == bits;
  }

  /** The "0b" marker is ignored in text. */
  lemma PrefixMarkIgnored(numDigits: nat, s: string)
    ensures ValidateData(numDigits, TextData("0b" + s)) == ValidateData(numDigits, TextData(s))
  {
    assert ("0b" + s)[2..] == s;
  }

  /** The widget's data state: how many digits it shows, the bit values, and its lowest power. */
  datatype Binary = Binary(numDigits: nat, data: seq<int>, startingPower: nat)

  predicate Valid(b: Binary) {
    |b.data| == b.numDigits
  }

  /**
   * `BinaryNumber(num_digits, data, starting_power)`, data part: validation comes first, and
   * with no digits the vertical centring on the first digit fails.
   */
  function NewBinary(numDigits: nat, data: BitInput, startingPower: nat): (r: Result<Binary, BinaryError>)
    ensures r.Ok? ==> Valid(r.value) && r.value.numDigits == numDigits && r.value.startingPower == startingPower
    ensures r.Ok? ==> ValidateData(numDigits, data) == Ok(r.value.data)
    ensures r.Ok? <==> numDigits > 0 && ValidateData(numDigits, data).Ok?
    ensures ValidateData(numDigits, data).Err? ==> r == Err(InvalidData)
    ensures ValidateData(numDigits, data).Ok? && numDigits == 0 ==> r == Err(NoDigits)
  {
    var bits :- ValidateData(numDigits, data);
    if numDigits == 0 then Err(NoDigits) else Ok(Binary(numDigits, bits, startingPower))
  }

  /** The positions whose bit differs between two equally long bit lists, in increasing order. */
  function ChangedIndices(before: seq<int>, after: seq<int>, i: nat): (r: seq<nat>)
    requires |before| == |after| && i <= |before|
    ensures forall k | 0 <= k < |r| :: i <= r[k] < |before| && before[r[k]] != after[r[k]]
    ensures forall j | i <= j < |before| && before[j] != after[j] :: j in r
    ensures forall k, l | 0 <= k < l < |r| :: r[k] < r[l]
    decreases |before| - i
  {
    if i == |before| then []
    else if before[i] != after[i] then [i] + ChangedIndices(before, after, i + 1)
    else ChangedIndices(before, after, i + 1)
  }

  /** What a successful `set_value` produces: the after state and the digit positions it redraws. */
  datatype Update = Update(number: Binary, redrawn: seq<nat>)

  /**
   * `set_value`: normalise the input, refuse it when it equals the current bits, otherwise
   * store it and redraw exactly the digits that changed.
   */
  function SetValue(b: Binary, data: BitInput): (r: Result<Update, BinaryError>)
    requires Valid(b)
    ensures ValidateData(b.numDigits, data).Err? ==> r.Err? && r.error == InvalidData
    ensures ValidateData(b.numDigits, data) == Ok(b.data) ==> r == Err(IdenticalData)
    ensures r.Ok? ==> ValidateData(b.numDigits, data) == Ok(r.value.number.data) && r.value.number.data != b.data
    ensures r.Ok? ==> Valid(r.value.number)
    ensures r.Ok? ==> r.value.number.numDigits == b.numDigits && r.value.number.startingPower == b.startingPower
    ensures r.Ok? ==> |r.value.redrawn| > 0
    ensures r.Ok? ==> forall j | 0 <= j < b.numDigits :: j in r.value.redrawn <==> b.data[j] != r.value.number.data[j]
  {
    var bits :- ValidateData(b.numDigits, data);
    if bits == b.data then Err(IdenticalData)
    else
      var redrawn := ChangedIndices(b.data, bits, 0);
      assert |redrawn| > 0 by {
        var j :| 0 <= j < |bits| && bits[j] != b.data[j];
        assert j in redrawn;
      }
      Ok(Update(b.(data := bits), redrawn))
  }

  /** Writing the after bits at the redrawn positions of the before bits yields the after bits. */
  lemma {:induction false} RedrawYieldsNewData(b: Binary, data: BitInput)
    requires Valid(b)
    requires SetValue(b, data).Ok?
    ensures var u := SetValue(b, data).value;
      Overwrite(b.data, u.number.data, u.redrawn) == u.number.data
  {
    var u := SetValue(b, data).value;
    var o := Overwrite(b.data, u.number.data, u.redrawn);
    forall j | 0 <= j < |o| ensures o[j] == u.number.data[j] {
      if j !in u.redrawn {
        assert b.data[j] == u.number.data[j];
      }
    }
  }

  /** `before` with position `j` taken from `after` for every `j` in `positions`. */
  function Overwrite(before: seq<int>, after: seq<int>, positions: seq<nat>): (r: seq<int>)
    requires |before| == |after|
    ensures |r| == |before| && forall j | 0 <= j < |before| :: r[j] == if j in positions then after[j] else before[j]
  {
    seq(|before|, j requires 0 <= j < |before| => if j in positions then after[j] else before[j])
  }
}

=== FILE: circle_playback.dfy ===
/**
 * The played-once bookkeeping of the `PlayCircle12Notes` animation
 * (renderer/obj_music_circles.py): on every animation frame it asks the note stream for the
 * notes between the last processed beat and the current one, and selects the pitch class of
 * each note it has not played before on the circle widget.
 *
 * The stream query is not modelled: the notes it returns for a frame are a parameter.
 */
module CirclePlayback {
  import opened Wrappers
  import opened SelectionHistory

  /** A note of the stream: its identity and its pitch class. */
  datatype StreamNote = StreamNote(id: nat, pitchClass: int)

  /**
   * The animation's state: the notes already played, the order in which they were sent to the
   * widget, the widget's selection history, and the last processed beat.
   */
  datatype Playback = Playback(played: set<StreamNote>, sent: seq<StreamNote>, history: History, lastProcessed: real)

  /** A fresh animation: nothing played, last processed beat -1. */
  function Start(history: History): (r: Playback)
    ensures Consistent(r) && r.lastProcessed < 0.0 && r.history == history
    ensures r.played == {} && r.sent == [] && r.lastProcessed == -1.0
  {
    Playback({}, [], history, -1.0)
  }

  /** Every played note was sent to the widget exactly once. */
  predicate Consistent(pb: Playback) {
    && (forall i, j | 0 <= i < j < |pb.sent| :: pb.sent[i] != pb.sent[j])
    && pb.played == set n | n in pb.sent
  }

  /** The pitch classes of some notes, in order: the steps the widget is asked to select. */
  function PitchClasses(ns: seq<StreamNote>): (r: seq<int>)
    ensures |r| == |ns|
  {
    seq(|ns|, i requires 0 <= i < |ns| => ns[i].pitchClass)
  }

  /**
   * The reported notes from index `i` on that are new: not in `played` and not reported
   * earlier in the same frame, in report order.
   */
  function NewNotes(played: set<StreamNote>, found: seq<StreamNote>, i: nat): (r: seq<StreamNote>)
    requires i <= |found|
    ensures forall k | 0 <= k < |r| :: r[k] !in played && r[k] in found[i..]
    ensures forall k, l | 0 <= k < l < |r| :: r[k] != r[l]
    ensures forall j | i <= j < |found| && found[j] !in played :: found[j] in r
    decreases |found| - i
  {
    if i == |found| then []
    else if found[i] in played then NewNotes(played, found, i + 1)
    else [found[i]] + NewNotes(played + {found[i]}, found, i + 1)
  }

  /**
   * `after` is what processing the reported notes from index `i` on leaves: everything stays
   * consistent, earlier sends are kept, every reported note is played, nothing else is, and
   * the processed beat is untouched.
   */
  predicate PlaysFound(pb: Playback, found: seq<StreamNote>, i: nat, after: Playback)
    requires i <= |found|
  {
    && Consistent(after)
    && |pb.sent| <= |after.sent| && after.sent[..|pb.sent|] == pb.sent
    && (forall j | i <= j < |found| :: found[j] in after.played)
    && (forall n | n in after.played :: n in pb.played || n in found[i..])
    && after.lastProcessed == pb.lastProcessed
  }

  /** Process the notes a frame's query returned, in order, from index `i` on. */
  function PlayFound(policy: Policy, keys: set<int>, maxSelected: int, pb: Playback, found: seq<StreamNote>, i: nat)
    : (r: Result<Playback, SelectError>)
    requires i <= |found|
    requires Consistent(pb)
    decreases |found| - i
    ensures r.Ok? ==> PlaysFound(pb, found, i, r.value)
    ensures SelectsNotes(policy, keys, maxSelected, pb, NewNotes(pb.played, found, i), r)
  {
    if i == |found| then
      assert pb.sent[..|pb.sent|] == pb.sent;
      Ok(pb)
    else
      var n := found[i];
      if n in pb.played then
        var r := PlayFound(policy, keys, maxSelected, pb, found, i + 1);
        if r.Ok? then
          PlaysKnown(pb, found, i, r.value);
          r
        else r
      else
        var unplayed := NewNotes(pb.played, found, i);
        assert PitchClasses(unplayed) == [n.pitchClass] + PitchClasses(NewNotes(pb.played + {n}, found, i + 1));
        var h :- SelectStep(policy, keys, maxSelected, pb.history, n.pitchClass);
        assert SelectStep(policy, keys, maxSelected, pb.history, n.pitchClass) == Ok(h);
        var next := Playback(pb.played + {n}, pb.sent + [n], h, pb.lastProcessed);
        ConsistentAdd(pb, n, next);
        var r := PlayFound(policy, keys, maxSelected, next, found, i + 1);
        SelectsNotesStep(policy, keys, maxSelected, pb, next, n, NewNotes(pb.played + {n}, found, i + 1), r);
        if r.Ok? then
          PlaysNew(pb, next, found, i, r.value);
          r
        else r
  }

  /** Recording a note not played before keeps the bookkeeping consistent. */
  lemma ConsistentAdd(pb: Playback, n: StreamNote, next: Playback)
    requires Consistent(pb) && n !in pb.played
    requires next.played == pb.played + {n} && next.sent == pb.sent + [n]
    ensures Consistent(next)
  {
    forall j, k | 0 <= j < k < |next.sent| ensures next.sent[j] != next.sent[k] {
      if k == |pb.sent| { assert next.sent[j] == pb.sent[j] && pb.sent[j] in pb.played; }
    }
  }

  /** A reported note that was already played is skipped. */
  lemma PlaysKnown(pb: Playback, found: seq<StreamNote>, i: nat, after: Playback)
    requires Consistent(pb)
    requires i < |found| && found[i] in pb.played
    requires PlaysFound(pb, found, i + 1, after)
    ensures PlaysFound(pb, found, i, after)
  {
    assert found[i] in after.played by {
      var k :| 0 <= k < |pb.sent| && pb.sent[k] == found[i];
      assert after.sent[..|pb.sent|][k] == found[i];
    }
    forall n | n in after.played ensures n in pb.played || n in found[i..] {
      if n !in pb.played { assert n in found[i + 1..]; var k :| 0 <= k < |found[i + 1..]| && found[i + 1..][k] == n; assert found[i..][k + 1] == n; }
    }
  }

  /** A reported note played now is recorded, then the rest of the frame follows. */
  lemma PlaysNew(pb: Playback, next: Playback, found: seq<StreamNote>, i: nat, after: Playback)
    requires i < |found|
    requires next.played == pb.played + {found[i]} && next.sent == pb.sent + [found[i]]
    requires next.lastProcessed == pb.lastProcessed
    requires PlaysFound(next, found, i + 1, after)
    ensures PlaysFound(pb, found, i, after)
  {
    assert after.sent[..|pb.sent|] == after.sent[..|next.sent|][..|pb.sent|];
    assert found[i] in after.played by { assert found[i] in next.played; assert next.sent[|pb.sent|] == found[i]; assert after.sent[|pb.sent|] == found[i]; }
    forall n | n in after.played ensures n in pb.played || n in found[i..] {
      if n !in next.played { assert n in found[i + 1..]; var k :| 0 <= k < |found[i + 1..]| && found[i + 1..][k] == n; assert found[i..][k + 1] == n; }
      else if n !in pb.played { assert found[i..][0] == n; }
    }
  }

  /**
   * `r` is the outcome of selecting the pitch classes of `notes` from `pb`'s history: it fails
   * exactly as those selections do, and otherwise has sent `notes` and holds the history they
   * lead to.
   */
  predicate SelectsNotes(policy: Policy, keys: set<int>, maxSelected: int, pb: Playback, notes: seq<StreamNote>,
                         r: Result<Playback, SelectError>) {
    var selected := SelectAll(policy, keys, maxSelected, pb.history, PitchClasses(notes));
    && (r.Ok? <==> selected.Ok?)
    && (r.Err? ==> r.error == selected.error)
    && (r.Ok? ==> r.value.sent == pb.sent + notes && r.value.history == selected.value)
  }

  /** Selecting one new note and then the rest is selecting them all. */
  lemma SelectsNotesStep(policy: Policy, keys: set<int>, maxSelected: int, pb: Playback, next: Playback,
                         n: StreamNote, rest: seq<StreamNote>, r: Result<Playback, SelectError>)
    requires SelectStep(policy, keys, maxSelected, pb.history, n.pitchClass) == Ok(next.history)
    requires next.sent == pb.sent + [n]
    requires SelectsNotes(policy, keys, maxSelected, next, rest, r)
    ensures SelectsNotes(policy, keys, maxSelected, pb, [n] + rest, r)
  {
    var steps := PitchClasses([n] + rest);
    assert steps[0] == n.pitchClass && steps[1..] == PitchClasses(rest);
    assert SelectAll(policy, keys, maxSelected, pb.history, steps)
      == SelectAll(policy, keys, maxSelected, next.history, PitchClasses(rest));
    assert pb.sent + ([n] + rest) == next.sent + rest;
  }

  /** After a successful stretch of selections, the history is that of selecting what was sent. */
  lemma SelectsSent(policy: Policy, keys: set<int>, maxSelected: int, pb: Playback, notes: seq<StreamNote>, after: Playback)
    requires SelectsNotes(policy, keys, maxSelected, pb, notes, Ok(after))
    ensures |pb.sent| <= |after.sent| && after.sent[..|pb.sent|] == pb.sent
    ensures SelectAll(policy, keys, maxSelected, pb.history, PitchClasses(after.sent[|pb.sent|..])) == Ok(after.history)
  {
    assert after.sent[|pb.sent|..] == notes;
  }

  /**
   * `interpolate_mobject` for one frame: `found` holds the notes the stream reports between
   * the last processed beat and `current`.
   */
  function Interpolate(policy: Policy, keys: set<int>, maxSelected: int, pb: Playback, current: real, found: seq<StreamNote>)
    : (r: Result<Playback, SelectError>)
    requires Consistent(pb)
    ensures r.Ok? ==> Consistent(r.value) && r.value.lastProcessed == current
    ensures r.Ok? ==> forall n | n in found :: n in r.value.played
    ensures r.Ok? ==> |pb.sent| <= |r.value.sent| && r.value.sent[..|pb.sent|] == pb.sent
    ensures r.Ok? ==> forall n | n in r.value.played :: n in pb.played || n in found
    ensures SelectsNotes(policy, keys, maxSelected, pb, NewNotes(pb.played, found, 0), r)
    ensures r.Ok? ==>
      SelectAll(policy, keys, maxSelected, pb.history, PitchClasses(r.value.sent[|pb.sent|..])) == Ok(r.value.history)
  {
    var after :- PlayFound(policy, keys, maxSelected, pb, found, 0);
    SelectsSent(policy, keys, maxSelected, pb, NewNotes(pb.played, found, 0), after);
    Ok(after.(lastProcessed := current))
  }

  /** All frames of an animation, each with the notes its query returned. */
  function Animate(policy: Policy, keys: set<int>, maxSelected: int, pb: Playback, frames: seq<(real, seq<StreamNote>)>)
    : (r: Result<Playback, SelectError>)
    requires Consistent(pb)
    ensures r.Ok? ==> Consistent(r.value)
    ensures r.Ok? ==> |pb.sent| <= |r.value.sent| && r.value.sent[..|pb.sent|] == pb.sent
    ensures r.Ok? ==>
      SelectAll(policy, keys, maxSelected, pb.history, PitchClasses(r.value.sent[|pb.sent|..])) == Ok(r.value.history)
    decreases |frames|
  {
    if |frames| == 0 then
      assert PitchClasses(pb.sent[|pb.sent|..]) == [];
      Ok(pb)
    else
      var next :- Interpolate(policy, keys, maxSelected, pb, frames[0].0, frames[0].1);
      var r := Animate(policy, keys, maxSelected, next, frames[1..]);
      if r.Ok? then
        AnimateSelects(policy, keys, maxSelected, pb, next, r.value);
        r
      else r
  }

  /** Two stretches of playback, each selecting what it sent, select together what they sent together. */
  lemma AnimateSelects(policy: Policy, keys: set<int>, maxSelected: int, pb: Playback, mid: Playback, last: Playback)
    requires |pb.sent| <= |mid.sent| && mid.sent[..|pb.sent|] == pb.sent
    requires |mid.sent| <= |last.sent| && last.sent[..|mid.sent|] == mid.sent
    requires SelectAll(policy, keys, maxSelected, pb.history, PitchClasses(mid.sent[|pb.sent|..])) == Ok(mid.history)
    requires SelectAll(policy, keys, maxSelected, mid.history, PitchClasses(last.sent[|mid.sent|..])) == Ok(last.history)
    ensures |pb.sent| <= |last.sent| && last.sent[..|pb.sent|] == pb.sent
    ensures SelectAll(policy, keys, maxSelected, pb.history, PitchClasses(last.sent[|pb.sent|..])) == Ok(last.history)
  {
    var a := mid.sent[|pb.sent|..];
    var b := last.sent[|mid.sent|..];
    ExtendTwice(pb.sent, mid.sent, last.sent);
    PitchClassesAppend(a, b);
    SelectAllAppend(policy, keys, maxSelected, pb.history, PitchClasses(a), PitchClasses(b));
  }

  /** A log extended twice extends the original by both additions. */
  lemma ExtendTwice<T>(s0: seq<T>, s1: seq<T>, s2: seq<T>)
    requires |s0| <= |s1| && s1[..|s0|] == s0
    requires |s1| <= |s2| && s2[..|s1|] == s1
    ensures |s0| <= |s2| && s2[..|s0|] == s0
    ensures s2[|s0|..] == s1[|s0|..] + s2[|s1|..]
  {
    assert s2[..|s0|] == s2[..|s1|][..|s0|];
    assert s2 == s1 + s2[|s1|..];
    assert s1 == s0 + s1[|s0|..];
  }

  lemma PitchClassesAppend(a: seq<StreamNote>, b: seq<StreamNote>)
    ensures PitchClasses(a + b) == PitchClasses(a) + PitchClasses(b)
  {
  }

  /**
   * Over a whole animation, every note that reaches the widget reaches it once: the notes sent
   * are pairwise distinct, and each one was reported by some frame.
   */
  lemma {:induction false} EachNoteSelectedOnce(policy: Policy, keys: set<int>, maxSelected: int, history: History,
                                                frames: seq<(real, seq<StreamNote>)>)
    requires Animate(policy, keys, maxSelected, Start(history), frames).Ok?
    ensures var sent := Animate(policy, keys, maxSelected, Start(history), frames).value.sent;
      && (forall i, j | 0 <= i < j < |sent| :: sent[i] != sent[j])
      && (forall n | n in sent :: exists k | 0 <= k < |frames| :: n in frames[k].1)
    ensures var r := Animate(policy, keys, maxSelected, Start(history), frames).value;
      SelectAll(policy, keys, maxSelected, history, PitchClasses(r.sent)) == Ok(r.history)
  {
    var pb := Start(history);
    var r := Animate(policy, keys, maxSelected, pb, frames).value;
    assert |pb.sent| == 0 && r.sent[|pb.sent|..] == r.sent;
    AnimateSendsReported(policy, keys, maxSelected, pb, frames);
    forall n | n in r.sent ensures exists k | 0 <= k < |frames| :: n in frames[k].1 {
      assert n in r.played;
    }
  }

  /** Every note an animation sends was already played or was reported by one of its frames. */
  lemma {:induction false} AnimateSendsReported(policy: Policy, keys: set<int>, maxSelected: int, pb: Playback,
                                                frames: seq<(real, seq<StreamNote>)>)
    requires Consistent(pb)
    requires Animate(policy, keys, maxSelected, pb, frames).Ok?
    ensures forall n | n in Animate(policy, keys, maxSelected, pb, frames).value.played ::
      n in pb.played || exists k | 0 <= k < |frames| :: n in frames[k].1
    decreases |frames|
  {
    if |frames| > 0 {
      var next := Interpolate(policy, keys, maxSelected, pb, frames[0].0, frames[0].1).value;
      AnimateSendsReported(policy, keys, maxSelected, next, frames[1..]);
      var r := Animate(policy, keys, maxSelected, pb, frames).value;
      forall n | n in r.played
        ensures n in pb.played || exists k | 0 <= k < |frames| :: n in frames[k].1
      {
        if n !in next.played {
          var k :| 0 <= k < |frames[1..]| && n in frames[1..][k].1;
          assert n in frames[k + 1].1;
        } else if n !in pb.played {
          assert n in frames[0].1;
        }
      }
    }
  }
}

=== FILE: cluster_resolver.dfy ===
/**
 * `process_chord_annotation` and `extract_harmonic_clusters` (renderer/musicxml.py): each
 * span `[start, end)` becomes chords, either the one chord its chord symbol names, or the
 * pitch sets of its notes cut into sub-spans as its directives ask.
 */
module ClusterResolver {
  import opened Wrappers
  import opened Offsets
  import opened ScoreData
  import opened SpanBuilder
  import opened G = AnnotationGrammar

  /** A resolved chord: the chord symbol itself, or the set of pitches sounding in a sub-span. */
  datatype ChordValue = Named(kind: string) | Pitches(pitches: set<Pitch>)

  datatype TimedChord = TimedChord(offset: Offset, chord: ChordValue)

  /** A half-open interval of beats `[start, end)`. */
  datatype Window = Window(start: Offset, end: Offset)

  predicate InWindow(o: Offset, w: Window) {
    w.start <= o < w.end
  }

  /** What the source raises; each aborts the whole resolution. */
  datatype ResolveError =
    | ConflictingHarmonicAnnotation(at: Offset)   // a chord symbol shares its offset with another annotation
    | MalformedAnnotation(text: string, at: Offset) // a directive outside the grammar
    | AmbiguousRhythm(at: Offset)                  // parts disagree on the harmonic rhythm
    | AmbiguousParts(at: Offset)                   // parts disagree on the parts scope
    | ZeroStep(at: Offset)                         // the rhythm numeral has value 0 (stepping never ends)
    | NextOnDictValues(at: Offset)                 // `next()` applied to a dict view (as written only)

  // ---------------------------------------------------------------- explicit path

  predicate HasChordSymbol(entries: seq<Entry>) {
    exists i | 0 <= i < |entries| :: entries[i].annotation.ChordSymbol?
  }

  /**
   * A span holding a chord symbol: it must be the span's only annotation, and then it is the
   * span's one chord, at the span's start.
   */
  function ResolveExplicit(at: Offset, entries: seq<Entry>): (r: Result<seq<TimedChord>, ResolveError>)
    requires HasChordSymbol(entries)
    ensures r.Err? <==> |entries| > 1
    ensures r.Err? ==> r.error == ConflictingHarmonicAnnotation(at)
    ensures r.Ok? ==>
      && entries[0].annotation.ChordSymbol?
      && r.value == [TimedChord(at, Named(entries[0].annotation.kind))]
  {
    if |entries| > 1 then Err(ConflictingHarmonicAnnotation(at))
    else Ok([TimedChord(at, Named(entries[0].annotation.kind))])
  }

  /** The explicit path as written: `next()` on `dict.values()` raises instead of returning the chord. */
  function ResolveExplicitAsWritten(at: Offset, entries: seq<Entry>): (r: Result<seq<TimedChord>, ResolveError>)
    requires HasChordSymbol(entries)
    ensures r.Err?
  {
    if |entries| > 1 then Err(ConflictingHarmonicAnnotation(at))
    else Err(NextOnDictValues(at))
  }

  /** On every lone chord symbol the code as written fails where the corrected path returns it. */
  lemma ExplicitLookupFinding(at: Offset, kind: string)
    ensures HasChordSymbol([Entry(0, ChordSymbol(kind))])
    ensures ResolveExplicitAsWritten(at, [Entry(0, ChordSymbol(kind))]) == Err(NextOnDictValues(at))
    ensures ResolveExplicit(at, [Entry(0, ChordSymbol(kind))]) == Ok([TimedChord(at, Named(kind))])
  {
    assert [Entry(0, ChordSymbol(kind))][0].annotation.ChordSymbol?;
  }

  // ---------------------------------------------------------------- directive path: parsing

  /** A span entry whose text matched the grammar. */
  datatype Parsed = Parsed(part: PartId, directive: G.Directive)

  /** Entry `i` is the first whose text is outside the grammar, and `e` reports it. */
  ghost predicate FirstMalformed(entries: seq<Entry>, at: Offset, i: int, e: ResolveError) {
    && 0 <= i < |entries|
    && G.ParseAnnotation(entries[i].annotation.kind).None?
    && e == MalformedAnnotation(entries[i].annotation.kind, at)
    && forall j | 0 <= j < i :: G.ParseAnnotation(entries[j].annotation.kind).Some?
  }

  /** `ps` holds, entry by entry, the part and the parsed directive of each entry. */
  ghost predicate ParsedAll(entries: seq<Entry>, ps: seq<Parsed>) {
    |ps| == |entries| && forall i | 0 <= i < |entries| ::
      && ps[i].part == entries[i].part
      && Some(ps[i].directive) == G.ParseAnnotation(entries[i].annotation.kind)
      && G.WellFormed(ps[i].directive)
  }

  /** Parses every entry; the first text outside the grammar is reported. */
  function ParseEntries(entries: seq<Entry>, at: Offset): (r: Result<seq<Parsed>, ResolveError>)
    ensures r.Ok? <==> forall i | 0 <= i < |entries| :: G.ParseAnnotation(entries[i].annotation.kind).Some?
    ensures r.Ok? ==> ParsedAll(entries, r.value)
    ensures r.Err? ==> exists i :: FirstMalformed(entries, at, i, r.error)
  {
    if |entries| == 0 then Ok([])
    else
      var text := entries[0].annotation.kind;
      match G.ParseAnnotation(text)
      case None =>
        assert FirstMalformed(entries, at, 0, MalformedAnnotation(text, at));
        Err(MalformedAnnotation(text, at))
      case Some(d) =>
        ParsedWellFormed(text);
        var rest := ParseEntries(entries[1..], at);
        ParseEntriesCons(entries, at, d, rest);
        match rest
        case Err(e) => Err(e)
        case Ok(ps) => Ok([Parsed(entries[0].part, d)] + ps)
  }

  lemma ParsedWellFormed(text: string)
    requires G.ParseAnnotation(text).Some?
    ensures G.WellFormed(G.ParseAnnotation(text).value)
  {
    G.RecognizeSound(G.Lower(text));
  }

  /** The facts about the tail's parse carry over to the whole span once the head parses. */
  lemma ParseEntriesCons(entries: seq<Entry>, at: Offset, d: G.Directive, rest: Result<seq<Parsed>, ResolveError>)
    requires |entries| > 0
    requires G.ParseAnnotation(entries[0].annotation.kind) == Some(d) && G.WellFormed(d)
    requires rest.Ok? <==> forall i | 0 <= i < |entries[1..]| :: G.ParseAnnotation(entries[1..][i].annotation.kind).Some?
    requires rest.Ok? ==> ParsedAll(entries[1..], rest.value)
    requires rest.Err? ==> exists i :: FirstMalformed(entries[1..], at, i, rest.error)
    ensures rest.Ok? <==> forall i | 0 <= i < |entries| :: G.ParseAnnotation(entries[i].annotation.kind).Some?
    ensures rest.Ok? ==> ParsedAll(entries, [Parsed(entries[0].part, d)] + rest.value)
    ensures rest.Err? ==> exists i :: FirstMalformed(entries, at, i, rest.error)
  {
    assert forall i | 1 <= i < |entries| :: entries[1..][i - 1] == entries[i];
    if rest.Ok? {
      ParsedAllCons(entries, d, rest.value);
    } else {
      var i :| FirstMalformed(entries[1..], at, i, rest.error);
      assert FirstMalformed(entries, at, i + 1, rest.error);
    }
  }

  lemma ParsedAllCons(entries: seq<Entry>, d: G.Directive, ps: seq<Parsed>)
    requires |entries| > 0
    requires G.ParseAnnotation(entries[0].annotation.kind) == Some(d) && G.WellFormed(d)
    requires ParsedAll(entries[1..], ps)
    ensures ParsedAll(entries, [Parsed(entries[0].part, d)] + ps)
  {
    var all := [Parsed(entries[0].part, d)] + ps;
    forall i | 0 <= i < |entries|
      ensures all[i].part == entries[i].part
      ensures Some(all[i].directive) == G.ParseAnnotation(entries[i].annotation.kind)
      ensures G.WellFormed(all[i].directive)
    {
      if i > 0 {
        assert all[i] == ps[i - 1];
        assert entries[i] == entries[1..][i - 1];
      }
    }
  }

  /** The distinct harmonic-rhythm values across the span; `None` ("unspecified") counts as a value. */
  function RhythmValues(ps: seq<Parsed>): set<Option<G.RhythmToken>> {
    set i | 0 <= i < |ps| :: ps[i].directive.rhythm
  }

  /** The distinct parts-scope values across the span, counted the same way. */
  function PartsValues(ps: seq<Parsed>): set<Option<G.PartsToken>> {
    set i | 0 <= i < |ps| :: ps[i].directive.parts
  }

  /** Two different values make the set of values larger than one. */
  lemma TwoValues<T>(s: set<T>, a: T, b: T)
    requires a in s && b in s && a != b
    ensures |s| > 1
  {
    assert {a, b} <= s;
    assert |{a, b}| == 2;
    SubsetCard({a, b}, s);
  }

  lemma SubsetCard<T>(a: set<T>, b: set<T>)
    requires a <= b
    ensures |a| <= |b|
  {
    assert b == a + (b - a);
  }

  /** At most one value means all entries agree with the first. */
  lemma AgreeWithFirst<T>(values: seq<T>)
    requires |values| > 0
    requires |set i | 0 <= i < |values| :: values[i]| <= 1
    ensures forall i | 0 <= i < |values| :: values[i] == values[0]
  {
    var s := set i | 0 <= i < |values| :: values[i];
    forall i | 0 <= i < |values| ensures values[i] == values[0] {
      if values[i] != values[0] {
        TwoValues(s, values[i], values[0]);
      }
    }
  }

  // ---------------------------------------------------------------- directive path: scope

  /**
   * The parts whose notes are analysed: with a `p` anywhere, exactly the annotated parts;
   * otherwise every part of the score.
   */
  function IncludedParts(ps: seq<Parsed>, partCount: nat): (r: set<PartId>)
    ensures (exists i | 0 <= i < |ps| :: ps[i].directive.parts == Some(G.ThisPart)) ==>
      forall p :: p in r <==> exists i | 0 <= i < |ps| :: ps[i].part == p
    ensures !(exists i | 0 <= i < |ps| :: ps[i].directive.parts == Some(G.ThisPart)) ==>
      forall p: PartId :: p in r <==> p < partCount
  {
    if exists i | 0 <= i < |ps| :: ps[i].directive.parts == Some(G.ThisPart) then
      set i | 0 <= i < |ps| :: ps[i].part
    else
      PartRange(partCount)
  }

  /** The part indices `0 .. n - 1`. */
  function PartRange(n: nat): (r: set<PartId>)
    ensures forall p: PartId :: p in r <==> p < n
  {
    if n == 0 then {} else PartRange(n - 1) + {n - 1}
  }

  // ---------------------------------------------------------------- directive path: sub-spans

  /**
   * `frange(start, end, step)`: `start, start + step, ...` while below `end`. The helper is
   * not part of this model; range-like stepping is assumed.
   */
  function FRange(x: Offset, end: Offset, step: real): (r: seq<Offset>)
    requires step > 0.0
    decreases if x < end then ((end - x) / step).Floor + 1 else 0
  {
    if x >= end then []
    else
      DivStep(end - x, step);
      [x] + FRange(x + step, end, step)
  }

  /** One step fewer remains after taking a step. */
  lemma DivStep(a: real, step: real)
    requires step > 0.0
    ensures (a - step) / step == a / step - 1.0
  {
    assert (a - step) / step == a / step - step / step;
  }

  /** The stepped offsets are exactly `start + i * step` below `end`, and the next one is not. */
  lemma {:induction false} FRangeShape(x: Offset, end: Offset, step: real)
    requires step > 0.0
    ensures var r := FRange(x, end, step);
      && (forall i | 0 <= i < |r| :: r[i] == x + (i as real) * step && r[i] < end)
      && x + (|r| as real) * step >= end
    decreases if x < end then ((end - x) / step).Floor + 1 else 0
  {
    if x < end {
      DivStep(end - x, step);
      FRangeShape(x + step, end, step);
      var r := FRange(x, end, step);
      var rest := FRange(x + step, end, step);
      assert r == [x] + rest;
      forall i | 1 <= i < |r| ensures r[i] == x + (i as real) * step {
        assert r[i] == rest[i - 1];
      }
    }
  }

  /** Measure starts inside the span; the measure query includes `end` unless told otherwise. */
  function MeasuresIn(measureStarts: seq<Offset>, w: Window, includeEnd: bool): (r: seq<Offset>)
    ensures forall m :: m in r <==> m in measureStarts && w.start <= m && (m < w.end || (includeEnd && m == w.end))
  {
    if |measureStarts| == 0 then []
    else
      var m := measureStarts[0];
      var rest := MeasuresIn(measureStarts[1..], w, includeEnd);
      if w.start <= m && (m < w.end || (includeEnd && m == w.end)) then [m] + rest else rest
  }

  /**
   * Where the sub-spans start. The source tests `"n" in values or all unspecified`, then
   * `"m" in values`, else steps by the (agreed) numeral; once validation has passed all
   * parts agree, so the first entry's value decides (see `ClusterStartsFollowsSource`).
   */
  function ClusterStarts(ps: seq<Parsed>, w: Window, measureStarts: seq<Offset>, includeEnd: bool)
    : (r: Result<seq<Offset>, ResolveError>)
    requires forall i | 0 <= i < |ps| :: G.WellFormed(ps[i].directive)
  {
    if |ps| == 0 then Ok([w.start])
    else
      assert G.WellFormed(ps[0].directive);
      match ps[0].directive.rhythm
      case None => Ok([w.start])
      case Some(Never) => Ok([w.start])
      case Some(PerMeasure) => Ok(SortedUnique(MeasuresIn(measureStarts, w, includeEnd)))
      case Some(EveryBeats(numeral)) =>
        var step := G.NumeralValue(numeral);
        if step == 0.0 then Err(ZeroStep(w.start)) else Ok(FRange(w.start, w.end, step))
  }

  /** The source's three-way test, stated on the set of rhythm values. */
  lemma ClusterStartsFollowsSource(ps: seq<Parsed>, w: Window, measureStarts: seq<Offset>, includeEnd: bool)
    requires forall i | 0 <= i < |ps| :: G.WellFormed(ps[i].directive)
    requires |RhythmValues(ps)| <= 1
    ensures var r := ClusterStarts(ps, w, measureStarts, includeEnd);
      && (Some(G.Never) in RhythmValues(ps) || (forall i | 0 <= i < |ps| :: ps[i].directive.rhythm.None?)
          ==> r == Ok([w.start]))
      && (!(Some(G.Never) in RhythmValues(ps) || (forall i | 0 <= i < |ps| :: ps[i].directive.rhythm.None?))
          && Some(G.PerMeasure) in RhythmValues(ps)
          ==> r == Ok(SortedUnique(MeasuresIn(measureStarts, w, includeEnd))))
      && (!(Some(G.Never) in RhythmValues(ps) || (forall i | 0 <= i < |ps| :: ps[i].directive.rhythm.None?))
          && Some(G.PerMeasure) !in RhythmValues(ps)
          ==> exists numeral ::
                && Some(G.EveryBeats(numeral)) in RhythmValues(ps)
                && G.IsNumeral(numeral)
                && r == (if G.NumeralValue(numeral) == 0.0 then Err(ZeroStep(w.start))
                         else Ok(FRange(w.start, w.end, G.NumeralValue(numeral)))))
  {
    if |ps| > 0 {
      var values := seq(|ps|, i requires 0 <= i < |ps| => ps[i].directive.rhythm);
      forall v ensures v in (set i | 0 <= i < |values| :: values[i]) <==> v in RhythmValues(ps) {
        if v in RhythmValues(ps) {
          var i :| 0 <= i < |ps| && ps[i].directive.rhythm == v;
          assert values[i] == v;
        }
      }
      assert (set i | 0 <= i < |values| :: values[i]) == RhythmValues(ps);
      AgreeWithFirst(values);
      assert ps[0].directive.rhythm in RhythmValues(ps);
      assert G.WellFormed(ps[0].directive);
      match ps[0].directive.rhythm
      case Some(EveryBeats(numeral)) =>
        assert G.IsNumeral(numeral);
      case None =>
        forall i | 0 <= i < |ps| ensures ps[i].directive.rhythm.None? {
          assert values[i] == values[0];
        }
      case Some(Never) =>
      case Some(PerMeasure) =>
    }
  }

  /** Consecutive sub-spans: each runs to the next start, the last to `end`. */
  function SubRanges(starts: seq<Offset>, end: Offset): (r: seq<Window>)
    ensures |r| == |starts|
    ensures forall i | 0 <= i < |r| :: r[i].start == starts[i]
    ensures forall i | 0 <= i < |r| - 1 :: r[i].end == r[i + 1].start
    ensures |r| > 0 ==> r[|r| - 1].end == end
  {
    seq(|starts|, i requires 0 <= i < |starts| => Window(starts[i], if i + 1 < |starts| then starts[i + 1] else end))
  }

  // ---------------------------------------------------------------- directive path: clusters

  /**
   * A note of part `p` feeds the cluster of `sub` when it begins inside the outer span and
   * inside `sub`, and its offset is not excluded for `p`.
   */
  predicate Feeds(n: NoteEvent, p: PartId, exclusions: Exclusions, outer: Window, sub: Window) {
    InWindow(n.offset, outer) && !Blocked(exclusions, p, n.offset) && InWindow(n.offset, sub)
  }

  /** The pitches of the included parts' notes that feed `sub`. */
  function ClusterPitches(score: Score, included: set<PartId>, exclusions: Exclusions, outer: Window, sub: Window)
    : set<Pitch>
  {
    set p, k | p in included && p < |score.parts| && 0 <= k < |score.parts[p].notes|
      && Feeds(score.parts[p].notes[k], p, exclusions, outer, sub)
      :: score.parts[p].notes[k].pitch
  }

  /** The directive path: parse, validate, choose the parts, cut into sub-spans, collect pitches. */
  function ResolveDirectives(score: Score, w: Window, entries: seq<Entry>, exclusions: Exclusions, includeEnd: bool)
    : (r: Result<seq<TimedChord>, ResolveError>)
    ensures ParseEntries(entries, w.start).Err? ==> r == Err(ParseEntries(entries, w.start).error)
    ensures ParseEntries(entries, w.start).Ok? ==>
      var ps := ParseEntries(entries, w.start).value;
      && (|RhythmValues(ps)| > 1 <==> r == Err(AmbiguousRhythm(w.start)))
      && (|RhythmValues(ps)| <= 1 && |PartsValues(ps)| > 1 <==> r == Err(AmbiguousParts(w.start)))
      && (|RhythmValues(ps)| <= 1 && |PartsValues(ps)| <= 1 ==>
          match ClusterStarts(ps, w, score.measureStarts, includeEnd)
          case Err(e) => r == Err(e)
          case Ok(starts) =>
            var subs := SubRanges(starts, w.end);
            var included := IncludedParts(ps, |score.parts|);
            && r.Ok? && |r.value| == |subs|
            && forall i | 0 <= i < |subs| ::
              r.value[i] == TimedChord(subs[i].start, Pitches(ClusterPitches(score, included, exclusions, w, subs[i]))))
  {
    var ps :- ParseEntries(entries, w.start);
    if |RhythmValues(ps)| > 1 then Err(AmbiguousRhythm(w.start))
    else if |PartsValues(ps)| > 1 then Err(AmbiguousParts(w.start))
    else
      var included := IncludedParts(ps, |score.parts|);
      var starts :- ClusterStarts(ps, w, score.measureStarts, includeEnd);
      var subs := SubRanges(starts, w.end);
      Ok(seq(|subs|, i requires 0 <= i < |subs| =>
        TimedChord(subs[i].start, Pitches(ClusterPitches(score, included, exclusions, w, subs[i])))))
  }

  /** `process_chord_annotation`: the explicit path when a chord symbol is present, else the directive path. */
  function ProcessChordAnnotation(score: Score, w: Window, entries: seq<Entry>, exclusions: Exclusions, includeEnd: bool)
    : Result<seq<TimedChord>, ResolveError>
  {
    if HasChordSymbol(entries) then ResolveExplicit(w.start, entries)
    else ResolveDirectives(score, w, entries, exclusions, includeEnd)
  }

  // ---------------------------------------------------------------- the whole piece

  /** The outer spans: each runs to the next span's start, the last to the end of the piece. */
  function OuterRanges(spans: seq<Span>, highestTime: Offset): (r: seq<Window>)
    ensures |r| == |spans|
  {
    seq(|spans|, i requires 0 <= i < |spans| =>
      Window(spans[i].start, if i + 1 < |spans| then spans[i + 1].start else highestTime))
  }

  /** The outer spans of a score tile `[0, highestTime)` in order, without gaps or overlaps. */
  lemma OuterRangesTile(score: Score, reading: DefaultReading)
    requires |score.parts| > 0
    ensures var spans := BuildSpans(score, reading);
      var r := OuterRanges(spans, score.highestTime);
      && |r| > 0
      && r[0].start == 0.0
      && (forall i | 0 <= i < |r| - 1 :: r[i].end == r[i + 1].start && r[i].start < r[i].end)
      && r[|r| - 1].end == score.highestTime
  {
    TileFromIncreasing(BuildSpans(score, reading), score.highestTime);
  }

  lemma TileFromIncreasing(spans: seq<Span>, highestTime: Offset)
    requires |spans| > 0 && spans[0].start == 0.0
    requires StrictlyIncreasing(Starts(spans))
    ensures var r := OuterRanges(spans, highestTime);
      && |r| > 0
      && r[0].start == 0.0
      && (forall i | 0 <= i < |r| - 1 :: r[i].end == r[i + 1].start && r[i].start < r[i].end)
      && r[|r| - 1].end == highestTime
  {
    forall i | 0 <= i < |spans| - 1 ensures spans[i].start < spans[i + 1].start {
      assert Starts(spans)[i] < Starts(spans)[i + 1];
    }
  }

  /** The outcome of the `j`-th span over its outer window. */
  function SpanResult(score: Score, spans: seq<Span>, exclusions: Exclusions, includeEnd: bool, j: nat)
    : Result<seq<TimedChord>, ResolveError>
    requires j < |spans|
  {
    ProcessChordAnnotation(score, OuterRanges(spans, score.highestTime)[j], spans[j].entries, exclusions, includeEnd)
  }

  function SpanResults(score: Score, spans: seq<Span>, exclusions: Exclusions, includeEnd: bool)
    : (r: seq<Result<seq<TimedChord>, ResolveError>>)
    ensures |r| == |spans|
    ensures forall j | 0 <= j < |spans| :: r[j] == SpanResult(score, spans, exclusions, includeEnd, j)
  {
    seq(|spans|, j requires 0 <= j < |spans| => SpanResult(score, spans, exclusions, includeEnd, j))
  }

  /** The values of successful outcomes from `i` on, concatenated in order. */
  function Flatten<T, E>(results: seq<Result<seq<T>, E>>, i: nat): seq<T>
    requires i <= |results|
    requires forall j | i <= j < |results| :: results[j].Ok?
    decreases |results| - i
  {
    if i == |results| then [] else results[i].value + Flatten(results, i + 1)
  }

  /** A chord is in the concatenation iff some span from `i` on produced it. */
  lemma {:induction false} FlattenMembers<T, E>(results: seq<Result<seq<T>, E>>, i: nat, x: T)
    requires i <= |results|
    requires forall j | i <= j < |results| :: results[j].Ok?
    ensures x in Flatten(results, i) <==> exists j | i <= j < |results| :: x in results[j].value
    decreases |results| - i
  {
    if i < |results| {
      FlattenMembers(results, i + 1, x);
    }
  }

  /**
   * The loop over the spans' outcomes from `i` on: the first error aborts everything,
   * otherwise the chords of all spans follow one another in span order.
   */
  function Collect<T, E>(results: seq<Result<seq<T>, E>>, i: nat): (r: Result<seq<T>, E>)
    requires i <= |results|
    ensures r.Ok? <==> forall j | i <= j < |results| :: results[j].Ok?
    ensures r.Err? ==> exists j | i <= j < |results| ::
      && results[j] == Err(r.error)
      && forall j' | i <= j' < j :: results[j'].Ok?
    ensures r.Ok? ==> r.value == Flatten(results, i)
    ensures r.Ok? && i < |results| ==> results[i].value <= r.value
    ensures r.Ok? && i == |results| ==> r.value == []
    decreases |results| - i
  {
    if i == |results| then Ok([])
    else
      var here :- results[i];
      var rest :- Collect(results, i + 1);
      Ok(here + rest)
  }

  /**
   * `extract_harmonic_clusters`: build the spans, then resolve each over its outer range,
   * using the intended per-part exclusions.
   */
  function ExtractHarmonicClusters(score: Score, reading: DefaultReading, includeEnd: bool)
    : (r: Result<seq<TimedChord>, ResolveError>)
    requires |score.parts| > 0
    ensures var spans := BuildSpans(score, reading);
      && (r.Ok? <==> forall j | 0 <= j < |spans| :: SpanResult(score, spans, ExclusionsByPart(score), includeEnd, j).Ok?)
      && (r.Err? ==> exists j | 0 <= j < |spans| ::
            && SpanResult(score, spans, ExclusionsByPart(score), includeEnd, j) == Err(r.error)
            && forall j' | 0 <= j' < j :: SpanResult(score, spans, ExclusionsByPart(score), includeEnd, j').Ok?)
      && (r.Ok? ==> r.value == Flatten(SpanResults(score, spans, ExclusionsByPart(score), includeEnd), 0))
  {
    Collect(SpanResults(score, BuildSpans(score, reading), ExclusionsByPart(score), includeEnd), 0)
  }

  /** With one span, the loop's outcome is that span's outcome. */
  lemma SingleSpanCollect<T, E>(results: seq<Result<seq<T>, E>>)
    requires |results| == 1
    ensures Collect(results, 0) == results[0]
  {
    assert Collect(results, 1) == Ok([]);
    if results[0].Ok? {
      assert results[0].value + [] == results[0].value;
    }
  }

  /** A score without annotations gets only the default span, covering the whole piece. */
  lemma UnannotatedSpans(score: Score, reading: DefaultReading)
    requires |score.parts| > 0
    requires forall p | 0 <= p < |score.parts| :: score.parts[p].annotations == []
    ensures BuildSpans(score, reading) == [Span(0.0, [Entry(0, DefaultAnnotation(reading))])]
  {
    BuildSpansDefault(score, reading);
    var grouped := GroupedSpans(score);
    NoMembersEmpty(Starts(grouped));
  }

  lemma NoMembersEmpty<T>(s: seq<T>)
    ensures (forall x :: x !in s) ==> s == []
  {
    if |s| > 0 {
      assert s[0] in s;
    }
  }

  /** Without annotations, the default read as written is the chord symbol `ma`: one named chord at 0. */
  lemma UnannotatedAsWritten(score: Score, includeEnd: bool)
    requires |score.parts| > 0
    requires forall p | 0 <= p < |score.parts| :: score.parts[p].annotations == []
    ensures ExtractHarmonicClusters(score, AsWritten, includeEnd) == Ok([TimedChord(0.0, Named("ma"))])
  {
    UnannotatedSpans(score, AsWritten);
    var w := Window(0.0, score.highestTime);
    var spans := [Span(0.0, [Entry(0, ChordSymbol("ma"))])];
    assert OuterRanges(spans, score.highestTime) == [w];
    assert HasChordSymbol([Entry(0, ChordSymbol("ma"))]) by {
      assert [Entry(0, ChordSymbol("ma"))][0].annotation.ChordSymbol?;
    }
    var excl := ExclusionsByPart(score);
    assert ProcessChordAnnotation(score, w, spans[0].entries, excl, includeEnd) == Ok([TimedChord(0.0, Named("ma"))]);
    SingleSpanCollect(SpanResults(score, spans, excl, includeEnd));
  }

  /** Read as documented, the default is the directive `ma`: one chord per measure start, over all parts. */
  lemma UnannotatedAsDocumented(score: Score, includeEnd: bool)
    requires |score.parts| > 0
    requires forall p | 0 <= p < |score.parts| :: score.parts[p].annotations == []
    ensures var r := ExtractHarmonicClusters(score, AsDocumented, includeEnd);
      r.Ok? && ChordOffsets(r.value) == SortedUnique(MeasuresIn(score.measureStarts, Window(0.0, score.highestTime), includeEnd))
  {
    UnannotatedSpans(score, AsDocumented);
    var w := Window(0.0, score.highestTime);
    var spans := [Span(0.0, [Entry(0, NoChord("ma"))])];
    assert OuterRanges(spans, score.highestTime) == [w];
    var d := Directive(Some(PerMeasure), Some(AllParts));
    ParsesMa();
    SingleDirective(0, "ma", 0.0, d);
    var excl := ExclusionsByPart(score);
    var starts := SortedUnique(MeasuresIn(score.measureStarts, w, includeEnd));
    ChordOffsetsAreStarts(score, w, spans[0].entries, excl, includeEnd, starts);
    SingleSpanCollect(SpanResults(score, spans, excl, includeEnd));
  }

  // ---------------------------------------------------------------- properties of the directive path

  /** The parts named by a span's entries. */
  function EntryParts(entries: seq<Entry>): set<PartId> {
    set i | 0 <= i < |entries| :: entries[i].part
  }

  /** Every pitch sounded by a note of one of `parts`. */
  function PartPitches(score: Score, parts: set<PartId>): set<Pitch> {
    set p, k | p in parts && p < |score.parts| && 0 <= k < |score.parts[p].notes| :: score.parts[p].notes[k].pitch
  }

  /** With rhythm `n`, or no rhythm anywhere, the span is one sub-span `[start, end)`. */
  lemma NeverGivesWholeSpan(score: Score, w: Window, entries: seq<Entry>, exclusions: Exclusions, includeEnd: bool)
    requires !HasChordSymbol(entries)
    requires ParseEntries(entries, w.start).Ok?
    requires var ps := ParseEntries(entries, w.start).value;
      && |RhythmValues(ps)| <= 1 && |PartsValues(ps)| <= 1
      && (Some(Never) in RhythmValues(ps) || forall i | 0 <= i < |ps| :: ps[i].directive.rhythm.None?)
    ensures var ps := ParseEntries(entries, w.start).value;
      ProcessChordAnnotation(score, w, entries, exclusions, includeEnd)
      == Ok([TimedChord(w.start, Pitches(ClusterPitches(score, IncludedParts(ps, |score.parts|), exclusions, w, w)))])
  {
    var ps := ParseEntries(entries, w.start).value;
    ClusterStartsFollowsSource(ps, w, score.measureStarts, includeEnd);
    assert ClusterStarts(ps, w, score.measureStarts, includeEnd) == Ok([w.start]);
    assert SubRanges([w.start], w.end) == [w];
    var r := ResolveDirectives(score, w, entries, exclusions, includeEnd);
    assert r.Ok? && |r.value| == 1;
    assert r.value == [r.value[0]];
  }

  /**
   * A rhythm of `k` beats: one chord at each stepped offset `start, start + k, ...` below
   * `end` (see `FRangeShape`); `k = 0` is an error.
   */
  lemma NumericSubSpans(score: Score, w: Window, entries: seq<Entry>, exclusions: Exclusions, includeEnd: bool,
                        numeral: string)
    requires !HasChordSymbol(entries)
    requires ParseEntries(entries, w.start).Ok?
    requires var ps := ParseEntries(entries, w.start).value;
      && |ps| > 0 && |PartsValues(ps)| <= 1
      && forall i | 0 <= i < |ps| :: ps[i].directive.rhythm == Some(EveryBeats(numeral))
    ensures IsNumeral(numeral)
    ensures NumeralValue(numeral) == 0.0 ==>
      ProcessChordAnnotation(score, w, entries, exclusions, includeEnd) == Err(ZeroStep(w.start))
    ensures NumeralValue(numeral) > 0.0 ==>
      var r := ProcessChordAnnotation(score, w, entries, exclusions, includeEnd);
      var k := NumeralValue(numeral);
      r.Ok? && ChordOffsets(r.value) == FRange(w.start, w.end, k)
  {
    var ps := ParseEntries(entries, w.start).value;
    assert G.WellFormed(ps[0].directive);
    SingleRhythm(ps, Some(EveryBeats(numeral)));
    var k := NumeralValue(numeral);
    var r := ProcessChordAnnotation(score, w, entries, exclusions, includeEnd);
    if k > 0.0 {
      var starts := FRange(w.start, w.end, k);
      assert ClusterStarts(ps, w, score.measureStarts, includeEnd) == Ok(starts);
      ChordOffsetsAreStarts(score, w, entries, exclusions, includeEnd, starts);
    } else {
      assert ClusterStarts(ps, w, score.measureStarts, includeEnd) == Err(ZeroStep(w.start));
    }
  }

  /** Entries that all carry the same rhythm have one rhythm value. */
  lemma SingleRhythm(ps: seq<Parsed>, t: Option<RhythmToken>)
    requires |ps| > 0
    requires forall i | 0 <= i < |ps| :: ps[i].directive.rhythm == t
    ensures RhythmValues(ps) == {t}
  {
    assert ps[0].directive.rhythm in RhythmValues(ps);
  }

  /** Once validated, the chords sit exactly at the sub-span starts, one per sub-span. */
  lemma ChordOffsetsAreStarts(score: Score, w: Window, entries: seq<Entry>, exclusions: Exclusions, includeEnd: bool,
                              starts: seq<Offset>)
    requires !HasChordSymbol(entries)
    requires ParseEntries(entries, w.start).Ok?
    requires var ps := ParseEntries(entries, w.start).value;
      && |RhythmValues(ps)| <= 1 && |PartsValues(ps)| <= 1
      && ClusterStarts(ps, w, score.measureStarts, includeEnd) == Ok(starts)
    ensures var r := ProcessChordAnnotation(score, w, entries, exclusions, includeEnd);
      r.Ok? && ChordOffsets(r.value) == starts
  {
    var r := ResolveDirectives(score, w, entries, exclusions, includeEnd);
    var subs := SubRanges(starts, w.end);
    assert r.Ok? && |r.value| == |subs|;
    forall i | 0 <= i < |starts| ensures r.value[i].offset == starts[i] {
      assert r.value[i].offset == subs[i].start;
    }
    assert ChordOffsets(r.value) == starts;
  }

  /** The offsets of a chord sequence, in order. */
  function ChordOffsets(chords: seq<TimedChord>): (r: seq<Offset>)
    ensures |r| == |chords|
    ensures forall i | 0 <= i < |chords| :: r[i] == chords[i].offset
  {
    seq(|chords|, i requires 0 <= i < |chords| => chords[i].offset)
  }

  /** With `p` in the span, only notes of the annotated parts reach any chord. */
  lemma ThisPartScope(score: Score, w: Window, entries: seq<Entry>, exclusions: Exclusions, includeEnd: bool)
    requires !HasChordSymbol(entries)
    requires ProcessChordAnnotation(score, w, entries, exclusions, includeEnd).Ok?
    requires exists i | 0 <= i < |entries| ::
      ParseAnnotation(entries[i].annotation.kind).Some? && ParseAnnotation(entries[i].annotation.kind).value.parts == Some(ThisPart)
    ensures var r := ProcessChordAnnotation(score, w, entries, exclusions, includeEnd).value;
      forall i | 0 <= i < |r| :: r[i].chord.Pitches? && r[i].chord.pitches <= PartPitches(score, EntryParts(entries))
  {
    var r := ResolveDirectives(score, w, entries, exclusions, includeEnd);
    var ps := ParseEntries(entries, w.start).value;
    ThisPartIncluded(entries, w.start, |score.parts|);
    forall i | 0 <= i < |r.value|
      ensures r.value[i].chord.Pitches? && r.value[i].chord.pitches <= PartPitches(score, EntryParts(entries))
    {
      var sub := ResolvedChord(score, w, entries, exclusions, includeEnd, i);
      ClusterWithinParts(score, EntryParts(entries), exclusions, w, sub);
    }
  }

  /** With `p` in some directive, the parts in scope are exactly the annotated ones. */
  lemma ThisPartIncluded(entries: seq<Entry>, at: Offset, partCount: nat)
    requires ParseEntries(entries, at).Ok?
    requires exists i | 0 <= i < |entries| ::
      ParseAnnotation(entries[i].annotation.kind).Some? && ParseAnnotation(entries[i].annotation.kind).value.parts == Some(ThisPart)
    ensures IncludedParts(ParseEntries(entries, at).value, partCount) == EntryParts(entries)
  {
    var ps := ParseEntries(entries, at).value;
    var j :| 0 <= j < |entries| && ParseAnnotation(entries[j].annotation.kind).Some?
      && ParseAnnotation(entries[j].annotation.kind).value.parts == Some(ThisPart);
    assert ps[j].directive.parts == Some(ThisPart);
    var included := IncludedParts(ps, partCount);
    forall p ensures p in included <==> p in EntryParts(entries) {
      if p in EntryParts(entries) {
        var i :| 0 <= i < |entries| && entries[i].part == p;
        assert ps[i].part == p;
      }
    }
  }

  /** Each chord of a resolved span is the pitch set of the parts in scope over some sub-span. */
  lemma ResolvedChord(score: Score, w: Window, entries: seq<Entry>, exclusions: Exclusions, includeEnd: bool, i: nat)
    returns (sub: Window)
    requires ResolveDirectives(score, w, entries, exclusions, includeEnd).Ok?
    requires i < |ResolveDirectives(score, w, entries, exclusions, includeEnd).value|
    ensures ParseEntries(entries, w.start).Ok?
    ensures ResolveDirectives(score, w, entries, exclusions, includeEnd).value[i]
      == TimedChord(sub.start, Pitches(ClusterPitches(score, IncludedParts(ParseEntries(entries, w.start).value, |score.parts|), exclusions, w, sub)))
  {
    var ps := ParseEntries(entries, w.start).value;
    assert |RhythmValues(ps)| <= 1 && |PartsValues(ps)| <= 1;
    var starts := ClusterStarts(ps, w, score.measureStarts, includeEnd).value;
    sub := SubRanges(starts, w.end)[i];
  }

  /** A chord's pitches come from notes of the parts in scope. */
  lemma ClusterWithinParts(score: Score, included: set<PartId>, exclusions: Exclusions, outer: Window, sub: Window)
    ensures ClusterPitches(score, included, exclusions, outer, sub) <= PartPitches(score, included)
  {
  }


  // ---------------------------------------------------------------- worked examples

  /** A span with one directive entry parses to that directive, with one rhythm and one parts value. */
  lemma SingleDirective(part: PartId, text: string, at: Offset, d: Directive)
    requires ParseAnnotation(text) == Some(d)
    ensures ParseEntries([Entry(part, NoChord(text))], at) == Ok([Parsed(part, d)])
    ensures RhythmValues([Parsed(part, d)]) == {d.rhythm}
    ensures PartsValues([Parsed(part, d)]) == {d.parts}
  {
    var entries := [Entry(part, NoChord(text))];
    assert entries[1..] == [];
    assert ParseEntries(entries[1..], at) == Ok([]);
    assert [Parsed(part, d)] + [] == [Parsed(part, d)];
  }

  /** Rhythm `m` over `[0, 16)` with measures at 0, 4, 8, 12: four one-measure sub-spans. */
  lemma MeasureExample(n: NoteEvent)
    ensures var score := Score([Part([AnnotationEvent(0.0, NoChord("m"))], [n])], [0.0, 4.0, 8.0, 12.0], 16.0);
      var r := ProcessChordAnnotation(score, Window(0.0, 16.0), [Entry(0, NoChord("m"))], map[], false);
      && r.Ok? && ChordOffsets(r.value) == [0.0, 4.0, 8.0, 12.0]
      && SubRanges([0.0, 4.0, 8.0, 12.0], 16.0)
         == [Window(0.0, 4.0), Window(4.0, 8.0), Window(8.0, 12.0), Window(12.0, 16.0)]
  {
    var score := Score([Part([AnnotationEvent(0.0, NoChord("m"))], [n])], [0.0, 4.0, 8.0, 12.0], 16.0);
    var w := Window(0.0, 16.0);
    var d := Directive(Some(PerMeasure), None);
    ParsesM();
    SingleDirective(0, "m", w.start, d);
    FourMeasures();
    ChordOffsetsAreStarts(score, w, [Entry(0, NoChord("m"))], map[], false, [0.0, 4.0, 8.0, 12.0]);
    FourSubRanges();
  }

  lemma FourMeasures()
    ensures SortedUnique(MeasuresIn([0.0, 4.0, 8.0, 12.0], Window(0.0, 16.0), false)) == [0.0, 4.0, 8.0, 12.0]
  {
    var measures := MeasuresIn([0.0, 4.0, 8.0, 12.0], Window(0.0, 16.0), false);
    assert measures == [0.0, 4.0, 8.0, 12.0];
    SortedUniqueOfSorted(measures);
  }

  lemma FourSubRanges()
    ensures SubRanges([0.0, 4.0, 8.0, 12.0], 16.0)
      == [Window(0.0, 4.0), Window(4.0, 8.0), Window(8.0, 12.0), Window(12.0, 16.0)]
  {
  }

  /** The directive texts used by the examples. */
  lemma ParsesMa()
    ensures ParseAnnotation("ma") == Some(Directive(Some(PerMeasure), Some(AllParts)))
  {
    assert Lower("ma") == "ma";
    G.RecognizerExamples();
  }

  lemma ParsesM()
    ensures ParseAnnotation("m") == Some(Directive(Some(PerMeasure), None))
  {
    assert Lower("m") == "m";
    G.RecognizerExamples();
  }

  lemma ParsesN()
    ensures ParseAnnotation("n") == Some(Directive(Some(Never), None))
  {
    assert Lower("n") == "n";
    G.RecognizerExamples();
  }

  lemma ParsesP()
    ensures ParseAnnotation("p") == Some(Directive(None, Some(ThisPart)))
  {
    assert Lower("p") == "p";
    G.RecognizerExamples();
  }

  lemma ParsesTwo()
    ensures ParseAnnotation("2") == Some(Directive(Some(EveryBeats("2")), None))
  {
    assert Lower("2") == "2";
    assert G.ScanNumeral("2");
  }


  /** Rhythm `2` over `[0, 10)`: chords at 0, 2, 4, 6, 8. */
  lemma NumericExample(n: NoteEvent)
    ensures var score := Score([Part([AnnotationEvent(0.0, NoChord("2"))], [n])], [], 10.0);
      var r := ProcessChordAnnotation(score, Window(0.0, 10.0), [Entry(0, NoChord("2"))], map[], false);
      r.Ok? && ChordOffsets(r.value) == [0.0, 2.0, 4.0, 6.0, 8.0]
  {
    var score := Score([Part([AnnotationEvent(0.0, NoChord("2"))], [n])], [], 10.0);
    var w := Window(0.0, 10.0);
    var d := Directive(Some(EveryBeats("2")), None);
    ParsesTwo();
    SingleDirective(0, "2", w.start, d);
    assert G.IsNumeral("2") && G.NumeralValue("2") == 2.0 by {
      assert G.DotIndex("2") == 1;
    }
    assert FRange(8.0, 10.0, 2.0) == [8.0];
    assert FRange(6.0, 10.0, 2.0) == [6.0, 8.0];
    assert FRange(4.0, 10.0, 2.0) == [4.0, 6.0, 8.0];
    assert FRange(2.0, 10.0, 2.0) == [2.0, 4.0, 6.0, 8.0];
    assert FRange(0.0, 10.0, 2.0) == [0.0, 2.0, 4.0, 6.0, 8.0];
    NumericSubSpans(score, w, [Entry(0, NoChord("2"))], map[], false, "2");
  }

  /** Scope `p`: only part 0 carries the directive, so part 1's simultaneous note is left out. */
  lemma ScopeExample(a: Pitch, b: Pitch)
    ensures var score := Score([Part([AnnotationEvent(0.0, NoChord("p"))], [NoteEvent(a, 0.0)]),
                                Part([], [NoteEvent(b, 0.0)])], [], 4.0);
      ProcessChordAnnotation(score, Window(0.0, 4.0), [Entry(0, NoChord("p"))], map[], false)
      == Ok([TimedChord(0.0, Pitches({a}))])
  {
    var score := Score([Part([AnnotationEvent(0.0, NoChord("p"))], [NoteEvent(a, 0.0)]),
                        Part([], [NoteEvent(b, 0.0)])], [], 4.0);
    var w := Window(0.0, 4.0);
    var d := Directive(None, Some(ThisPart));
    ParsesP();
    SingleDirective(0, "p", w.start, d);
    var ps := [Parsed(0, d)];
    NeverGivesWholeSpan(score, w, [Entry(0, NoChord("p"))], map[], false);
    assert IncludedParts(ps, 2) == {0};
    assert Feeds(score.parts[0].notes[0], 0, map[], w, w);
    assert ClusterPitches(score, {0}, map[], w, w) == {a};
  }

  /** One part: directive `n` at beat 0, an `x` at beat 3, and a note at each of those beats. */
  function ExclusionScore(a: Pitch, b: Pitch): Score {
    Score([Part([AnnotationEvent(0.0, NoChord("n")), AnnotationEvent(3.0, NoChord("x"))],
                [NoteEvent(a, 0.0), NoteEvent(b, 3.0)])], [], 4.0)
  }

  /** In `ExclusionScore` the directive path yields the whole span as one chord over part 0. */
  lemma ExclusionScoreWholeSpan(a: Pitch, b: Pitch, exclusions: Exclusions)
    ensures ProcessChordAnnotation(ExclusionScore(a, b), Window(0.0, 4.0), [Entry(0, NoChord("n"))], exclusions, false)
      == Ok([TimedChord(0.0, Pitches(ClusterPitches(ExclusionScore(a, b), {0}, exclusions, Window(0.0, 4.0), Window(0.0, 4.0))))])
  {
    var d := Directive(Some(Never), None);
    ParsesN();
    SingleDirective(0, "n", 0.0, d);
    var ps := [Parsed(0, d)];
    assert Some(Never) in RhythmValues(ps);
    assert IncludedParts(ps, 1) == {0};
    NeverGivesWholeSpan(ExclusionScore(a, b), Window(0.0, 4.0), [Entry(0, NoChord("n"))], exclusions, false);
  }

  /** An `x` at beat 3 keeps that part's beat-3 note out of the chord covering beat 3. */
  lemma ExclusionExample(a: Pitch, b: Pitch)
    ensures var score := ExclusionScore(a, b);
      ProcessChordAnnotation(score, Window(0.0, 4.0), [Entry(0, NoChord("n"))], ExclusionsByPart(score), false)
      == Ok([TimedChord(0.0, Pitches({a}))])
  {
    ExclusionScoreWholeSpan(a, b, ExclusionsByPart(ExclusionScore(a, b)));
    IntendedExclusionPitches(a, b);
  }

  lemma IntendedExclusionPitches(a: Pitch, b: Pitch)
    ensures var score := ExclusionScore(a, b);
      ClusterPitches(score, {0}, ExclusionsByPart(score), Window(0.0, 4.0), Window(0.0, 4.0)) == {a}
  {
    ExclusionScoreBlocks(a, b);
    SecondNoteBlocked(a, b, ExclusionsByPart(ExclusionScore(a, b)));
  }

  /** The intended map of the example blocks part 0 at beat 3 and not at beat 0. */
  lemma ExclusionScoreBlocks(a: Pitch, b: Pitch)
    ensures var intended := ExclusionsByPart(ExclusionScore(a, b));
      !Blocked(intended, 0, 0.0) && Blocked(intended, 0, 3.0)
  {
    var score := ExclusionScore(a, b);
    assert IsExclusion(score.parts[0].annotations[1].annotation) by {
      assert Lower("x") == "x";
    }
    assert !IsExclusion(score.parts[0].annotations[0].annotation) by {
      assert Lower("n") == "n";
    }
    ExclusionsByPartBlocks(score, 0, 3.0);
    ExclusionsByPartBlocks(score, 0, 0.0);
  }

  /** Any map that blocks the example's beat-3 note and not its beat-0 note leaves only `a`. */
  lemma SecondNoteBlocked(a: Pitch, b: Pitch, exclusions: Exclusions)
    requires !Blocked(exclusions, 0, 0.0) && Blocked(exclusions, 0, 3.0)
    ensures ClusterPitches(ExclusionScore(a, b), {0}, exclusions, Window(0.0, 4.0), Window(0.0, 4.0)) == {a}
  {
    var score := ExclusionScore(a, b);
    var w := Window(0.0, 4.0);
    var cluster := ClusterPitches(score, {0}, exclusions, w, w);
    assert Feeds(score.parts[0].notes[0], 0, exclusions, w, w);
    assert a in cluster;
    forall x | x in cluster ensures x == a {
      var p, k :| p in {0} && p < |score.parts| && 0 <= k < |score.parts[p].notes|
        && Feeds(score.parts[p].notes[k], p, exclusions, w, w) && score.parts[p].notes[k].pitch == x;
      assert k == 0;
    }
  }

  /** With the exclusion map as the source builds it, the same note gets into the chord. */
  lemma ExclusionFinding(a: Pitch, b: Pitch)
    requires a != b
    ensures var score := ExclusionScore(a, b);
      var r := ProcessChordAnnotation(score, Window(0.0, 4.0), [Entry(0, NoChord("n"))], ExclusionsAsWritten(score), false);
      && r == Ok([TimedChord(0.0, Pitches({a, b}))])
      && r != ProcessChordAnnotation(score, Window(0.0, 4.0), [Entry(0, NoChord("n"))], ExclusionsByPart(score), false)
  {
    ExclusionScoreWholeSpan(a, b, ExclusionsAsWritten(ExclusionScore(a, b)));
    ExclusionExample(a, b);
    AsWrittenExclusionPitches(a, b);
    assert Pitches({a, b}) != Pitches({a}) by {
      assert b in {a, b};
    }
  }

  lemma AsWrittenExclusionPitches(a: Pitch, b: Pitch)
    ensures var score := ExclusionScore(a, b);
      ClusterPitches(score, {0}, ExclusionsAsWritten(score), Window(0.0, 4.0), Window(0.0, 4.0)) == {a, b}
  {
    var score := ExclusionScore(a, b);
    var w := Window(0.0, 4.0);
    var asWritten := ExclusionsAsWritten(score);
    ExclusionsAsWrittenNeverBlock(score, 0, 0.0);
    ExclusionsAsWrittenNeverBlock(score, 0, 3.0);
    assert Feeds(score.parts[0].notes[0], 0, asWritten, w, w);
    assert Feeds(score.parts[0].notes[1], 0, asWritten, w, w);
  }
}

=== FILE: music_constants.dfy ===
/**
 * The pitch-spelling tables of renderer/music/music_constants.py: 21 spellings (naturals,
 * flats and sharps) of the 12 chromatic scale steps, the per-step spelling groups, the
 * enharmonic links between them, and the step arithmetic built on top.
 */
module MusicConstants {
  import opened Wrappers

  /** The `Note` enum, constructors in declaration order (`s` = sharp, `b` = flat). */
  datatype Note = Cb | C | Cs | Db | D | Ds | Eb | E | Es | Fb | F | Fs | Gb | G | Gs | Ab | A | As | Bb | B | Bs

  /** One row of the table: scale step, accidental, staff degree and the three display names. */
  datatype NoteRow = NoteRow(step: int, accidental: int, degree: int, rich: string, portable: string, m21: string)

  const FlatSign: char := '\U{266D}'
  const NaturalSign: char := '\U{266E}'
  const SharpSign: char := '\U{266F}'

  function Row(n: Note): NoteRow {
    match n
    case Cb => NoteRow(11, -1, 0, "C" + [FlatSign], "Cb", "C-")
    case C  => NoteRow(0, 0, 0, "C" + [NaturalSign], "C", "C")
    case Cs => NoteRow(1, 1, 0, "C" + [SharpSign], "C#", "C#")
    case Db => NoteRow(1, -1, 1, "D" + [FlatSign], "Db", "D-")
    case D  => NoteRow(2, 0, 1, "D" + [NaturalSign], "D", "D")
    case Ds => NoteRow(3, 1, 1, "D" + [SharpSign], "D#", "D#")
    case Eb => NoteRow(3, -1, 2, "E" + [FlatSign], "Eb", "E-")
    case E  => NoteRow(4, 0, 2, "E" + [NaturalSign], "E", "E")
    case Es => NoteRow(5, 1, 2, "E" + [SharpSign], "E#", "E#")
    case Fb => NoteRow(4, -1, 3, "F" + [FlatSign], "Fb", "F-")
    case F  => NoteRow(5, 0, 3, "F" + [NaturalSign], "F", "F")
    case Fs => NoteRow(6, 1, 3, "F" + [SharpSign], "F#", "F#")
    case Gb => NoteRow(6, -1, 4, "G" + [FlatSign], "Gb", "G-")
    case G  => NoteRow(7, 0, 4, "G" + [NaturalSign], "G", "G")
    case Gs => NoteRow(8, 1, 4, "G" + [SharpSign], "G#", "G#")
    case Ab => NoteRow(8, -1, 5, "A" + [FlatSign], "Ab", "A-")
    case A  => NoteRow(9, 0, 5, "A" + [NaturalSign], "A", "A")
    case As => NoteRow(10, 1, 5, "A" + [SharpSign], "A#", "A#")
    case Bb => NoteRow(10, -1, 6, "B" + [FlatSign], "Bb", "B-")
    case B  => NoteRow(11, 0, 6, "B" + [NaturalSign], "B", "B")
    case Bs => NoteRow(0, 1, 6, "B" + [SharpSign], "B#", "B#")
  }

  function ScaleStep(n: Note): int { Row(n).step }
  function Accidental(n: Note): int { Row(n).accidental }

  /** The rows are well formed: steps in `0..11`, accidentals in `-1..1`. */
  lemma RowRanges(n: Note)
    ensures 0 <= ScaleStep(n) < 12
    ensures -1 <= Accidental(n) <= 1
  {
  }

  /** Every member, in declaration order (the iteration order of the enum). */
  function AllNotes(): seq<Note> {
    [Cb, C, Cs, Db, D, Ds, Eb, E, Es, Fb, F, Fs, Gb, G, Gs, Ab, A, As, Bb, B, Bs]
  }

  /** The enum lists each of the 21 members exactly once. */
  lemma AllNotesComplete(n: Note)
    ensures |AllNotes()| == 21
    ensures AllNotes()[Ordinal(n)] == n
    ensures forall i | 0 <= i < 21 && AllNotes()[i] == n :: i == Ordinal(n)
  {
  }

  /**
   * `_notes_by_step[step]`: the spellings of one step, in declaration order (the dict is
   * built by iterating the enum). A step outside `0..11` has no entry.
   */
  function Spellings(step: int): seq<Note> {
    match step
    case 0 => [C, Bs]
    case 1 => [Cs, Db]
    case 2 => [D]
    case 3 => [Ds, Eb]
    case 4 => [E, Fb]
    case 5 => [Es, F]
    case 6 => [Fs, Gb]
    case 7 => [G]
    case 8 => [Gs, Ab]
    case 9 => [A]
    case 10 => [As, Bb]
    case 11 => [Cb, B]
    case _ => []
  }

  /** Each group holds exactly the members with that scale step, so every member is in one group. */
  lemma SpellingsAreSteps(step: int, n: Note)
    ensures n in Spellings(step) <==> ScaleStep(n) == step
  {
  }

  /** Each group lists its members in declaration order. */
  lemma SpellingsInDeclarationOrder(step: int)
    ensures forall i, j | 0 <= i < j < |Spellings(step)| ::
      Ordinal(Spellings(step)[i]) < Ordinal(Spellings(step)[j])
  {
  }

  /** Position in the declaration order. */
  function Ordinal(n: Note): (r: nat)
    ensures r < 21
  {
    match n
    case Cb => 0 case C => 1 case Cs => 2 case Db => 3 case D => 4 case Ds => 5 case Eb => 6
    case E => 7 case Es => 8 case Fb => 9 case F => 10 case Fs => 11 case Gb => 12 case G => 13
    case Gs => 14 case Ab => 15 case A => 16 case As => 17 case Bb => 18 case B => 19 case Bs => 20
  }

  /** Every step has one or two spellings, with different accidentals; exactly 2, 7 and 9 have one. */
  lemma SpellingCounts(step: int)
    requires 0 <= step < 12
    ensures 1 <= |Spellings(step)| <= 2
    ensures |Spellings(step)| == 1 <==> step in {2, 7, 9}
    ensures forall i, j | 0 <= i < j < |Spellings(step)| ::
      Accidental(Spellings(step)[i]) != Accidental(Spellings(step)[j])
  {
  }

  /** The enharmonic link: the other spelling of the same step, if there is one. */
  function Enharmonic(n: Note): Option<Note> {
    var group := Spellings(ScaleStep(n));
    if |group| == 2 then Some(if group[0] == n then group[1] else group[0]) else None
  }

  /** The link is symmetric, joins distinct spellings of one step, and is missing only for steps 2, 7, 9. */
  lemma EnharmonicLinks(n: Note)
    ensures Enharmonic(n).Some? ==>
      && Enharmonic(n).value != n
      && ScaleStep(Enharmonic(n).value) == ScaleStep(n)
      && Enharmonic(Enharmonic(n).value) == Some(n)
    ensures Enharmonic(n).None? <==> ScaleStep(n) in {2, 7, 9}
  {
  }

  /** The first natural spelling in a group (`0 in note_options`), if any. */
  function NaturalIn(group: seq<Note>): (r: Option<Note>)
    ensures r.Some? ==> r.value in group && Accidental(r.value) == 0
    ensures r.None? ==> forall n | n in group :: Accidental(n) != 0
  {
    if |group| == 0 then None
    else if Accidental(group[0]) == 0 then Some(group[0])
    else NaturalIn(group[1..])
  }

  /** Every group without a natural holds a flat. */
  lemma NaturalOrFlat(step: int)
    requires 0 <= step < 12
    ensures |Spellings(step)| > 0
    ensures NaturalIn(Spellings(step)).None? ==> exists n | n in Spellings(step) :: Accidental(n) == -1
  {
    var group := Spellings(step);
    match step
    case 0 => assert Accidental(group[0]) == 0;
    case 1 => assert group[1] == Db && group[1] in group && Accidental(group[1]) == -1;
    case 2 => assert Accidental(group[0]) == 0;
    case 3 => assert group[1] == Eb && group[1] in group && Accidental(group[1]) == -1;
    case 4 => assert Accidental(group[0]) == 0;
    case 5 => assert Accidental(group[1]) == 0;
    case 6 => assert group[1] == Gb && group[1] in group && Accidental(group[1]) == -1;
    case 7 => assert Accidental(group[0]) == 0;
    case 8 => assert group[1] == Ab && group[1] in group && Accidental(group[1]) == -1;
    case 9 => assert Accidental(group[0]) == 0;
    case 10 => assert group[1] == Bb && group[1] in group && Accidental(group[1]) == -1;
    case 11 => assert Accidental(group[1]) == 0;
  }

  /**
   * `note_for_step`: the natural spelling if the step has one, otherwise the spelling with the
   * lowest accidental. A step outside `0..11` is a missing key (`None`).
   */
  function NoteForStep(step: int): (r: Option<Note>)
    ensures r.Some? <==> 0 <= step < 12
    ensures r.Some? ==> ScaleStep(r.value) == step && r.value in Spellings(step)
    ensures r.Some? ==> Accidental(r.value) != 1
    ensures r.Some? && (exists n | n in Spellings(step) :: Accidental(n) == 0) ==> Accidental(r.value) == 0
    ensures r.Some? && !(exists n | n in Spellings(step) :: Accidental(n) == 0) ==>
      forall n | n in Spellings(step) :: Accidental(r.value) <= Accidental(n)
  {
    if !(0 <= step < 12) then None
    else
      var group := Spellings(step);
      assert forall n :: n in group <==> ScaleStep(n) == step by {
        forall n ensures n in group <==> ScaleStep(n) == step { SpellingsAreSteps(step, n); }
      }
      NaturalOrFlat(step);
      match NaturalIn(group)
      case Some(n) => Some(n)
      case None =>
        var m := MinAccidental(group);
        RowRanges(m);
        Some(m)
  }

  /** The spelling with the lowest accidental (`min` over the dict's keys). */
  function MinAccidental(group: seq<Note>): (r: Note)
    requires |group| > 0
    ensures r in group
    ensures forall n | n in group :: Accidental(r) <= Accidental(n)
  {
    if |group| == 1 then group[0]
    else
      var rest := MinAccidental(group[1..]);
      if Accidental(group[0]) <= Accidental(rest) then group[0] else rest
  }

  /** The spelling chosen for each step: the natural, or else the flat. */
  function CanonicalSpelling(step: int): Option<Note> {
    match step
    case 0 => Some(C) case 1 => Some(Db) case 2 => Some(D) case 3 => Some(Eb) case 4 => Some(E)
    case 5 => Some(F) case 6 => Some(Gb) case 7 => Some(G) case 8 => Some(Ab) case 9 => Some(A)
    case 10 => Some(Bb) case 11 => Some(B) case _ => None
  }

  /** The table spells every step `0..11` with a note of that step. */
  lemma CanonicalSpellingSteps(step: int)
    requires 0 <= step < 12
    ensures CanonicalSpelling(step).Some? && ScaleStep(CanonicalSpelling(step).value) == step
  {
  }

  /** `note_for_step` agrees with the table of canonical spellings on every step. */
  lemma NoteForStepTable(step: int)
    ensures NoteForStep(step) == CanonicalSpelling(step)
  {
    if step < 6 { LowerHalfTable(step); } else { UpperHalfTable(step); }
  }

  lemma LowerHalfTable(step: int)
    requires step < 6
    ensures NoteForStep(step) == CanonicalSpelling(step)
  {
    match step
    case 0 => NaturalChosen(0, C);
    case 1 => FlatChosen(1, Cs, Db);
    case 2 => NaturalChosen(2, D);
    case 3 => FlatChosen(3, Ds, Eb);
    case 4 => NaturalChosen(4, E);
    case 5 => NaturalChosen(5, F);
    case _ =>
  }

  lemma UpperHalfTable(step: int)
    requires step >= 6
    ensures NoteForStep(step) == CanonicalSpelling(step)
  {
    match step
    case 6 => FlatChosen(6, Fs, Gb);
    case 7 => NaturalChosen(7, G);
    case 8 => FlatChosen(8, Gs, Ab);
    case 9 => NaturalChosen(9, A);
    case 10 => FlatChosen(10, As, Bb);
    case 11 => NaturalChosen(11, B);
    case _ =>
  }


  /** No sharp, and neither C-flat nor F-flat, is ever the chosen spelling. */
  lemma CanonicalSpellings(n: Note)
    ensures NoteForStep(ScaleStep(n)) == Some(n) <==> n in {C, Db, D, Eb, E, F, Gb, G, Ab, A, Bb, B}
  {
    NoteForStepTable(ScaleStep(n));
    match n
    case Cb => case C => case Cs => case Db => case D => case Ds => case Eb =>
    case E => case Es => case Fb => case F => case Fs => case Gb => case G =>
    case Gs => case Ab => case A => case As => case Bb => case B => case Bs =>
  }

  /** A step with a natural spelling gets the natural. */
  lemma NaturalChosen(step: int, natural: Note)
    requires 0 <= step < 12 && natural in Spellings(step) && Accidental(natural) == 0
    ensures NoteForStep(step) == Some(natural)
  {
    SpellingCounts(step);
    var r := NoteForStep(step).value;
    var group := Spellings(step);
    assert r in group;
  }

  /** A step spelled only by a sharp and a flat gets the flat. */
  lemma FlatChosen(step: int, sharp: Note, flat: Note)
    requires 0 <= step < 12 && Spellings(step) == [sharp, flat]
    requires Accidental(sharp) == 1 && Accidental(flat) == -1
    ensures NoteForStep(step) == Some(flat)
  {
    forall m | ScaleStep(m) == step ensures Accidental(m) != 0 {
      SpellingsAreSteps(step, m);
    }
    SpellingsAreSteps(step, flat);
  }

  /** `interval_exact`: the canonical spelling `k` steps above `n`, modulo the octave. */
  function IntervalExact(n: Note, k: int): (r: Note)
    ensures ScaleStep(r) == (ScaleStep(n) + k) % 12
    ensures Some(r) == CanonicalSpelling(ScaleStep(r))
  {
    var step := (ScaleStep(n) + k) % 12;
    CanonicalSpellingSteps(step);
    CanonicalSpelling(step).value
  }

  /** `interval_exact` is `note_for_step` of the shifted step. */
  lemma IntervalExactIsNoteForStep(n: Note, k: int)
    ensures Some(IntervalExact(n, k)) == NoteForStep((ScaleStep(n) + k) % 12)
  {
    CanonicalIsChosen(IntervalExact(n, k), (ScaleStep(n) + k) % 12);
  }

  /** Going up `k` steps and back down `k` lands on the canonical spelling of the starting step. */
  lemma IntervalRoundTrip(n: Note, k: int)
    ensures Some(IntervalExact(IntervalExact(n, k), -k)) == NoteForStep(ScaleStep(n))
  {
    var s := ScaleStep(n);
    var m := IntervalExact(n, k);
    var back := IntervalExact(m, -k);
    RowRanges(n);
    StepsCompose(s, ScaleStep(m), ScaleStep(back), k);
    CanonicalIsChosen(back, s);
  }

  /** Going up `k` and then down `k` modulo 12 returns to the starting step. */
  lemma StepsCompose(s: int, up: int, back: int, k: int)
    requires 0 <= s < 12
    requires up == (s + k) % 12 && back == (up + -k) % 12
    ensures back == s
  {
    ModShift(s, k);
  }

  /** The canonical spelling of a step is what `note_for_step` gives for it. */
  lemma CanonicalIsChosen(n: Note, s: int)
    requires Some(n) == CanonicalSpelling(s)
    ensures Some(n) == NoteForStep(s)
  {
    NoteForStepTable(s);
  }

  lemma ModShift(s: int, k: int)
    requires 0 <= s < 12
    ensures (((s + k) % 12) + -k) % 12 == s
  {
    var q := (s + k) / 12;
    assert (s + k) % 12 == s + k - 12 * q;
    assert ((s + k) % 12) + -k == s + 12 * (-q);
    ModAddMultiple(s, -q);
  }

  // ---------------------------------------------------------------- display

  /** Drops every trailing `c` (`str.rstrip` with a one-character argument). */
  function RStrip(s: string, c: char): (r: string)
    ensures r <= s
    ensures |r| == 0 || r[|r| - 1] != c
    ensures forall i | |r| <= i < |s| :: s[i] == c
  {
    if |s| == 0 || s[|s| - 1] != c then s else RStrip(s[..|s| - 1], c)
  }

  /** `Note.display`: the portable name without Unicode, else the rich name, optionally without its natural sign. */
  function Display(n: Note, useUnicode: bool, omitNatural: bool): string {
    if !useUnicode then Row(n).portable
    else if omitNatural then RStrip(Row(n).rich, NaturalSign)
    else Row(n).rich
  }

  /**
   * With Unicode, omitting the natural sign gives the bare letter for naturals and leaves flats
   * and sharps alone; putting the sign back gives the full rich name.
   */
  lemma DisplayOmitsNatural(n: Note)
    ensures Display(n, false, true) == Display(n, false, false) == Row(n).portable
    ensures Accidental(n) == 0 ==> Display(n, true, true) + [NaturalSign] == Display(n, true, false)
    ensures Accidental(n) == 0 ==> |Display(n, true, true)| == 1
    ensures Accidental(n) != 0 ==> Display(n, true, true) == Display(n, true, false)
  {
    var rich := Row(n).rich;
    assert |rich| == 2;
    if Accidental(n) == 0 {
      assert rich[1] == NaturalSign && rich[0] != NaturalSign;
      assert RStrip(rich, NaturalSign) == rich[..1];
    } else {
      assert rich[1] != NaturalSign;
    }
  }

  // ---------------------------------------------------------------- step sequences

  /** `dict.fromkeys`: the distinct elements, in order of first occurrence. */
  function Dedup(s: seq<int>): (r: seq<int>)
    ensures forall x :: x in r <==> x in s
    ensures forall i, j | 0 <= i < j < |r| :: r[i] != r[j]
    ensures |s| > 0 ==> |r| > 0 && r[0] == s[0]
  {
    if |s| == 0 then []
    else
      var init := s[..|s| - 1];
      var last := s[|s| - 1];
      var prefix := Dedup(init);
      assert s == init + [last];
      assert |init| > 0 ==> init[0] == s[0];
      if last in prefix then prefix else prefix + [last]
  }

  /** Position of the first occurrence of `x` in `s`. */
  function FirstIndex(s: seq<int>, x: int): (i: nat)
    requires x in s
    ensures i < |s| && s[i] == x && x !in s[..i]
  {
    if s[0] == x then 0 else
      var j := FirstIndex(s[1..], x);
      assert s[..j + 1] == [s[0]] + s[1..][..j];
      j + 1
  }

  lemma FirstIndexPrefix(s: seq<int>, p: seq<int>, x: int)
    requires p <= s && x in p
    ensures FirstIndex(s, x) == FirstIndex(p, x)
  {
    var i := FirstIndex(p, x);
    assert s[i] == x;
    assert s[..i] == p[..i];
    assert x in s[..i + 1];
  }

  /** `Dedup` keeps first-occurrence order. */
  lemma {:induction false} DedupOrder(s: seq<int>)
    ensures var r := Dedup(s);
      forall i, j | 0 <= i < j < |r| :: FirstIndex(s, r[i]) < FirstIndex(s, r[j])
  {
    if |s| > 0 {
      var init := s[..|s| - 1];
      var last := s[|s| - 1];
      assert s == init + [last];
      DedupOrder(init);
      var rp := Dedup(init);
      var r := Dedup(s);
      forall x | x in init ensures FirstIndex(s, x) == FirstIndex(init, x) {
        FirstIndexPrefix(s, init, x);
      }
      forall i, j | 0 <= i < j < |rp| ensures FirstIndex(s, rp[i]) < FirstIndex(s, rp[j]) {
        assert rp[i] in rp && rp[j] in rp;
        assert rp[i] in init && rp[j] in init;
        assert FirstIndex(init, Dedup(init)[i]) < FirstIndex(init, Dedup(init)[j]);
        assert FirstIndex(s, rp[i]) == FirstIndex(init, rp[i]);
        assert FirstIndex(s, rp[j]) == FirstIndex(init, rp[j]);
      }
      if last in rp {
        assert r == rp;
      } else {
        assert r == rp + [last];
        assert last !in init;
        assert FirstIndex(s, last) == |s| - 1;
        forall i, j | 0 <= i < j < |r| ensures FirstIndex(s, r[i]) < FirstIndex(s, r[j]) {
          assert r[i] == rp[i] && rp[i] in rp;
          if j < |rp| {
            assert r[j] == rp[j];
          } else {
            assert r[j] == last;
            assert FirstIndex(s, r[i]) == FirstIndex(init, r[i]) < |init|;
          }
        }
      }
    }
  }

  /** `Dedup` keeps one copy of each distinct element. */
  lemma {:induction false} DedupCount(s: seq<int>)
    ensures |Dedup(s)| == |set x | x in s|
  {
    if |s| > 0 {
      var init := s[..|s| - 1];
      var last := s[|s| - 1];
      assert s == init + [last];
      DedupCount(init);
      assert (set x | x in s) == (set x | x in init) + {last};
    }
  }

  /** The steps reached when walking twelve times by `offset` from `start`. */
  function StepWalk(offset: int, start: int): (r: seq<int>)
    ensures |r| == 12
    ensures forall i | 0 <= i < 12 :: r[i] == (start + i * offset) % 12 && 0 <= r[i] < 12
  {
    seq(12, i requires 0 <= i < 12 => (start + i * offset) % 12)
  }

  function StepsOf(notes: seq<Note>): (r: seq<int>)
    ensures |r| == |notes| && forall i | 0 <= i < |notes| :: r[i] == ScaleStep(notes[i])
  {
    seq(|notes|, i requires 0 <= i < |notes| => ScaleStep(notes[i]))
  }

  /**
   * `notes_in_sequence`: walk twelve times by `offset` steps from `start`, keep each step the
   * first time it is reached, and spell it canonically.
   */
  function NotesInSequence(offset: int, start: int): (r: seq<Note>)
    ensures forall i | 0 <= i < |r| :: Some(r[i]) == NoteForStep(ScaleStep(r[i]))
    ensures StepsOf(r) == Dedup(StepWalk(offset, start))
  {
    var steps := Dedup(StepWalk(offset, start));
    assert forall i | 0 <= i < |steps| :: 0 <= steps[i] < 12 by {
      forall i | 0 <= i < |steps| ensures 0 <= steps[i] < 12 {
        assert steps[i] in StepWalk(offset, start);
      }
    }
    var r := seq(|steps|, i requires 0 <= i < |steps| => NoteForStep(steps[i]).value);
    assert StepsOf(r) == steps;
    r
  }

  /**
   * The sequence starts at `start mod 12`, names each step at most once, names exactly the
   * steps the walk reaches, in the order the walk first reaches them.
   */
  lemma NotesInSequenceShape(offset: int, start: int)
    ensures var r := NotesInSequence(offset, start);
      var walk := StepWalk(offset, start);
      && |r| > 0 && ScaleStep(r[0]) == start % 12
      && (forall i, j | 0 <= i < j < |r| :: ScaleStep(r[i]) != ScaleStep(r[j]))
      && (forall x :: x in StepsOf(r) <==> x in walk)
      && (forall i, j | 0 <= i < j < |r| :: FirstIndex(walk, ScaleStep(r[i])) < FirstIndex(walk, ScaleStep(r[j])))
  {
    var walk := StepWalk(offset, start);
    var r := NotesInSequence(offset, start);
    DedupOrder(walk);
    assert walk[0] == start % 12;
    assert StepsOf(r)[0] == start % 12;
    forall i, j | 0 <= i < j < |r| ensures ScaleStep(r[i]) != ScaleStep(r[j]) {
      assert StepsOf(r)[i] != StepsOf(r)[j];
    }
    var d := Dedup(walk);
    forall i, j | 0 <= i < j < |r|
      ensures FirstIndex(walk, ScaleStep(r[i])) < FirstIndex(walk, ScaleStep(r[j]))
    {
      assert StepsOf(r)[i] == ScaleStep(r[i]) && StepsOf(r)[j] == ScaleStep(r[j]);
      assert d[i] == ScaleStep(r[i]) && d[j] == ScaleStep(r[j]);
      assert FirstIndex(walk, Dedup(walk)[i]) < FirstIndex(walk, Dedup(walk)[j]);
    }
  }

  /** Walking by a semitone or by a fifth reaches all twelve steps, from any start. */
  lemma NotesInSequenceCovers(offset: int, start: int)
    requires offset == 1 || offset == 7
    ensures |NotesInSequence(offset, start)| == 12
    ensures forall x | 0 <= x < 12 :: x in StepsOf(NotesInSequence(offset, start))
  {
    var walk := StepWalk(offset, start);
    forall x | 0 <= x < 12 ensures x in walk {
      var i := if offset == 1 then (x - start) % 12 else ((x - start) * 7) % 12;
      WalkHits(offset, start, x, i);
      assert walk[i] == x;
    }
    DedupCoversSteps(walk);
  }

  /** A sequence of steps that reaches every step of the octave keeps all twelve after de-duplication. */
  lemma DedupCoversSteps(walk: seq<int>)
    requires forall i | 0 <= i < |walk| :: 0 <= walk[i] < 12
    requires forall x | 0 <= x < 12 :: x in walk
    ensures |Dedup(walk)| == 12
    ensures forall x | 0 <= x < 12 :: x in Dedup(walk)
  {
    var steps := set x | x in walk;
    forall x ensures x in steps <==> x in StepRange(12) {
      if x in steps {
        var i :| 0 <= i < |walk| && walk[i] == x;
      }
    }
    assert steps == StepRange(12);
    DedupCount(walk);
  }

  /** The steps `0 .. n - 1`. */
  function StepRange(n: nat): (r: set<int>)
    ensures forall x :: x in r <==> 0 <= x < n
    ensures |r| == n
  {
    if n == 0 then {} else StepRange(n - 1) + {n - 1}
  }

  lemma WalkHits(offset: int, start: int, x: int, i: int)
    requires offset == 1 || offset == 7
    requires 0 <= x < 12
    requires i == if offset == 1 then (x - start) % 12 else ((x - start) * 7) % 12
    ensures 0 <= i < 12 && (start + i * offset) % 12 == x
  {
    var d := x - start;
    if offset == 1 {
      var q := d / 12;
      assert i == d - 12 * q;
      ModAddMultiple(x, -q);
      assert start + i * offset == x + 12 * (-q);
    } else {
      var q := (d * 7) / 12;
      assert i == d * 7 - 12 * q;
      assert i * 7 == 49 * d - 84 * q;
      ModAddMultiple(x, 4 * d - 7 * q);
      assert start + i * offset == x + 12 * (4 * d - 7 * q);
    }
  }

  lemma ModAddMultiple(x: int, m: int)
    requires 0 <= x < 12
    ensures (x + 12 * m) % 12 == x
  {
  }
}

=== FILE: music_text.dfy ===
/**
 * The text widgets that show lyrics, chords and keys over time (renderer/obj_music_text.py):
 * each builds a list of timed text states, and `PlayMusicText` turns that list into one timed
 * transition per state, carrying colour and font size forward where a state leaves them unset.
 *
 * Text is LaTeX source kept as a plain string; typesetting and animation are not modelled.
 */
module MusicText {
  import opened Wrappers

  /** A colour name as the widgets pass it around (`"gray"`, `"white"`, ...). */
  type Color = string

  /** One intermediate text: when it appears, what it says, and optional style overrides. */
  datatype TextState = TextState(time: real, text: string, color: Option<Color>, fontSize: Option<real>)

  /** A syllable of a lyric with the time it is sung. */
  datatype Syllable = Syllable(time: real, text: string)

  /** A lyric word: its own time and its syllables in order. */
  datatype Lyric = Lyric(time: real, syllables: seq<Syllable>)

  const SeparatorColor: Color := "gray"
  const DefaultSeparator: string := "-"
  const ActiveColor: Color := "white"
  const InactiveColor: Color := "gray"

  /** LaTeX markup that sets `text` in colour `c`. */
  function Colored(c: Color, text: string): string {
    "{\\color{" + c + "}" + text + "}"
  }

  /** The syllable separator: the given string, or "-" when none is given, set in gray. */
  function Separator(joinStr: Option<string>): (r: string)
    ensures joinStr.Some? ==> r == Colored(SeparatorColor, joinStr.value)
    ensures joinStr.None? ==> r == Colored(SeparatorColor, DefaultSeparator)
  {
    Colored(SeparatorColor, joinStr.GetOr(DefaultSeparator))
  }

  /** `sep.join(parts)`. */
  function Join(sep: string, parts: seq<string>): (r: string)
    decreases |parts|
  {
    if |parts| == 0 then ""
    else if |parts| == 1 then parts[0]
    else Join(sep, parts[..|parts| - 1]) + sep + parts[|parts| - 1]
  }

  /** Joining is associative in its parts: a join of a concatenation splits at the seam. */
  lemma {:induction false} JoinAppend(sep: string, a: seq<string>, b: seq<string>)
    requires |a| > 0 && |b| > 0
    ensures Join(sep, a + b) == Join(sep, a) + sep + Join(sep, b)
    decreases |b|
  {
    if |b| == 1 {
      assert (a + b)[..|a + b| - 1] == a;
    } else {
      var b' := b[..|b| - 1];
      JoinAppend(sep, a, b');
      assert (a + b)[..|a + b| - 1] == a + b';
    }
  }

  /** The joined text consists of the parts and `|parts| - 1` separators. */
  lemma {:induction false} JoinLength(sep: string, parts: seq<string>)
    requires |parts| > 0
    ensures |Join(sep, parts)| == (|parts| - 1) * |sep| + SumLengths(parts)
    decreases |parts|
  {
    if |parts| > 1 {
      JoinLength(sep, parts[..|parts| - 1]);
      SumLengthsSnoc(parts);
    }
  }

  function SumLengths(parts: seq<string>): nat
    decreases |parts|
  {
    if |parts| == 0 then 0 else |parts[0]| + SumLengths(parts[1..])
  }

  lemma {:induction false} SumLengthsSnoc(parts: seq<string>)
    requires |parts| > 0
    ensures SumLengths(parts) == SumLengths(parts[..|parts| - 1]) + |parts[|parts| - 1]|
    decreases |parts|
  {
    if |parts| > 1 {
      SumLengthsSnoc(parts[1..]);
      assert parts[1..][..|parts[1..]| - 1] == parts[..|parts| - 1][1..];
    }
  }

  function SyllableTexts(l: Lyric): (r: seq<string>)
    ensures |r| == |l.syllables| && forall i | 0 <= i < |r| :: r[i] == l.syllables[i].text
  {
    seq(|l.syllables|, i requires 0 <= i < |l.syllables| => l.syllables[i].text)
  }

  /**
   * The lyric with syllable `cur` set in the active colour and every other syllable in the
   * inactive colour. The emphasis is positional; see the README for how this differs.
   */
  function Highlighted(sep: string, l: Lyric, cur: nat): (r: string)
    requires cur < |l.syllables|
  {
    Join(sep, seq(|l.syllables|, j requires 0 <= j < |l.syllables| =>
      Colored(if j == cur then ActiveColor else InactiveColor, l.syllables[j].text)))
  }

  /** The states for one lyric when syllables are highlighted. */
  function HighlightStates(sep: string, l: Lyric, color: Option<Color>, fontSize: Option<real>): (r: seq<TextState>)
    ensures |l.syllables| == 1 ==> r == [TextState(l.time, l.syllables[0].text, color, fontSize)]
    ensures |l.syllables| != 1 ==> |r| == |l.syllables|
    ensures |l.syllables| != 1 ==> forall i | 0 <= i < |r| ::
      && r[i].time == l.syllables[i].time
      && r[i].text == Highlighted(sep, l, i)
    ensures forall i | 0 <= i < |r| :: r[i].color == color && r[i].fontSize == fontSize
  {
    if |l.syllables| == 1 then
      [TextState(l.time, l.syllables[0].text, color, fontSize)]
    else
      seq(|l.syllables|, i requires 0 <= i < |l.syllables| =>
        TextState(l.syllables[i].time, Highlighted(sep, l, i), color, fontSize))
  }

  function Concat(xss: seq<seq<TextState>>): (r: seq<TextState>)
    ensures |r| == TotalLength(xss)
    decreases |xss|
  {
    if |xss| == 0 then [] else xss[0] + Concat(xss[1..])
  }

  function TotalLength(xss: seq<seq<TextState>>): nat
    decreases |xss|
  {
    if |xss| == 0 then 0 else |xss[0]| + TotalLength(xss[1..])
  }

  /** The number of highlighted states a lyric yields. */
  function HighlightCount(l: Lyric): nat {
    if |l.syllables| == 1 then 1 else |l.syllables|
  }

  /** `LyricText.play`: the list of text states for all lyrics. */
  function LyricStates(lyrics: seq<Lyric>, highlight: bool, sep: string, color: Option<Color>, fontSize: Option<real>)
    : (r: seq<TextState>)
    ensures !highlight ==> |r| == |lyrics| && forall i | 0 <= i < |r| ::
      && r[i].time == lyrics[i].time
      && r[i].text == Join(sep, SyllableTexts(lyrics[i]))
      && r[i].color == color && r[i].fontSize == fontSize
  {
    if !highlight then
      seq(|lyrics|, i requires 0 <= i < |lyrics| =>
        TextState(lyrics[i].time, Join(sep, SyllableTexts(lyrics[i])), color, fontSize))
    else
      Concat(seq(|lyrics|, i requires 0 <= i < |lyrics| => HighlightStates(sep, lyrics[i], color, fontSize)))
  }

  function SumCounts(lyrics: seq<Lyric>): nat
    decreases |lyrics|
  {
    if |lyrics| == 0 then 0 else HighlightCount(lyrics[0]) + SumCounts(lyrics[1..])
  }

  /**
   * With highlighting, the states are the lyrics' highlight states one after another: one
   * state for a single-syllable lyric and one per syllable otherwise.
   */
  lemma {:induction false} HighlightedLyricStates(lyrics: seq<Lyric>, sep: string, color: Option<Color>, fontSize: Option<real>)
    ensures |LyricStates(lyrics, true, sep, color, fontSize)| == SumCounts(lyrics)
    ensures |lyrics| > 0 ==>
      LyricStates(lyrics, true, sep, color, fontSize)
        == HighlightStates(sep, lyrics[0], color, fontSize) + LyricStates(lyrics[1..], true, sep, color, fontSize)
    decreases |lyrics|
  {
    var groups := seq(|lyrics|, i requires 0 <= i < |lyrics| => HighlightStates(sep, lyrics[i], color, fontSize));
    if |lyrics| > 0 {
      var rest := seq(|lyrics[1..]|, i requires 0 <= i < |lyrics[1..]| => HighlightStates(sep, lyrics[1..][i], color, fontSize));
      assert groups[1..] == rest;
      HighlightedLyricStates(lyrics[1..], sep, color, fontSize);
    }
  }

  /**
   * When every lyric has exactly one syllable, highlighting makes no difference: both modes
   * give one state per lyric, at the lyric's time, holding its bare syllable.
   */
  lemma {:induction false} SingleSyllableModesAgree(lyrics: seq<Lyric>, sep: string, color: Option<Color>, fontSize: Option<real>)
    requires forall i | 0 <= i < |lyrics| :: |lyrics[i].syllables| == 1
    ensures LyricStates(lyrics, true, sep, color, fontSize) == LyricStates(lyrics, false, sep, color, fontSize)
    decreases |lyrics|
  {
    if |lyrics| > 0 {
      HighlightedLyricStates(lyrics, sep, color, fontSize);
      SingleSyllableModesAgree(lyrics[1..], sep, color, fontSize);
      var plain := LyricStates(lyrics, false, sep, color, fontSize);
      assert plain[1..] == LyricStates(lyrics[1..], false, sep, color, fontSize);
      assert SyllableTexts(lyrics[0]) == [lyrics[0].syllables[0].text];
      assert plain == [plain[0]] + plain[1..];
    }
  }

  /** In the syllable-`cur` state exactly syllable `cur` is active. */
  lemma HighlightMarksCurrent(sep: string, l: Lyric, cur: nat)
    requires cur < |l.syllables|
    ensures var parts := seq(|l.syllables|, j requires 0 <= j < |l.syllables| =>
        Colored(if j == cur then ActiveColor else InactiveColor, l.syllables[j].text));
      && Highlighted(sep, l, cur) == Join(sep, parts)
      && parts[cur] == Colored(ActiveColor, l.syllables[cur].text)
      && forall j | 0 <= j < |parts| && j != cur :: parts[j] == Colored(InactiveColor, l.syllables[j].text)
  {
  }

  /** A played transition: when it fires and the text, colour and font size it shows. */
  datatype Transition = Transition(time: real, text: string, color: Color, fontSize: real)

  /** A font size override takes effect only when present and non-zero (zero is falsy). */
  function EffectiveFontSize(fontSize: Option<real>, previous: real): real {
    if fontSize.Some? && fontSize.value != 0.0 then fontSize.value else previous
  }

  /**
   * `PlayMusicText`: one transition per state, in order; a state without a colour or font size
   * keeps the previous one, seeded from the widget's own.
   */
  function Transitions(states: seq<TextState>, color: Color, fontSize: real): (r: seq<Transition>)
    ensures |r| == |states|
    ensures forall i | 0 <= i < |r| :: r[i].time == states[i].time && r[i].text == states[i].text
    decreases |states|
  {
    if |states| == 0 then []
    else
      var c := states[0].color.GetOr(color);
      var f := EffectiveFontSize(states[0].fontSize, fontSize);
      [Transition(states[0].time, states[0].text, c, f)] + Transitions(states[1..], c, f)
  }

  /** The colour in force after the first `n` states: the last one set, or the widget's. */
  function LastColor(states: seq<TextState>, n: nat, color: Color): Color
    requires n <= |states|
  {
    if n == 0 then color
    else if states[n - 1].color.Some? then states[n - 1].color.value
    else LastColor(states, n - 1, color)
  }

  /** The font size in force after the first `n` states: the last non-zero one set, or the widget's. */
  function LastFontSize(states: seq<TextState>, n: nat, fontSize: real): real
    requires n <= |states|
  {
    if n == 0 then fontSize
    else if states[n - 1].fontSize.Some? && states[n - 1].fontSize.value != 0.0 then states[n - 1].fontSize.value
    else LastFontSize(states, n - 1, fontSize)
  }

  lemma {:induction false} LastColorShift(states: seq<TextState>, n: nat, color: Color)
    requires 0 < n <= |states|
    ensures LastColor(states, n, color) == LastColor(states[1..], n - 1, states[0].color.GetOr(color))
  {
    if n > 1 {
      if states[n - 1].color.None? {
        LastColorShift(states, n - 1, color);
      }
    }
  }

  lemma {:induction false} LastFontSizeShift(states: seq<TextState>, n: nat, fontSize: real)
    requires 0 < n <= |states|
    ensures LastFontSize(states, n, fontSize) == LastFontSize(states[1..], n - 1, EffectiveFontSize(states[0].fontSize, fontSize))
  {
    if n > 1 {
      if !(states[n - 1].fontSize.Some? && states[n - 1].fontSize.value != 0.0) {
        LastFontSizeShift(states, n - 1, fontSize);
      }
    }
  }

  /** Each transition shows the latest colour and font size set at or before its state. */
  lemma {:induction false} TransitionsCarryForward(states: seq<TextState>, color: Color, fontSize: real)
    ensures forall i | 0 <= i < |states| ::
      && Transitions(states, color, fontSize)[i].color == LastColor(states, i + 1, color)
      && Transitions(states, color, fontSize)[i].fontSize == LastFontSize(states, i + 1, fontSize)
    decreases |states|
  {
    if |states| > 0 {
      var c := states[0].color.GetOr(color);
      var f := EffectiveFontSize(states[0].fontSize, fontSize);
      TransitionsCarryForward(states[1..], c, f);
      forall i | 0 <= i < |states|
        ensures Transitions(states, color, fontSize)[i].color == LastColor(states, i + 1, color)
        ensures Transitions(states, color, fontSize)[i].fontSize == LastFontSize(states, i + 1, fontSize)
      {
        LastColorShift(states, i + 1, color);
        LastFontSizeShift(states, i + 1, fontSize);
        if i > 0 {
          assert Transitions(states, color, fontSize)[i] == Transitions(states[1..], c, f)[i - 1];
        }
      }
    }
  }

  /** A chord or key as the music data holds it: its time and its payload. */
  datatype TimedItem<T> = TimedItem(time: real, elem: T)

  /** `ChordText.play` and `KeyText.play`: one state per item, its time copied and its text displayed. */
  function ItemStates<T>(items: seq<TimedItem<T>>, display: T -> string, color: Option<Color>, fontSize: Option<real>)
    : (r: seq<TextState>)
    ensures |r| == |items|
    ensures forall i | 0 <= i < |r| :: r[i].time == items[i].time && r[i].text == display(items[i].elem)
    ensures forall i | 0 <= i < |r| :: r[i].color == color && r[i].fontSize == fontSize
  {
    seq(|items|, i requires 0 <= i < |items| => TextState(items[i].time, display(items[i].elem), color, fontSize))
  }

  /** `KeyText.play` passes no font size, so keys always keep the widget's font size. */
  lemma KeysKeepFontSize<T>(items: seq<TimedItem<T>>, display: T -> string, color: Option<Color>,
                            widgetColor: Color, fontSize: real)
    ensures forall i | 0 <= i < |items| ::
      Transitions(ItemStates(items, display, color, None), widgetColor, fontSize)[i].fontSize == fontSize
  {
    var states := ItemStates(items, display, color, None);
    TransitionsCarryForward(states, widgetColor, fontSize);
    forall n: nat | n <= |states| ensures LastFontSize(states, n, fontSize) == fontSize {
      NoFontSizeKeeps(states, n, fontSize);
    }
  }

  lemma {:induction false} NoFontSizeKeeps(states: seq<TextState>, n: nat, fontSize: real)
    requires n <= |states|
    requires forall i | 0 <= i < |states| :: states[i].fontSize.None?
    ensures LastFontSize(states, n, fontSize) == fontSize
  {
    if n > 0 {
      NoFontSizeKeeps(states, n - 1, fontSize);
    }
  }
}

=== FILE: offsets.dfy ===
/**
 * Ordered collections of beat offsets: the "sort, then group equal offsets" step the
 * span builder performs, and the sorted distinct measure starts the resolver walks.
 */
module Offsets {

  /** A beat offset: a non-negative position in quarter-note beats from the start of the piece. */
  type Offset = r: real | 0.0 <= r

  ghost predicate StrictlyIncreasing(s: seq<real>) {
    forall i, j | 0 <= i < j < |s| :: s[i] < s[j]
  }

  /** Inserts `x` into a strictly increasing sequence, keeping it strictly increasing and duplicate-free. */
  function InsertSorted(x: Offset, s: seq<Offset>): (r: seq<Offset>)
    requires StrictlyIncreasing(s)
    ensures StrictlyIncreasing(r)
    ensures forall y :: y in r <==> y == x || y in s
    ensures |r| <= |s| + 1
  {
    if |s| == 0 then [x]
    else if x < s[0] then [x] + s
    else if x == s[0] then s
    else
      var rest := InsertSorted(x, s[1..]);
      assert forall k | 0 <= k < |rest| :: s[0] < rest[k] by {
        forall k | 0 <= k < |rest| ensures s[0] < rest[k] {
          assert rest[k] in rest;
        }
      }
      [s[0]] + rest
  }

  /** The distinct values of `xs`, in ascending order. */
  function SortedUnique(xs: seq<Offset>): (r: seq<Offset>)
    ensures StrictlyIncreasing(r)
    ensures forall y :: y in r <==> y in xs
    ensures |r| <= |xs|
  {
    if |xs| == 0 then []
    else InsertSorted(xs[|xs| - 1], SortedUnique(xs[..|xs| - 1]))
  }

  /** An element above everything already present goes at the end. */
  lemma {:induction false} InsertSortedAtEnd(x: Offset, s: seq<Offset>)
    requires StrictlyIncreasing(s)
    requires forall i | 0 <= i < |s| :: s[i] < x
    ensures InsertSorted(x, s) == s + [x]
  {
    if |s| > 0 {
      InsertSortedAtEnd(x, s[1..]);
      assert [s[0]] + (s[1..] + [x]) == s + [x];
    }
  }

  /** Sorting and de-duplicating a sequence that is already strictly increasing changes nothing. */
  lemma {:induction false} SortedUniqueOfSorted(xs: seq<Offset>)
    requires StrictlyIncreasing(xs)
    ensures SortedUnique(xs) == xs
  {
    if |xs| > 0 {
      var prefix := xs[..|xs| - 1];
      SortedUniqueOfSorted(prefix);
      InsertSortedAtEnd(xs[|xs| - 1], prefix);
      assert prefix + [xs[|xs| - 1]] == xs;
    }
  }

  /** The head of a strictly increasing sequence is its least element. */
  lemma HeadIsLeast(s: seq<real>)
    requires StrictlyIncreasing(s)
    ensures forall i | 0 <= i < |s| :: s[0] <= s[i]
  {
  }
}

=== FILE: score_data.dfy ===
/**
 * The score as plain data: what the harmonic engine reads from a parsed MusicXML score.
 * Offsets are already flattened to the score's global frame; pitches are opaque.
 */
module ScoreData {
  import opened Offsets

  /** A pitch (letter, accidental, octave); the engine only compares pitches for equality. */
  type Pitch(==)

  /** A part is identified by its position in the score's part list. */
  type PartId = nat

  /**
   * A chord annotation as text attached to a part: a `ChordSymbol` names a chord
   * explicitly, a `NoChord` carries a directive (or the exclusion marker `x`).
   * `kind` is the annotation's `chordKindStr`.
   */
  datatype Annotation = ChordSymbol(kind: string) | NoChord(kind: string)

  datatype AnnotationEvent = AnnotationEvent(offset: Offset, annotation: Annotation)

  /** A pitched event (a note, or one pitch of a chord) beginning at `offset`. */
  datatype NoteEvent = NoteEvent(pitch: Pitch, offset: Offset)

  /** One part: its annotations and its pitched events, each in the part's own order. */
  datatype Part = Part(annotations: seq<AnnotationEvent>, notes: seq<NoteEvent>)

  /** The score: its parts, the global offsets of its measures, and its total length in beats. */
  datatype Score = Score(parts: seq<Part>, measureStarts: seq<Offset>, highestTime: Offset)
}

=== FILE: selection_history.dfy ===
/**
 * The bounded selection history behind the twelve-note circle widget: `select_step` in
 * renderer/music_circles.py and its variant in renderer/obj_music_circles.py.
 *
 * Only the list of selected steps (newest first) and the number of connector lines between
 * consecutive selections are modelled; circles, lines and opacities are drawing state. The
 * two variants differ only in when a selection is ignored, which is the `Policy` parameter.
 */
module SelectionHistory {
  import opened Wrappers

  /** When `select_step` ignores a request. */
  datatype Policy =
    | IgnoreAnySelected   // renderer/music_circles.py: the step is anywhere in the history
    | IgnoreHead          // renderer/obj_music_circles.py: the step is the newest selection

  /** Selected steps, newest first, and the number of connector lines drawn between them. */
  datatype History = History(steps: seq<int>, connectors: nat)

  /**
   * Why a selection fails: a step with no selection circle (the widget's circle lookup raises
   * `KeyError`), or a connector list with fewer lines than the code pops or indexes
   * (`IndexError`).
   */
  datatype SelectError = UnknownStep(step: int) | MissingConnector

  /** A freshly built widget has selected nothing. */
  const Empty: History := History([], 0)

  predicate Ignores(policy: Policy, h: History, step: int) {
    match policy
    case IgnoreAnySelected => step in h.steps
    case IgnoreHead => |h.steps| > 0 && h.steps[0] == step
  }

  /**
   * The refresh loop that re-styles every selected circle and every connector but the last
   * one: it looks up the circle of each step in order and the connector at each index before
   * the last.
   */
  function Refresh(keys: set<int>, h: History, i: nat): (r: Result<History, SelectError>)
    requires i <= |h.steps|
    decreases |h.steps| - i
    ensures r.Ok? <==>
      && (forall j | i <= j < |h.steps| :: h.steps[j] in keys)
      && (|h.steps| <= i + 1 || |h.steps| - 1 <= h.connectors)
    ensures r.Ok? ==> r.value == h
    ensures r.Err? && (forall j | i <= j < |h.steps| :: h.steps[j] in keys) ==> r.error == MissingConnector
  {
    if i == |h.steps| then Ok(h)
    else if h.steps[i] !in keys then Err(UnknownStep(h.steps[i]))
    else if i != |h.steps| - 1 && i >= h.connectors then Err(MissingConnector)
    else Refresh(keys, h, i + 1)
  }

  /**
   * `select_step`: unless the request is ignored, put `step` at the head of the history, add
   * a connector when there was a previous selection, and when the history is over
   * `maxSelected` drop its oldest step together with one connector.
   */
  function SelectStep(policy: Policy, keys: set<int>, maxSelected: int, h: History, step: int)
    : (r: Result<History, SelectError>)
    ensures Ignores(policy, h, step) ==> r == Ok(h)
    ensures !Ignores(policy, h, step) && step !in keys ==> r.Err?
    ensures r.Ok? && !Ignores(policy, h, step) ==>
      if |h.steps| + 1 > maxSelected
      then r.value.steps == ([step] + h.steps)[..|h.steps|]
      else r.value.steps == [step] + h.steps
  {
    if Ignores(policy, h, step) then Ok(h)
    else
      var grown := [step] + h.steps;
      if |grown| >= 2 && grown[0] !in keys then Err(UnknownStep(grown[0]))
      else if |grown| >= 2 && grown[1] !in keys then Err(UnknownStep(grown[1]))
      else
        var connectors := if |grown| >= 2 then h.connectors + 1 else h.connectors;
        if |grown| > maxSelected then
          var oldest := grown[|grown| - 1];
          if oldest !in keys then Err(UnknownStep(oldest))
          else if connectors == 0 then Err(MissingConnector)
          else Refresh(keys, History(grown[..|grown| - 1], connectors - 1), 0)
        else Refresh(keys, History(grown, connectors), 0)
  }

  predicate NoDuplicates(s: seq<int>) {
    forall i, j | 0 <= i < j < |s| :: s[i] != s[j]
  }

  predicate NoAdjacentRepeats(s: seq<int>) {
    forall i | 0 <= i < |s| - 1 :: s[i] != s[i + 1]
  }

  /**
   * The invariant of a history: every step has a circle, the length is within the bound,
   * there is one connector between each two consecutive selections, and the history holds no
   * repeats of the kind its policy ignores.
   */
  predicate Valid(policy: Policy, keys: set<int>, maxSelected: int, h: History) {
    && (forall i | 0 <= i < |h.steps| :: h.steps[i] in keys)
    && |h.steps| <= maxSelected
    && h.connectors == (if |h.steps| == 0 then 0 else |h.steps| - 1)
    && match policy
       case IgnoreAnySelected => NoDuplicates(h.steps)
       case IgnoreHead => NoAdjacentRepeats(h.steps)
  }

  lemma EmptyIsValid(policy: Policy, keys: set<int>, maxSelected: int)
    requires maxSelected >= 0
    ensures Valid(policy, keys, maxSelected, Empty)
  {
  }

  /**
   * With a bound of at least one, selecting a step that has a circle always succeeds on a
   * valid history, keeps it valid, and leaves the step at the head.
   */
  lemma {:induction false} SelectPreservesValid(policy: Policy, keys: set<int>, maxSelected: int, h: History, step: int)
    requires maxSelected >= 1
    requires Valid(policy, keys, maxSelected, h)
    requires step in keys
    ensures SelectStep(policy, keys, maxSelected, h, step).Ok?
    ensures Valid(policy, keys, maxSelected, SelectStep(policy, keys, maxSelected, h, step).value)
    ensures step in SelectStep(policy, keys, maxSelected, h, step).value.steps
    ensures !Ignores(policy, h, step) ==> SelectStep(policy, keys, maxSelected, h, step).value.steps[0] == step
  {
    var r := SelectStep(policy, keys, maxSelected, h, step);
    if Ignores(policy, h, step) {
      match policy
      case IgnoreAnySelected =>
      case IgnoreHead => assert h.steps[0] in h.steps;
    } else {
      var grown := [step] + h.steps;
      assert forall i | 0 <= i < |grown| :: grown[i] in keys by {
        forall i | 0 <= i < |grown| ensures grown[i] in keys {
          if i > 0 { assert grown[i] == h.steps[i - 1]; }
        }
      }
      var kept := if |grown| > maxSelected then grown[..|grown| - 1] else grown;
      assert r.value.steps == kept;
      match policy
      case IgnoreAnySelected =>
        assert NoDuplicates(grown) by {
          forall i, j | 0 <= i < j < |grown| ensures grown[i] != grown[j] {
            if i == 0 { assert grown[j] == h.steps[j - 1]; }
            else { assert grown[i] == h.steps[i - 1] && grown[j] == h.steps[j - 1]; }
          }
        }
      case IgnoreHead =>
        assert NoAdjacentRepeats(grown) by {
          forall i | 0 <= i < |grown| - 1 ensures grown[i] != grown[i + 1] {
            if i > 0 { assert grown[i] == h.steps[i - 1] && grown[i + 1] == h.steps[i]; }
          }
        }
    }
  }

  /** The histories produced by a run of selections from the empty widget. */
  function Run(policy: Policy, keys: set<int>, maxSelected: int, steps: seq<int>): (r: Result<History, SelectError>)
    decreases |steps|
  {
    if |steps| == 0 then Ok(Empty)
    else
      var h :- Run(policy, keys, maxSelected, steps[..|steps| - 1]);
      SelectStep(policy, keys, maxSelected, h, steps[|steps| - 1])
  }

  /**
   * Any run of selections of steps that have circles, with a bound of at least one, succeeds
   * and ends in a valid history: bounded, connector count one less than the length, and no
   * repeats of the kind the policy ignores.
   */
  lemma {:induction false} RunIsValid(policy: Policy, keys: set<int>, maxSelected: int, steps: seq<int>)
    requires maxSelected >= 1
    requires forall i | 0 <= i < |steps| :: steps[i] in keys
    ensures Run(policy, keys, maxSelected, steps).Ok?
    ensures Valid(policy, keys, maxSelected, Run(policy, keys, maxSelected, steps).value)
  {
    if |steps| > 0 {
      var init := steps[..|steps| - 1];
      RunIsValid(policy, keys, maxSelected, init);
      var h := Run(policy, keys, maxSelected, init).value;
      SelectPreservesValid(policy, keys, maxSelected, h, steps[|steps| - 1]);
    }
  }

  /** Selections of `steps`, oldest first, starting from the history `h`; the first failure aborts. */
  function SelectAll(policy: Policy, keys: set<int>, maxSelected: int, h: History, steps: seq<int>)
    : (r: Result<History, SelectError>)
    ensures |steps| == 0 ==> r == Ok(h)
    ensures |steps| > 0 && SelectStep(policy, keys, maxSelected, h, steps[0]).Err? ==>
      r == Err(SelectStep(policy, keys, maxSelected, h, steps[0]).error)
    decreases |steps|
  {
    if |steps| == 0 then Ok(h)
    else
      var next :- SelectStep(policy, keys, maxSelected, h, steps[0]);
      SelectAll(policy, keys, maxSelected, next, steps[1..])
  }

  /** Selecting `a` and then `b` is selecting `a + b`, and a failure in `a` skips `b`. */
  lemma {:induction false} SelectAllAppend(policy: Policy, keys: set<int>, maxSelected: int, h: History,
                                           a: seq<int>, b: seq<int>)
    ensures SelectAll(policy, keys, maxSelected, h, a + b) ==
      match SelectAll(policy, keys, maxSelected, h, a)
      case Ok(mid) => SelectAll(policy, keys, maxSelected, mid, b)
      case Err(e) => Err(e)
    decreases |a|
  {
    if |a| == 0 {
      assert a + b == b;
    } else {
      assert (a + b)[0] == a[0] && (a + b)[1..] == a[1..] + b;
      var first := SelectStep(policy, keys, maxSelected, h, a[0]);
      if first.Ok? {
        SelectAllAppend(policy, keys, maxSelected, first.value, a[1..], b);
      }
    }
  }

  /** A run from the empty widget is the same selections folded from `Empty`. */
  lemma {:induction false} RunIsSelectAll(policy: Policy, keys: set<int>, maxSelected: int, steps: seq<int>)
    ensures Run(policy, keys, maxSelected, steps) == SelectAll(policy, keys, maxSelected, Empty, steps)
    decreases |steps|
  {
    if |steps| > 0 {
      var init := steps[..|steps| - 1];
      var last := steps[|steps| - 1];
      RunIsSelectAll(policy, keys, maxSelected, init);
      assert init + [last] == steps;
      SelectAllAppend(policy, keys, maxSelected, Empty, init, [last]);
      var mid := SelectAll(policy, keys, maxSelected, Empty, init);
      if mid.Ok? {
        var one := SelectStep(policy, keys, maxSelected, mid.value, last);
        if one.Ok? {
          assert [last][1..] == [];
          assert SelectAll(policy, keys, maxSelected, mid.value, [last]) == one;
        }
      }
    }
  }

  /**
   * With a bound below one the very first selection fails: the step is pushed and popped
   * again, and popping the oldest connector finds none.
   */
  lemma FirstSelectWithoutRoom(policy: Policy, keys: set<int>, maxSelected: int, step: int)
    requires maxSelected < 1
    requires step in keys
    ensures SelectStep(policy, keys, maxSelected, Empty, step) == Err(MissingConnector)
  {
  }

  /** The two policies differ: re-selecting an older, non-head step is ignored by one only. */
  lemma PoliciesDiffer(keys: set<int>)
    requires 1 in keys && 2 in keys
    ensures SelectStep(IgnoreAnySelected, keys, 3, History([2, 1], 1), 1) == Ok(History([2, 1], 1))
    ensures SelectStep(IgnoreHead, keys, 3, History([2, 1], 1), 1) == Ok(History([1, 2, 1], 2))
  {
    assert [1] + [2, 1] == [1, 2, 1];
  }
}

=== FILE: span_builder.dfy ===
/**
 * `extract_chord_symbols` (renderer/musicxml.py): turns the annotations of all parts into an
 * increasing list of spans `(offset, {part -> annotation})`, and gathers, per part, the
 * offsets marked `x` whose notes are left out of the analysis.
 */
module SpanBuilder {
  import opened Wrappers
  import opened Offsets
  import opened ScoreData
  import AnnotationGrammar

  /** An `x` annotation (compared case-insensitively) excludes notes instead of opening a span. */
  predicate IsExclusion(a: Annotation) {
    AnnotationGrammar.Lower(a.kind) == "x"
  }

  /** One `part -> annotation` pair of a span; a span's entries are in part order. */
  datatype Entry = Entry(part: PartId, annotation: Annotation)

  datatype Span = Span(start: Offset, entries: seq<Entry>)

  /**
   * Which annotation fills the default span. The source builds `ChordSymbol(kindStr="ma")`
   * (an explicit chord), while its documentation says the default behaves like the
   * directive `ma`.
   */
  datatype DefaultReading = AsWritten | AsDocumented

  function DefaultAnnotation(reading: DefaultReading): Annotation {
    match reading
    case AsWritten => ChordSymbol("ma")
    case AsDocumented => NoChord("ma")
  }

  /** The part has a non-`x` annotation at offset `o`. */
  ghost predicate OpensSpanAt(part: Part, o: Offset) {
    exists k | 0 <= k < |part.annotations| ::
      part.annotations[k].offset == o && !IsExclusion(part.annotations[k].annotation)
  }

  /**
   * The annotation a part contributes to the span at `o`: of its non-`x` annotations at
   * `o`, the last one (later entries overwrite earlier ones in the dictionary).
   */
  function LastSpanAnnotationAt(anns: seq<AnnotationEvent>, o: Offset): (r: Option<Annotation>)
    ensures r.None? <==> !OpensSpanAt(Part(anns, []), o)
    ensures r.Some? ==> exists k | 0 <= k < |anns| ::
      && anns[k].offset == o && anns[k].annotation == r.value && !IsExclusion(r.value)
      && forall k' | k < k' < |anns| :: !(anns[k'].offset == o && !IsExclusion(anns[k'].annotation))
  {
    if |anns| == 0 then None
    else
      var last := anns[|anns| - 1];
      if last.offset == o && !IsExclusion(last.annotation) then Some(last.annotation)
      else
        var r := LastSpanAnnotationAt(anns[..|anns| - 1], o);
        assert forall k | 0 <= k < |anns| - 1 :: anns[..|anns| - 1][k] == anns[k];
        r
  }

  /** The offsets of the non-`x` annotations of parts `p..`, in part order. */
  function SpanAnnotationOffsets(parts: seq<Part>): (r: seq<Offset>)
    ensures forall o :: o in r <==> exists p | 0 <= p < |parts| :: OpensSpanAt(parts[p], o)
  {
    if |parts| == 0 then []
    else
      var anns := parts[0].annotations;
      var mine := FilterOffsets(anns);
      var rest := SpanAnnotationOffsets(parts[1..]);
      assert forall p | 1 <= p < |parts| :: parts[1..][p - 1] == parts[p];
      mine + rest
  }

  function FilterOffsets(anns: seq<AnnotationEvent>): (r: seq<Offset>)
    ensures forall o :: o in r <==> OpensSpanAt(Part(anns, []), o)
  {
    if |anns| == 0 then []
    else
      var rest := FilterOffsets(anns[1..]);
      assert forall k | 1 <= k < |anns| :: anns[1..][k - 1] == anns[k];
      (if IsExclusion(anns[0].annotation) then [] else [anns[0].offset]) + rest
  }

  /**
   * `r` lists, in increasing part order, exactly the parts from `p` on that annotate `o`,
   * each with the annotation it contributes.
   */
  ghost predicate EntriesFrom(parts: seq<Part>, o: Offset, p: nat, r: seq<Entry>) {
    && (forall i | 0 <= i < |r| :: p <= r[i].part < |parts|)
    && (forall i, j | 0 <= i < j < |r| :: r[i].part < r[j].part)
    && (forall i | 0 <= i < |r| :: LastSpanAnnotationAt(parts[r[i].part].annotations, o) == Some(r[i].annotation))
    && (forall q | p <= q < |parts| && OpensSpanAt(parts[q], o) :: exists i | 0 <= i < |r| :: r[i].part == q)
  }

  /** The entries of the span at `o` for parts `p..`: one per part that annotates `o`. */
  function EntriesAt(parts: seq<Part>, o: Offset, p: nat): (r: seq<Entry>)
    requires p <= |parts|
    ensures EntriesFrom(parts, o, p, r)
    decreases |parts| - p
  {
    if p == |parts| then []
    else
      var rest := EntriesAt(parts, o, p + 1);
      match LastSpanAnnotationAt(parts[p].annotations, o)
      case Some(a) =>
        EntriesCons(parts, o, p, a, rest);
        [Entry(p, a)] + rest
      case None =>
        EntriesSkip(parts, o, p, rest);
        rest
  }

  lemma EntriesCons(parts: seq<Part>, o: Offset, p: nat, a: Annotation, rest: seq<Entry>)
    requires p < |parts|
    requires LastSpanAnnotationAt(parts[p].annotations, o) == Some(a)
    requires EntriesFrom(parts, o, p + 1, rest)
    ensures EntriesFrom(parts, o, p, [Entry(p, a)] + rest)
  {
    var r := [Entry(p, a)] + rest;
    ConsOrdered(p, a, rest, |parts|);
    forall i | 0 <= i < |r|
      ensures LastSpanAnnotationAt(parts[r[i].part].annotations, o) == Some(r[i].annotation)
    {
      if i > 0 { assert r[i] == rest[i - 1]; }
    }
    forall q | p <= q < |parts| && OpensSpanAt(parts[q], o)
      ensures exists i | 0 <= i < |r| :: r[i].part == q
    {
      if q == p {
        assert r[0].part == q;
      } else {
        var i :| 0 <= i < |rest| && rest[i].part == q;
        assert r[i + 1].part == q;
      }
    }
  }

  /** Putting part `p` in front of entries for parts above `p` keeps them in increasing part order. */
  lemma ConsOrdered(p: nat, a: Annotation, rest: seq<Entry>, count: nat)
    requires p < count
    requires forall i | 0 <= i < |rest| :: p + 1 <= rest[i].part < count
    requires forall i, j | 0 <= i < j < |rest| :: rest[i].part < rest[j].part
    ensures forall i | 0 <= i < |[Entry(p, a)] + rest| :: p <= ([Entry(p, a)] + rest)[i].part < count
    ensures forall i, j | 0 <= i < j < |[Entry(p, a)] + rest| ::
      ([Entry(p, a)] + rest)[i].part < ([Entry(p, a)] + rest)[j].part
  {
    var r := [Entry(p, a)] + rest;
    forall i | 0 < i < |r| ensures r[i] == rest[i - 1] { }
  }

  lemma EntriesSkip(parts: seq<Part>, o: Offset, p: nat, rest: seq<Entry>)
    requires p < |parts|
    requires LastSpanAnnotationAt(parts[p].annotations, o).None?
    requires EntriesFrom(parts, o, p + 1, rest)
    ensures EntriesFrom(parts, o, p, rest)
  {
    OpensSpanWitness(parts[p], o);
  }

  lemma OpensSpanWitness(part: Part, o: Offset)
    ensures OpensSpanAt(part, o) <==> OpensSpanAt(Part(part.annotations, []), o)
  {
  }

  /** `groupby` over the offset-sorted non-`x` annotations: one span per distinct offset. */
  function GroupedSpans(score: Score): (r: seq<Span>)
    ensures StrictlyIncreasing(Starts(r))
    ensures forall o :: o in Starts(r) <==> exists p | 0 <= p < |score.parts| :: OpensSpanAt(score.parts[p], o)
    ensures forall i | 0 <= i < |r| :: EntriesFrom(score.parts, r[i].start, 0, r[i].entries)
  {
    var offsets := SortedUnique(SpanAnnotationOffsets(score.parts));
    var r := seq(|offsets|, i requires 0 <= i < |offsets| => Span(offsets[i], EntriesAt(score.parts, offsets[i], 0)));
    assert Starts(r) == offsets;
    r
  }

  function Starts(spans: seq<Span>): (r: seq<Offset>)
    ensures |r| == |spans|
    ensures forall i | 0 <= i < |spans| :: r[i] == spans[i].start
  {
    seq(|spans|, i requires 0 <= i < |spans| => spans[i].start)
  }

  /**
   * `extract_chord_symbols`, span half: the grouped spans, with a default span at offset 0
   * bound to the first part when there is no span or the first one starts later.
   */
  function BuildSpans(score: Score, reading: DefaultReading): (r: seq<Span>)
    requires |score.parts| > 0
    ensures |r| > 0 && r[0].start == 0.0
    ensures StrictlyIncreasing(Starts(r))
  {
    var grouped := GroupedSpans(score);
    if |grouped| == 0 || grouped[0].start > 0.0 then
      var r := [Span(0.0, [Entry(0, DefaultAnnotation(reading))])] + grouped;
      PrependKeepsIncreasing(r[0], grouped);
      r
    else grouped
  }

  /** A span that starts before the first of an increasing list can go in front of it. */
  lemma PrependKeepsIncreasing(s: Span, spans: seq<Span>)
    requires StrictlyIncreasing(Starts(spans))
    requires |spans| == 0 || s.start < spans[0].start
    ensures StrictlyIncreasing(Starts([s] + spans))
  {
    var r := [s] + spans;
    forall i, j | 0 <= i < j < |r| ensures r[i].start < r[j].start {
      assert r[j] == spans[j - 1];
      if i > 0 {
        assert r[i] == spans[i - 1];
        assert Starts(spans)[i - 1] < Starts(spans)[j - 1];
      } else if j > 1 {
        assert Starts(spans)[0] < Starts(spans)[j - 1];
      }
    }
  }

  /**
   * The default span appears exactly when no part has a non-`x` annotation at offset 0;
   * every other span is the group of annotations at its offset.
   */
  lemma BuildSpansDefault(score: Score, reading: DefaultReading)
    requires |score.parts| > 0
    ensures (exists p | 0 <= p < |score.parts| :: OpensSpanAt(score.parts[p], 0.0)) ==>
      BuildSpans(score, reading) == GroupedSpans(score)
    ensures !(exists p | 0 <= p < |score.parts| :: OpensSpanAt(score.parts[p], 0.0)) ==>
      BuildSpans(score, reading) == [Span(0.0, [Entry(0, DefaultAnnotation(reading))])] + GroupedSpans(score)
  {
    var grouped := GroupedSpans(score);
    DefaultNeeded(grouped);
  }

  /** An increasing list of non-negative starts lacks a span at 0 exactly when it is empty or starts later. */
  lemma DefaultNeeded(spans: seq<Span>)
    requires StrictlyIncreasing(Starts(spans))
    ensures (|spans| == 0 || spans[0].start > 0.0) <==> 0.0 !in Starts(spans)
  {
    if 0.0 in Starts(spans) {
      HeadIsLeast(Starts(spans));
    }
  }

  /** Each span holds exactly the parts annotating its offset; an `x` never opens a span. */
  lemma BuildSpansContents(score: Score, reading: DefaultReading, i: nat)
    requires |score.parts| > 0
    requires i < |BuildSpans(score, reading)|
    ensures var s := BuildSpans(score, reading)[i];
      || (i == 0 && s == Span(0.0, [Entry(0, DefaultAnnotation(reading))])
          && !exists p | 0 <= p < |score.parts| :: OpensSpanAt(score.parts[p], 0.0))
      || (&& (exists p | 0 <= p < |score.parts| :: OpensSpanAt(score.parts[p], s.start))
          && EntriesFrom(score.parts, s.start, 0, s.entries))
  {
    BuildSpansDefault(score, reading);
    var grouped := GroupedSpans(score);
    var spans := BuildSpans(score, reading);
    if exists p | 0 <= p < |score.parts| :: OpensSpanAt(score.parts[p], 0.0) {
      GroupedSpanContents(score, i);
    } else if i > 0 {
      assert spans[i] == grouped[i - 1];
      GroupedSpanContents(score, i - 1);
    }
  }

  /** A grouped span starts where some part annotates and holds that offset's entries. */
  lemma GroupedSpanContents(score: Score, i: nat)
    requires i < |GroupedSpans(score)|
    ensures var s := GroupedSpans(score)[i];
      && (exists p | 0 <= p < |score.parts| :: OpensSpanAt(score.parts[p], s.start))
      && EntriesFrom(score.parts, s.start, 0, s.entries)
  {
    var grouped := GroupedSpans(score);
    assert grouped[i].start == Starts(grouped)[i];
    assert grouped[i].start in Starts(grouped);
  }

  // ---------------------------------------------------------------- exclusions

  /**
   * Keys of the exclusion map. The intended map is keyed by part; the map the source
   * actually builds is keyed by annotation objects (see `ExclusionsAsWritten`).
   */
  datatype ExclusionKey = PartKey(part: PartId) | SymbolKey(part: PartId, index: nat)

  type Exclusions = map<ExclusionKey, seq<Offset>>

  /** The offsets of a part's `x` annotations, in the part's order. */
  function XOffsets(anns: seq<AnnotationEvent>): (r: seq<Offset>)
    ensures forall o :: o in r <==> exists k | 0 <= k < |anns| :: anns[k].offset == o && IsExclusion(anns[k].annotation)
  {
    if |anns| == 0 then []
    else
      var rest := XOffsets(anns[1..]);
      assert forall k | 1 <= k < |anns| :: anns[1..][k - 1] == anns[k];
      (if IsExclusion(anns[0].annotation) then [anns[0].offset] else []) + rest
  }

  /** The intended exclusion map: for each part with an `x` annotation, the offsets it marks. */
  function ExclusionsByPart(score: Score): Exclusions {
    map p | 0 <= p < |score.parts| && |XOffsets(score.parts[p].annotations)| > 0
      :: PartKey(p) := XOffsets(score.parts[p].annotations)
  }

  /**
   * The map the source builds: the loop unpacks `(offset, symbol, part)` tuples as
   * `(_, part, chord_symbol)`, so every annotation (not only `x`) becomes a key, mapped to
   * the offset of its part within the score, which is 0.
   */
  function ExclusionsAsWritten(score: Score): Exclusions {
    map p, k | 0 <= p < |score.parts| && 0 <= k < |score.parts[p].annotations| :: SymbolKey(p, k) := [0.0]
  }

  /** The per-part filter: a note of part `p` at offset `o` is dropped when `o` is listed for `p`. */
  predicate Blocked(exclusions: Exclusions, p: PartId, o: Offset) {
    PartKey(p) in exclusions && o in exclusions[PartKey(p)]
  }

  /** The intended map blocks exactly the offsets a part marks with `x`. */
  lemma ExclusionsByPartBlocks(score: Score, p: PartId, o: Offset)
    ensures Blocked(ExclusionsByPart(score), p, o) <==>
      p < |score.parts| && exists k | 0 <= k < |score.parts[p].annotations| ::
        score.parts[p].annotations[k].offset == o && IsExclusion(score.parts[p].annotations[k].annotation)
  {
    if p < |score.parts| && exists k | 0 <= k < |score.parts[p].annotations| ::
        score.parts[p].annotations[k].offset == o && IsExclusion(score.parts[p].annotations[k].annotation) {
      assert o in XOffsets(score.parts[p].annotations);
    }
  }

  /** The map as written never blocks anything: no key is a part. */
  lemma ExclusionsAsWrittenNeverBlock(score: Score, p: PartId, o: Offset)
    ensures !Blocked(ExclusionsAsWritten(score), p, o)
  {
  }
}

=== FILE: timing.dfy ===
/**
 * Beat-to-seconds conversion and the timing pass that stamps a wall-clock time on every
 * timed item of the extracted music data (renderer/timing.py).
 *
 * Offsets and times are exact reals; the source's floating-point rounding is not modelled.
 */
module Timing {
  import opened Wrappers
  import opened Offsets
  import opened ScoreData

  /** Fixed tempo: the conversion assumes 180 beats per minute throughout. */
  const BeatsPerMinute: real := 180.0

  /** Lead-in before the first beat, in seconds. */
  const ExtraStartSeconds: real := 2.0

  function BeatsPerSecond(): (r: real)
    ensures r == 3.0
  {
    BeatsPerMinute / 60.0
  }

  /** `_beat_to_sec`: the wall-clock second at which a beat offset sounds. */
  function BeatToSec(beat: Offset): (r: real)
    ensures (r - ExtraStartSeconds) * BeatsPerSecond() == beat
    ensures r >= ExtraStartSeconds
  {
    beat / BeatsPerSecond() + ExtraStartSeconds
  }

  /** The inverse conversion: the beat that sounds at a given second after the lead-in. */
  function SecToBeat(sec: real): (r: Offset)
    requires sec >= ExtraStartSeconds
    ensures BeatToSec(r) == sec
  {
    (sec - ExtraStartSeconds) * BeatsPerSecond()
  }

  lemma BeatToSecRoundTrip(beat: Offset)
    ensures SecToBeat(BeatToSec(beat)) == beat
  {
  }

  /** The first beat sounds exactly after the lead-in. */
  lemma BeatToSecAtZero()
    ensures BeatToSec(0.0) == ExtraStartSeconds
  {
  }

  /** Later beats sound strictly later, and the conversion is injective. */
  lemma BeatToSecMonotone(a: Offset, b: Offset)
    ensures a < b <==> BeatToSec(a) < BeatToSec(b)
    ensures a == b <==> BeatToSec(a) == BeatToSec(b)
  {
  }

  /**
   * A timed item of the music data: its beat offset, its wall-clock time once resolved, and a
   * payload the timing pass never reads.
   */
  datatype Timed = Timed(offset: Offset, time: Option<real>, payload: Payload)

  /** Opaque item contents (a note, a chord, a key, a syllable text, ...). */
  type Payload(==)

  /** A lyric group carries its own timing and a timed entry per syllable. */
  datatype Lyric = Lyric(timing: Timed, syllables: seq<Timed>)

  /** The timed collections of the music data the pass visits. */
  datatype MusicTimings = MusicTimings(
    allNotes: seq<Timed>,
    notesByPart: map<PartId, seq<Timed>>,
    chords: seq<Timed>,
    lyrics: seq<Lyric>,
    keys: seq<Timed>,
    chordRoots: seq<Timed>)

  /** `_set_timing_sec`: writes the time derived from the offset and nothing else. */
  function SetTiming(t: Timed): (r: Timed)
    ensures r.offset == t.offset && r.payload == t.payload
    ensures r.time.Some? && r.time.value >= ExtraStartSeconds && SecToBeat(r.time.value) == t.offset
  {
    BeatToSecRoundTrip(t.offset);
    t.(time := Some(BeatToSec(t.offset)))
  }

  /** An item whose time agrees with its offset. */
  predicate IsTimed(t: Timed) {
    t.time == Some(BeatToSec(t.offset))
  }

  predicate AllTimed(ts: seq<Timed>) {
    forall i | 0 <= i < |ts| :: IsTimed(ts[i])
  }

  /** Two item lists that differ at most in their times. */
  predicate SameItems(a: seq<Timed>, b: seq<Timed>) {
    |a| == |b| && forall i | 0 <= i < |a| :: a[i].offset == b[i].offset && a[i].payload == b[i].payload
  }

  function SetAll(ts: seq<Timed>): (r: seq<Timed>)
    ensures SameItems(ts, r) && AllTimed(r)
  {
    seq(|ts|, i requires 0 <= i < |ts| => SetTiming(ts[i]))
  }

  function SetLyric(l: Lyric): (r: Lyric)
    ensures IsTimed(r.timing) && AllTimed(r.syllables)
    ensures r.timing.offset == l.timing.offset && r.timing.payload == l.timing.payload
    ensures SameItems(l.syllables, r.syllables)
  {
    Lyric(SetTiming(l.timing), SetAll(l.syllables))
  }

  /** Every item of the data, including every per-part note and every syllable, is timed. */
  predicate Resolved(d: MusicTimings) {
    && AllTimed(d.allNotes)
    && (forall p | p in d.notesByPart :: AllTimed(d.notesByPart[p]))
    && AllTimed(d.chords)
    && (forall i | 0 <= i < |d.lyrics| :: IsTimed(d.lyrics[i].timing) && AllTimed(d.lyrics[i].syllables))
    && AllTimed(d.keys)
    && AllTimed(d.chordRoots)
  }

  /** `d` and `e` hold the same items with the same offsets and payloads, in the same places. */
  predicate SameShape(d: MusicTimings, e: MusicTimings) {
    && SameItems(d.allNotes, e.allNotes)
    && d.notesByPart.Keys == e.notesByPart.Keys
    && (forall p | p in d.notesByPart :: SameItems(d.notesByPart[p], e.notesByPart[p]))
    && SameItems(d.chords, e.chords)
    && |d.lyrics| == |e.lyrics|
    && (forall i | 0 <= i < |d.lyrics| ::
          && d.lyrics[i].timing.offset == e.lyrics[i].timing.offset
          && d.lyrics[i].timing.payload == e.lyrics[i].timing.payload
          && SameItems(d.lyrics[i].syllables, e.lyrics[i].syllables))
    && SameItems(d.keys, e.keys)
    && SameItems(d.chordRoots, e.chordRoots)
  }

  /** `resolve_timing`: stamps every timed item of the data. */
  function ResolveTiming(d: MusicTimings): (r: MusicTimings)
    ensures Resolved(r)
    ensures SameShape(d, r)
  {
    MusicTimings(
      SetAll(d.allNotes),
      map p | p in d.notesByPart :: SetAll(d.notesByPart[p]),
      SetAll(d.chords),
      seq(|d.lyrics|, i requires 0 <= i < |d.lyrics| => SetLyric(d.lyrics[i])),
      SetAll(d.keys),
      SetAll(d.chordRoots))
  }

  /** Items with equal offsets and payloads that are both timed are equal. */
  lemma {:induction false} TimedItemsEqual(a: seq<Timed>, b: seq<Timed>)
    requires SameItems(a, b) && AllTimed(a) && AllTimed(b)
    ensures a == b
  {
    forall i | 0 <= i < |a| ensures a[i] == b[i] {
      assert IsTimed(a[i]) && IsTimed(b[i]);
    }
  }

  /** Resolved data that agrees with `d` on everything but times is exactly the resolution of `d`. */
  lemma {:induction false} ResolvedIsUnique(d: MusicTimings, e: MusicTimings)
    requires SameShape(d, e) && Resolved(e)
    ensures ResolveTiming(d) == e
  {
    var r := ResolveTiming(d);
    TimedItemsEqual(r.allNotes, e.allNotes);
    TimedItemsEqual(r.chords, e.chords);
    TimedItemsEqual(r.keys, e.keys);
    TimedItemsEqual(r.chordRoots, e.chordRoots);
    forall p | p in d.notesByPart ensures r.notesByPart[p] == e.notesByPart[p] {
      TimedItemsEqual(r.notesByPart[p], e.notesByPart[p]);
    }
    assert r.notesByPart == e.notesByPart;
    forall i | 0 <= i < |d.lyrics| ensures r.lyrics[i] == e.lyrics[i] {
      TimedItemsEqual(r.lyrics[i].syllables, e.lyrics[i].syllables);
      assert IsTimed(r.lyrics[i].timing) && IsTimed(e.lyrics[i].timing);
    }
    assert r.lyrics == e.lyrics;
  }

  /** Resolving is idempotent, and already-resolved data is left as it is. */
  lemma ResolveTimingIdempotent(d: MusicTimings)
    ensures ResolveTiming(ResolveTiming(d)) == ResolveTiming(d)
    ensures Resolved(d) ==> ResolveTiming(d) == d
  {
    var r := ResolveTiming(d);
    ResolvedIsUnique(r, r);
    if Resolved(d) {
      ResolvedIsUnique(d, d);
    }
  }
}

=== FILE: wrappers.dfy ===
/** Option and Result, the two failure-carrying wrappers the rest of the model uses. */
module Wrappers {

  /** A value that may be absent (Python's `None`). */
  datatype Option<+T> = None | Some(value: T) {
    function GetOr(default: T): T {
      match this
      case Some(v) => v
      case None => default
    }
  }

  /** The outcome of an operation that may raise: `Ok` carries the value, `Err` the exception. */
  datatype Result<+T, +E> = Ok(value: T) | Err(error: E) {
    predicate IsFailure() {
      Err?
    }

    function PropagateFailure<U>(): Result<U, E>
      requires Err?
    {
      Err(error)
    }

    function Extract(): T
      requires Ok?
    {
      value
    }
  }
}
